=== FILE: README.md ===
# fouta_app triggers, modelled in Dafny

The fouta_app backend is a set of Firestore and Cloud Functions triggers.
This project models the decision each trigger makes. Each one is a pure
transition over an abstract document store or a pure function of its input,
with the properties its code and tests promise stated and proved.

- **Content safety** (`checkSafetyRules`). An ordered, short-circuiting validator over an untyped payload.
- **Daily metrics rollup**:
  - the window of the previous UTC day, with `Date.UTC` day-0 normalisation and the two-digit-year rule;
  - the `YYYY-MM-DD` key;
  - the half-open `createdAt` count;
  - the merge write of the four counts.
- **Paginated counting**. The counter the rollup tests call, as a loop over the two query doubles of those tests.
- **Scheduled posts**. The deployed sweep, which deletes due items and publishes nothing. Also the publisher its tests describe, with the classifier as a parameter.
- **Batched notifications**. The queue write and the preference-filtered move to the inbox.
- **Unread counters**. The recipient choice and the +1/+1 batch on a new message. Also the decrement on read, with its guard and early return.
- **Interaction routing**. Who is looked up for a push when a post, comment or chat message is created.
- **Story expiry**. The strict `expiresAt < now` sweep, deleted in one batch.
- **Index validator**. The rule that every index field carries exactly one of `order`, `arrayConfig` and `vectorConfig`, with the report and the exit status.

Shared modules:
- `Common`: options and decimal digits.
- `JsonValue`: parsed JSON, also used as the JS `any` payload, with truthiness, `?.`, `??`, own keys, `String(v)` and iteration.
- `Text`: ASCII trim, lower case, `includes`, `startsWith` and `split`.
- `Calendar`: a verified days-to-civil-date conversion.
- `Documents`: the user, chat and post documents the chat triggers use.

Conventions:
- Instants are integer milliseconds.
- A handler that throws is `None` or `Threw`. Nothing it would have batched is written.
- I/O is replaced by parameters:
  - `now`;
  - the server write time;
  - generated document ids;
  - the feature flag;
  - whether `FCM_SERVER_KEY` is set;
  - the publisher's classifier.

## Model

| member | source | states |
|---|---|---|
| SafetyRules.CheckSafetyRules | functions/src/safetyRules.ts:9-31 | It throws exactly when a truthy `content` is not a string. Each reason is returned exactly when the earlier checks pass and its own check fails. The checks, in order: blank after trim; trimmed length over 5000; the lower-cased text contains `spam`, `scam` or `fake`; an array `media` holds a non-`https://` entry. `ok` holds iff every check passes, and iff no reason is given. |
| SafetyRules.RawContent | functions/src/safetyRules.ts:10 | `(data?.content \|\| '')` before `trim`: the call throws exactly when `content` is truthy and not a string; a non-empty result is the `content` string itself |
| SafetyRules.SomeIncluded | functions/src/safetyRules.ts:18 | true iff one of the words occurs in the text |
| SafetyRules.AllSecure | functions/src/safetyRules.ts:22-28 | true iff every media entry is a string starting with `https://` |
| SafetyRules.MissingContentIsEmpty | functions/src/safetyRules.ts:10-13 | a payload without `content`, or no payload at all, is rejected as `empty-content` |
| SafetyRules.TooLongBeforeForbidden | functions/src/safetyRules.ts:14-20 | content whose trimmed length exceeds 5000 is `too-long`, whatever words it contains |
| SafetyRules.MaxLengthPassesLengthCheck | functions/src/safetyRules.ts:14-16 | exactly 5000 trimmed characters do not give `too-long` |
| SafetyRules.ForbiddenWordRejected | functions/src/safetyRules.ts:17-20 | a forbidden word anywhere in the lower-cased content, within the length bound, gives `forbidden-content` |
| SafetyRules.AcceptedWhenClean | functions/src/safetyRules.ts:29 | content that passes all four checks is accepted with no reason |
| SafetyRules.RejectsForbiddenWords | functions/test/safetyRules.test.ts:29-33 | `this is spam` is rejected as `forbidden-content` |
| SafetyRules.AcceptsValidContent | functions/test/safetyRules.test.ts:5-8 | `hello world` with media `https://a` is accepted |
| SafetyRules.RejectsInsecureMedia | functions/test/safetyRules.test.ts:23-27 | `ok` with media `http://a` is rejected as `insecure-media-url` |
| SafetyRules.HatewordIsAccepted | functions/src/safetyRules.ts:7 | the classifier accepts `hateword1`; the publisher test's `forbidden_terms` rejection cannot come from it |
| Text.Trim | functions/src/safetyRules.ts:10 | the result is the slice of the input that starts right after its leading white space, only white space lies on either side of it, and it starts and ends with non-space |
| Text.TrimEmptyIff | functions/src/safetyRules.ts:11 | trimming yields empty iff the text is all whitespace |
| Text.ToLower | functions/src/safetyRules.ts:17 | same length; each character lower-cased, ASCII `A`-`Z` only |
| Text.Contains | functions/src/safetyRules.ts:18 | true iff the word occurs at some position |
| Text.Split | functions/index.js:117 | at least one part, and no part contains the separator |
| Text.JoinSplit | functions/index.js:117 | joining the parts of a split gives the original string back |
| Text.SplitJoin | functions/index.js:117 | splitting a join of separator-free parts gives the parts back |
| Calendar.CivilFromDays | functions/src/rollupDailyMetrics.ts:11-13 | the date of a day number is a valid date whose day number is that number |
| Calendar.UtcDate | functions/src/rollupDailyMetrics.ts:11-12 | `getUTCFullYear`, `getUTCMonth() + 1` and `getUTCDate` form a valid date whose day number is the time's UTC day, and the time lies within that date's 24 hours |
| Calendar.MakeDay | functions/src/rollupDailyMetrics.ts:11-12 | with the month in range, the day count of that year, month and day, even when the day is 0 (the day before the 1st) or runs past the month's end |
| Calendar.DateUtc | functions/src/rollupDailyMetrics.ts:11-12 | `Date.UTC` is always a UTC midnight. With the month in range it is midnight of the counted day, and years 0 to 99 are counted as 1900 + year. |
| Calendar.IsoDateKey | functions/src/rollupDailyMetrics.ts:13 | in years 0 to 9999, `toISOString().slice(0, 10)` has 10 characters and parses back to the time's UTC date |
| Calendar.CivilFromDaysOfCivil | functions/src/rollupDailyMetrics.ts:11-13 | for a valid date, date to day number to date is the identity |
| Calendar.DaysFromCivilInjective | functions/src/rollupDailyMetrics.ts:13 | distinct valid dates have distinct day numbers |
| Calendar.DayBeforeFirstOfMonth | functions/src/rollupDailyMetrics.ts:11 | the day before the 1st is the last day of the previous month: Feb 29 in leap years, Dec 31 of the previous year in January |
| Calendar.MakeDayOfDate | functions/src/rollupDailyMetrics.ts:11-12 | `Date.UTC`'s day computation agrees with the civil day count on valid dates |
| Calendar.IsoDateRoundTrip | functions/src/rollupDailyMetrics.ts:13 | the `YYYY-MM-DD` prefix of a date in years 0-9999 has 10 characters and parses back to that date |
| DailyMetrics.WindowIsPreviousUtcDay | functions/src/rollupDailyMetrics.ts:10-12 | `end` is midnight UTC of now's date. `start` is one day earlier. `start < end <= now < end + 1 day`, and `start` falls on the previous UTC day. |
| DailyMetrics.RollupWindow | functions/src/rollupDailyMetrics.ts:10-13 | `start` is a UTC midnight and `end` is exactly one day later. Outside years 0 to 99, `end` is midnight of now's UTC day. |
| DailyMetrics.WindowStart | functions/src/rollupDailyMetrics.ts:11 | `Date.UTC(y, m, d - 1)` is a midnight. For a valid date outside years 0 to 99 it is midnight of the day before. |
| DailyMetrics.WindowEnd | functions/src/rollupDailyMetrics.ts:12 | `Date.UTC(y, m, d)` is a midnight exactly one day after `WindowStart`. For a valid date outside years 0 to 99 it is midnight of that date. |
| DailyMetrics.WindowRollsOverMonth | functions/src/rollupDailyMetrics.ts:11 | on the 1st of a month, `start` is the last day of the previous month |
| DailyMetrics.KeyIsPreviousDate | functions/src/rollupDailyMetrics.ts:13 | the key has 10 characters and parses to the date before now's UTC date |
| DailyMetrics.KeysOfDistinctDaysDiffer | functions/src/rollupDailyMetrics.ts:13 | runs on different UTC days write different keys |
| DailyMetrics.LeapDayWindow | functions/src/rollupDailyMetrics.ts:11-13 | at noon UTC on 1 March 2024 the key is `2024-02-29` |
| DailyMetrics.TwoDigitYearWindow | functions/src/rollupDailyMetrics.ts:11-12 | in years 0-99, `Date.UTC` reads the year as 1900 + y, so the window lies more than 1000 days after now |
| DailyMetrics.CountAdjacentWindows | functions/src/rollupDailyMetrics.ts:18-19 | counts over `[a, b)` and `[b, c)` add up to the count over `[a, c)` |
| DailyMetrics.CountCreated | functions/src/rollupDailyMetrics.ts:15-22 | `snap.size` of the two `where` filters is the number of positions whose record has a `createdAt` with `start <= createdAt < end`; a record without `createdAt` is never counted |
| DailyMetrics.ConsecutiveDaysAdjacent | functions/src/rollupDailyMetrics.ts:10-21 | one day's `end` is the next day's `start`, so consecutive counts neither overlap nor leave a gap |
| DailyMetrics.MergeSet | functions/src/rollupDailyMetrics.ts:29-41 | merge set: the given fields overwrite, the record's other fields stay, other records are untouched, and the key exists afterwards |
| DailyMetrics.MergeSetOverwrites | functions/src/rollupDailyMetrics.ts:40 | a second merge of the same field names replaces the first and adds nothing |
| DailyMetrics.WriteDailyRecord | functions/src/rollupDailyMetrics.ts:24-41 | the counted collections are unchanged. Only the window's key record is written. It holds the four window counts and the write time and keeps its other fields. |
| DailyMetrics.RollupDailyMetrics | functions/src/rollupDailyMetrics.ts:9-42 | one run writes the previous day's four counts under its key and leaves every other record as it was |
| DailyMetrics.WriteTwiceOverwrites | functions/src/rollupDailyMetrics.ts:29-41 | writing the same window twice equals writing it once, with the later time |
| DailyMetrics.SameDaySameWindow | functions/src/rollupDailyMetrics.ts:10-13 | two instants on one UTC day give the same window and key |
| DailyMetrics.RerunSameDayOverwrites | functions/src/rollupDailyMetrics.ts:9-42 | re-running on the same day overwrites the record and creates no duplicate |
| PagedQuery.IndexOf | functions/test/rollupDailyMetrics.test.js:25 | the first position of the document, or -1 exactly when it is absent |
| PagedQuery.RelativeIndex | functions/test/rollupDailyMetrics.test.js:29 | a slice index clamped into `[0, len]`, unchanged when already in range |
| PagedQuery.LimitedGetIsContiguous | functions/test/rollupDailyMetrics.test.js:21-31 | after `limit(n)`, `get` returns at most `n` documents, contiguous from the start position |
| PagedQuery.StartAfterResumes | functions/test/rollupDailyMetrics.test.js:24-27 | on distinct documents, `startAfter(d)` resumes right after `d` and keeps the limit |
| PagedQuery.StartAfterMissingRestarts | functions/test/rollupDailyMetrics.test.js:24-27 | `startAfter(d)` with a `d` not in the data restarts from index 0 |
| PagedQuery.PastLastPageIsEmpty | functions/test/rollupDailyMetrics.test.ts:12-16 | the page double returns no documents past its last page |
| PagedQuery.PageSchedule | functions/test/rollupDailyMetrics.test.js:35-37 | full pages, then one short page, summing to `n` |
| PagedQuery.ScheduleOfFullThenShort | functions/test/rollupDailyMetrics.test.js:35-37 | any full-then-short list of page sizes is the schedule of its sum |
| PagedQuery.ArrayStepKeeps | functions/test/rollupDailyMetrics.test.js:15-31 | one fetch over the array double keeps the counter invariant: the total counts the documents before the cursor, and the measure decreases |
| PagedQuery.PageStepKeeps | functions/test/rollupDailyMetrics.test.ts:4-17 | one fetch over the page double keeps the counter invariant, and the measure decreases |
| PagedQuery.CountPaged | functions/test/rollupDailyMetrics.test.js:15-37 | the total is the sum of page sizes and the number of documents seen, and counting stops at the first short page. On the array double it counts exactly the documents from the start, equal to one unlimited `get`, in the page schedule. On the page double it counts through the first page shorter than the page size. |
| PagedQuery.NoShortPageCountsAll | functions/test/rollupDailyMetrics.test.ts:12-16 | with no short page left, the count is the sum of the remaining page sizes |
| PagedQuery.TwelveHundredInPagesOf500 | functions/test/rollupDailyMetrics.test.js:35-37 | 1200 documents in pages of 500 come as 500, 500, 200 |
| PagedQuery.CountTwelveHundred | functions/test/rollupDailyMetrics.test.js:34-39 | counting 1200 distinct documents with page size 500 gives 1200, in pages 500, 500, 200 |
| PagedQuery.CountFullPageThenFive | functions/test/rollupDailyMetrics.test.ts:19-24 | a full page then a page of 5 counts `PAGE_SIZE + 5` |
| SchedulePosts.KeepNotDue | functions/src/schedulePosts.ts:20-24 | an item remains iff it is not due (`publishAt <= now`) |
| SchedulePosts.DueItems | functions/src/schedulePosts.ts:20-21 | an item is selected iff it is due |
| SchedulePosts.SweepPartitions | functions/src/schedulePosts.ts:20-24 | the deleted and the kept items together are the original items, as a multiset |
| SchedulePosts.KeepNotDueIdempotent | functions/src/schedulePosts.ts:20-24 | sweeping the kept items again keeps them all |
| SchedulePosts.SchedulePosts | functions/src/schedulePosts.ts:10-28 | every listed user's due items are deleted and the rest kept. Unlisted users' items, the posts and the moderation entries are unchanged. |
| SchedulePosts.SweepTwiceSameNow | functions/src/schedulePosts.ts:13-24 | a second sweep with the same `now` deletes nothing more |
| SchedulePosts.SweepDeletesDueItem | functions/src/schedulePosts.ts:20-24 | a due item of a listed user is gone afterwards, and that user's list shrinks |
| SchedulePosts.FlagOffScenarioStillDeletes | functions/test/schedulePosts.test.ts:124-134 | a store like the flag-off test's, with one due item, has that item deleted by the deployed sweep, which reads no flag |
| SchedulePosts.AcceptedDue | functions/test/schedulePosts.test.ts:68-78 | an item is selected iff it is due and the classifier accepts it; as many as the accepted count |
| SchedulePosts.PublishItems | functions/test/schedulePosts.test.ts:68-122 | the posts become the old posts followed by one post per accepted due item, in item order, carrying its payload, by the user at `now`. One moderation entry per rejected due item under its id, with the reason, the payload, `createdBy` = the user and `now`. The moderation keys grow by exactly those ids; other entries are kept. |
| SchedulePosts.PublishUser | functions/test/schedulePosts.test.ts:68-122 | one user's due items are removed whatever the verdict. The posts become the old posts followed by the accepted due payloads in order, by that user at `now`. The moderation keys grow by exactly the rejected ids, each such entry matching its item, and other entries and other users are untouched. |
| SchedulePosts.PublishUsers | functions/test/schedulePosts.test.ts:68-122 | every listed user's due items are removed and the rest kept. Existing posts stay as a prefix and new posts are by listed users. No moderation key is lost; entries with the same item id are overwritten. |
| SchedulePosts.PublishDueScheduledPosts | functions/test/schedulePosts.test.ts:4 | a run over the listed users: each one's due items are removed and the rest kept, and other users' items are untouched. Existing posts stay as a prefix; every new post is by a listed user at `now`. No moderation key is lost. |
| SchedulePosts.PublishOneUser | functions/test/schedulePosts.test.ts:68-122 | with one listed user, the run is exactly that user's step |
| SchedulePosts.PublishedPosts | functions/test/schedulePosts.test.ts:68-78 | over distinct users, the posts become the old posts followed by each user's accepted due payloads, user by user, in item order |
| SchedulePosts.QuarantinedRecorded | functions/test/schedulePosts.test.ts:80-122 | after a run, every rejected due item of a listed user has a moderation entry under its id |
| SchedulePosts.ScheduledRun | functions/test/schedulePosts.test.ts:124-134 | with the flag off the run changes nothing; on, it is the publisher |
| SchedulePosts.NothingDueUnchanged | functions/test/schedulePosts.test.ts:68-122 | with no due items the publisher changes nothing |
| SchedulePosts.PublishTwiceSameNow | functions/test/schedulePosts.test.ts:68-122 | a second run with the same `now` changes nothing more |
| SchedulePosts.AcceptedScenario | functions/test/schedulePosts.test.ts:68-78 | an accepted due item gives exactly one post, carrying its payload, by `user1` at `now`, no moderation entry, and is removed |
| SchedulePosts.RejectedScenario | functions/test/schedulePosts.test.ts:80-122 | a rejected due item gives no post and one entry with reason `forbidden_terms` and `createdBy` `user1`, and is removed |
| SchedulePosts.PublishedCount | functions/test/schedulePosts.test.ts:75-76 | over distinct users, the posts grow by exactly the total number of accepted due items |
| NotifyBatched.OtherIds | functions/src/notifyBatched.ts:12-23 | an entry is kept iff its id is not the given one; without that id the list is unchanged |
| NotifyBatched.Upsert | functions/src/notifyBatched.ts:12-23 | `doc(id).set`: as a multiset, the result is the entries with other ids plus exactly the new entry, and every entry carrying the id is the new one |
| NotifyBatched.UpsertNewId | functions/src/notifyBatched.ts:12-23 | an id not yet present is added after all the existing entries |
| NotifyBatched.UpsertOverwrites | functions/src/notifyBatched.ts:12-23 | a second `set` with the same id gives the same list as the second `set` alone, so two interactions in one millisecond leave one item |
| NotifyBatched.UpsertKeepsDistinct | functions/src/notifyBatched.ts:12-23 | on distinct ids the ids stay distinct, so exactly one entry carries the id; the list keeps its length for an existing id and grows by one for a new one |
| NotifyBatched.Enqueue | functions/src/notifyBatched.ts:8-24 | a falsy `targetUid` changes nothing and a non-string one throws. Otherwise that uid's queue is, as a multiset, its entries with other ids plus exactly one item with `type`, `actorId`, `postId`, `commentId` and the write time; a new id is appended after the pending items. Nothing else changes. |
| NotifyBatched.ItemOf | functions/src/notifyBatched.ts:17-23 | each of `type`, `actorId`, `postId` and `commentId` is present exactly when the interaction has an own member of that name, and then holds that member's value; `createdAt` is the server write time |
| NotifyBatched.EnqueueKeepsDistinct | functions/src/notifyBatched.ts:12-23 | an enqueue keeps the target queue's ids distinct and adds one entry unless the id was already queued |
| NotifyBatched.AllowedEntries | functions/src/notifyBatched.ts:44-45 | an entry is kept iff the preference for its type is not literally `false` |
| NotifyBatched.Allowed | functions/src/notifyBatched.ts:45 | a type with no stored preference is allowed; so is one stored as `null`, `true`, `0` or `"false"`; only a stored boolean `false` turns it off |
| NotifyBatched.DisallowedEntries | functions/src/notifyBatched.ts:45 | an entry is kept iff its type's preference is literally `false` |
| NotifyBatched.DispatchConserves | functions/src/notifyBatched.ts:45-55 | the allowed and disallowed entries together are the queue, as a multiset |
| NotifyBatched.Unread | functions/src/notifyBatched.ts:50-51 | the multiset of the unread copies of the entries, one per entry, in queue order: no copy missing, none duplicated |
| NotifyBatched.DispatchUser | functions/src/notifyBatched.ts:30-58 | an empty queue is skipped. Otherwise the user's queue keeps only the disallowed entries, the user's inbox gains the unread copies of the allowed entries, and the other map entries stay. A line is logged only when the count is positive. |
| NotifyBatched.DispatchUserInbox | functions/src/notifyBatched.ts:45-55 | the user's inbox becomes the old inbox plus exactly one unread copy of each allowed entry; every other user's queue and inbox are unchanged |
| NotifyBatched.DispatchDeliversAllowed | functions/src/notifyBatched.ts:45-51 | an item is added to the user's inbox iff it is unread and carries the fields of a queued entry whose type the user has not turned off |
| NotifyBatched.DispatchUsers | functions/src/notifyBatched.ts:29-59 | visiting users leaves the queue documents and preferences as they were and adds no queue |
| NotifyBatched.DispatchQueued | functions/src/notifyBatched.ts:26-59 | the run over the existing queue documents keeps those documents and the preferences, and every user without a queue document keeps its queue |
| NotifyBatched.DispatchLeavesOnlyDisallowed | functions/src/notifyBatched.ts:45-55 | after a user's dispatch only disallowed items remain. The queue shrinks and the inbox grows by the allowed count. |
| NotifyBatched.LoggedCountIsDelivered | functions/src/notifyBatched.ts:49-58 | the logged count is the number of items added to the inbox |
| NotifyBatched.EnqueueCreatesNoQueueDoc | functions/src/notifyBatched.ts:12-16 | enqueueing never creates the `notifQueue/{uid}` document |
| NotifyBatched.QueuedNeverDispatched | functions/src/notifyBatched.ts:29 | from an empty store, an enqueued like carrying `targetUid`, `type`, `actorId`, `postId` and `commentId` is never dispatched and stays queued as exactly that one item |
| NotifyBatched.EnqueueWithQueueDoc | functions/src/notifyBatched.ts:12-23 | the corrected enqueue writes the same queues and also records the user's queue document |
| NotifyBatched.EnqueueWithQueueDocKeepsCover | functions/src/notifyBatched.ts:12-23 | the corrected enqueue keeps "every non-empty queue has its document" |
| NotifyBatched.DispatchUsersFrame | functions/src/notifyBatched.ts:30-59 | a user not visited keeps its queue |
| NotifyBatched.DispatchUsersLeavesOnlyDisallowed | functions/src/notifyBatched.ts:30-59 | each visited user is left with only disallowed items |
| NotifyBatched.DispatchReachesEveryQueue | functions/src/notifyBatched.ts:29-59 | when every non-empty queue has its document, dispatch leaves every user only disallowed items |
| Documents.Bump | functions/index.js:44 | incrementing a per-chat counter adds to that key, a missing count reading as 0, and no other key changes |
| Documents.DocId | functions/index.js:35 | a value names a document iff it is a non-empty string |
| Documents.AddToUser | functions/index.js:39-41 | adds to one existing user's global counter; every other user and collection is unchanged |
| UnreadCounters.FirstOther | functions/index.js:28 | the first participant not `===` the sender, or none exactly when all are |
| UnreadCounters.CountMessage | functions/index.js:37-47 | the recipient's global counter and the chat's count for the recipient each grow by exactly 1. Nothing else changes. |
| UnreadCounters.IncrementUnread | functions/index.js:10-47 | no snapshot or chat: no change. Non-array participants: throws. No truthy recipient: no change. A recipient that is not a user id, or a missing user: throws with nothing written. Otherwise both increments. |
| UnreadCounters.RecipientIsFirstNonSender | functions/index.js:26-47 | any change is the increment for the first participant other than the sender |
| UnreadCounters.SyncLoop | functions/index.js:89-107 | all participants skipped: no change. The first non-skipped one throws when it is not a user id. Otherwise that user's old chat count is taken off its global counter. |
| UnreadCounters.SyncOnRead | functions/index.js:76-108 | a missing snapshot: no change. Participants `for...of` cannot iterate: throws. Otherwise the loop over the new participants. |
| UnreadCounters.AllSkippedOrFirstActive | functions/index.js:89-107 | every participant is skipped, or one is the first the loop stops at |
| UnreadCounters.AtMostOneDecrement | functions/index.js:89-107 | a read changes at most one user, by a positive amount no larger than its counter |
| UnreadCounters.CountersStayNonNegative | functions/index.js:100-103 | non-negative global counters stay non-negative through a read |
| UnreadCounters.IncrementDoesNotTriggerRead | functions/index.js:94 | the chat update made by the increment itself never causes a decrement |
| UnreadCounters.MarkRead | functions/index.js:93 | the client's read sets the reader's chat count to 0 and changes no other count |
| UnreadCounters.MessageThenRead | functions/index.js:37-103 | when the recipient reads after a message, its counter ends at its old value minus the chat's earlier count. The participants are strings and the counter covers the chat count. |
| InteractionRouting.KindOf | functions/index.js:121-147 | `posts/x` is a new post. `posts/x/comments…` is a comment on `x` and `chats/x/messages…` a message in `x`; anything else is unrouted. |
| InteractionRouting.Others | functions/index.js:151-152 | a participant is kept iff it is not `===` the sender, and each such participant occurs as often as in the list |
| InteractionRouting.Recipients | functions/index.js:112-161 | no server key, no data, or an unrouted path: nobody |
| InteractionRouting.PostRecipients | functions/index.js:121-125 | the author's followers. Throws when the author id is not a user id, the author document is missing, or the followers cannot be iterated. |
| InteractionRouting.CommentRecipients | functions/index.js:134-138 | the post's author iff it is truthy and not the comment's author, otherwise nobody; throws for a missing post |
| InteractionRouting.MessageRecipients | functions/index.js:147-152 | exactly the participants not `===` the sender, one recipient per occurrence; throws for a missing chat or uniterable participants |
| InteractionRouting.PostPathRoutesToFollowers | functions/index.js:117-125 | a document at `posts/{id}` routes to the new-post recipients |
| InteractionRouting.CommentPathRoutesToAuthor | functions/index.js:134-138 | a document at `posts/{id}/comments/{c}` routes to that post's comment recipients |
| InteractionRouting.MessagePathRoutesToParticipants | functions/index.js:147-152 | a document at `chats/{id}/messages/{m}` routes to that chat's message recipients |
| InteractionRouting.NoSelfCommentNotice | functions/index.js:138 | commenting on one's own post notifies nobody |
| InteractionRouting.SenderNeverNotified | functions/index.js:151-152 | the sender is never a recipient, and every other participant is |
| InteractionRouting.Matching | functions/index.js:151-152 | an entry is kept iff it is `===` the sender, as often as it occurs |
| InteractionRouting.OthersCount | functions/index.js:151-152 | recipients plus sender occurrences are the participants, as a multiset and in number |
| ExpireStories.QueryExpired | functions/src/expireStories.ts:13 | a story is selected iff its `expiresAt` is a timestamp strictly before `now` |
| ExpireStories.CommitDeletes | functions/src/expireStories.ts:14-16 | the batch removes exactly the named documents and leaves the others untouched |
| ExpireStories.Expire | functions/src/expireStories.ts:8-17 | a story survives iff it has not expired, and survivors are unchanged |
| ExpireStories.BoundaryIsStrict | functions/src/expireStories.ts:13 | a story expiring exactly at `now` is kept; one expiring a millisecond earlier is deleted |
| ExpireStories.DeletedPlusKept | functions/src/expireStories.ts:13-16 | deleted plus kept stories number the collection |
| ExpireStories.ExpireIdempotent | functions/src/expireStories.ts:13-16 | re-running with the same `now` deletes nothing more |
| ExpireStories.LaterRunSubsumes | functions/src/expireStories.ts:9-16 | a run then a later run deletes exactly what the later run alone would, and a later run keeps a subset |
| IndexValidator.ConfigCount | scripts/validate-firestore-indexes.mjs:19-22 | at most 3, and 0 iff none of the three keys is owned |
| IndexValidator.FieldBads | scripts/validate-firestore-indexes.mjs:17-31 | every flagged field of the index is reported once, with its path and keys, in field order |
| IndexValidator.IndexBads | scripts/validate-firestore-indexes.mjs:14-33 | exactly the flagged fields of indexes with an array `fields` are reported, each with its report, in index-major, field-minor order |
| IndexValidator.Validate | scripts/validate-firestore-indexes.mjs:13-44 | crashes iff the file or one of its indexes is `null`. A non-array `indexes` passes. The report is exactly the flagged fields, in order. The status is 1 iff something is reported. |
| IndexValidator.FailsIffSomeFieldFlagged | scripts/validate-firestore-indexes.mjs:35-44 | the run fails iff some index lists a non-null object field without exactly one of the keys |
| IndexValidator.NonObjectsNeverFlagged | scripts/validate-firestore-indexes.mjs:18 | null, booleans, numbers and strings are never reported |
| IndexValidator.ArrayEntryFlagged | scripts/validate-firestore-indexes.mjs:18-29 | an array entry is always reported, with the placeholder path and its index keys |
| IndexValidator.ExactlyOnePasses | scripts/validate-firestore-indexes.mjs:19-23 | an object field owning one of the keys passes iff it owns neither of the other two, whatever its values and other members |
| IndexValidator.FlaggedByNamesOnly | scripts/validate-firestore-indexes.mjs:19-29 | two object fields with the same member names are reported alike, with the same keys, whatever their values |
| IndexValidator.TwoConfigsFlagged | scripts/validate-firestore-indexes.mjs:19-29 | a field with both `order` and `arrayConfig` is reported, with its path and all its keys |
| JsonValue.Coalesce | scripts/validate-firestore-indexes.mjs:27 | `??` replaces only `undefined` and `null` |
| JsonValue.Names | scripts/validate-firestore-indexes.mjs:28 | `Object.keys`: each member name once, and only those |
| JsonValue.IterItems | functions/index.js:89 | `for...of` over `v \|\| []`. Falsy values give nothing, arrays their items, strings their characters, anything else throws. |
| JsonValue.ArrayItems | functions/index.js:26-28 | `(v \|\| []).find`: falsy values give no items, a truthy array gives exactly its items, and any other truthy value throws |

## Left out

- `processMedia` (functions/index.js:163-263) is image and video transcoding with native libraries and temporary files.
- Push delivery is left out. That covers token lookup, payload building, `sendEachForMulticast`/`send` and swallowed send errors (functions/index.js:49-68 and 125-160). Only the recipients are modelled.
- `functions/src/openGraph.ts` (a network fetch and HTML scraping) is not part of this model.
- `android/app/build.gradle.kts` (build configuration) is not part of this model.
- The validator's file reading, `JSON.parse` and the printed messages are left out. The model starts from the parsed value and yields the report and the status.
- Firestore beyond the abstraction is left out:
  - query planning and batch size limits;
  - the rejection of `undefined` field values;
  - `serverTimestamp()` and `Date.now()` ids, which are parameters.
  Batches are atomic updates. Ids containing `/`, or dots inside the `unreadCounts.{uid}` field path, are treated as single segments.
- Concurrency between triggers is left out, and so is at-least-once delivery. Each invocation is one sequential transition.
- JS `Date` is left out as floating point and `TimeClip`: instants are integer milliseconds. `trim` and `toLowerCase` are ASCII-only, and string length counts characters, not UTF-16 units.
- Object keys are kept in insertion order. JavaScript's hoisting of integer-like keys is not modelled.
- Cron strings and environment reads (`APP_ID`, `SCHEDULED_POSTS_ENABLED`, `FCM_SERVER_KEY`) are left out. The flag and key presence are parameters.
- `functions/src/rollupDailyMetrics.ts` exports no `countPaged` and no `paginatedCount`, although its tests import both. `PagedQuery.CountPaged` is the loop those tests describe: fetch `limit(P)` pages after the last document and stop at the first short page.
- PagedQuery.CountPaged: requires distinct documents and a non-negative start on the array double. `startAfter` resumes after the first occurrence of the cursor, so with duplicates a run can re-read documents forever. A negative start does not loop: its first slice is empty, so the run stops and miscounts. The ensures states the count as `|data[start..]|`, which needs `start >= 0`.
- SchedulePosts.RejectedScenario: the rejection test's stub item has no `publishAt`; its stub query returns the item regardless, so the scenario gives the item `publishAt = now`.
- SchedulePosts.PublishItems: `functions/src/schedulePosts.ts` exports no `publishDueScheduledPosts`, although its test imports it. The publisher is modelled from that test, with the classifier as a parameter, since the repository's classifier does not produce the reason the test expects (see `SafetyRules.HatewordIsAccepted`).
- NotifyBatched.DispatchUser: inbox document ids are random, so the inbox is a multiset. The order in which queued items are read is not modelled.
- SchedulePosts.PublishItems: posts and moderation entries carry `createdAt = now`, the run's instant. The publisher's test stubs `FieldValue.serverTimestamp`, which points to a server write time; the model does not tell the two apart.
- JSON numbers are integers (`JsonValue.Num`). Fractions, `NaN` and infinities are not modelled, and nor are property keys such as `String(1.5)`.
- UnreadCounters.IncrementUnread: counters are numbers, since they are only written by `increment`. Non-numeric counter values and a non-map `unreadCounts` are not modelled.
- InteractionRouting.Recipients: only the recipient list is computed. A follower or participant value that makes an invalid token path, and so throws mid-loop after earlier sends, is not modelled.

## Findings

| source | as written | input that shows it | evidently intended | confidence | as-written member | corrected member |
|---|---|---|---|---|---|---|
| functions/src/schedulePosts.ts:10-28 | The sweep reads no feature flag and always deletes every due item, so with the flag off in production the sweep still deletes. | A store with one due item and `SCHEDULED_POSTS_ENABLED='false'`: the sweep deletes the item. The flag-off test (functions/test/schedulePosts.test.ts:124-134) expects no deletion; in that test line 13 throws first, since the stub `admin.firestore` has no `Timestamp`. | With the flag off, a run changes nothing. | not executed | SchedulePosts.FlagOffScenarioStillDeletes | SchedulePosts.ScheduledRun |
| functions/src/notifyBatched.ts:12-16 | `queueNotification` writes only `notifQueue/{uid}/items/{id}` and never creates `notifQueue/{uid}`. Dispatch lists `notifQueue` with `get()` (line 29), which returns only existing documents. | An empty store, then an interaction `{targetUid: "u1", type: "like", actorId: "a1", postId: "p1", commentId: "c1"}`: the item is queued, but dispatch visits nobody, and the item stays queued with the inbox empty. | Every user with queued items is visited by dispatch. | not executed | NotifyBatched.QueuedNeverDispatched | NotifyBatched.DispatchReachesEveryQueue |

=== FILE: calendar.dfy ===
/**
 * Proleptic Gregorian calendar arithmetic on day numbers (days since
 * 1970-01-01, negative before it), the ECMAScript `Date` operations built on
 * it (`Date.UTC`, the `getUTC*` accessors, the date part of `toISOString`),
 * and the ISO 8601 calendar date in extended format, `YYYY-MM-DD`
 * (ISO 8601:2004 section 4.1.2.2).
 */
module Calendar {
  import opened Common

  const MsPerDay: int := 86400000

  /** Days from 0000-01-01 to 1970-01-01. */
  const EpochOffset: int := 719528

  /** A calendar date; `month` is 1-based. */
  datatype Date = Date(year: int, month: int, day: int)

  predicate IsLeapYear(y: int) {
    y % 4 == 0 && (y % 100 != 0 || y % 400 == 0)
  }

  function DaysInYear(y: int): int {
    if IsLeapYear(y) then 366 else 365
  }

  function DaysInMonth(y: int, m: int): int
    requires 1 <= m <= 12
  {
    if m == 2 then (if IsLeapYear(y) then 29 else 28)
    else if m == 4 || m == 6 || m == 9 || m == 11 then 30
    else 31
  }

  predicate ValidDate(d: Date) {
    1 <= d.month <= 12 && 1 <= d.day <= DaysInMonth(d.year, d.month)
  }

  /** Days of year `y` before the first of month `m`; month 13 stands for the next year's start. */
  function DaysBeforeMonth(y: int, m: int): int
    requires 1 <= m <= 13
  {
    var common :=
      if m == 1 then 0 else if m == 2 then 31 else if m == 3 then 59 else if m == 4 then 90
      else if m == 5 then 120 else if m == 6 then 151 else if m == 7 then 181 else if m == 8 then 212
      else if m == 9 then 243 else if m == 10 then 273 else if m == 11 then 304 else if m == 12 then 334
      else 365;
    common + (if m > 2 && IsLeapYear(y) then 1 else 0)
  }

  /** Consecutive months are adjacent; the year is twelve months long. */
  lemma DaysBeforeMonthStep(y: int, m: int)
    requires 1 <= m <= 12
    ensures DaysBeforeMonth(y, m + 1) == DaysBeforeMonth(y, m) + DaysInMonth(y, m)
    ensures DaysBeforeMonth(y, 13) == DaysInYear(y)
  {
  }

  lemma DaysBeforeMonthMonotone(y: int, a: int, b: int)
    requires 1 <= a < b <= 13
    ensures DaysBeforeMonth(y, a + 1) <= DaysBeforeMonth(y, b)
  {
  }

  /** Days from 0000-01-01 to the first of January of year `y`. */
  function YearStart(y: int): int {
    365 * y + (y + 3) / 4 - (y + 99) / 100 + (y + 399) / 400
  }

  /** Consecutive years are adjacent: year `y` runs from `YearStart(y)` for `DaysInYear(y)` days. */
  lemma YearStartStep(y: int)
    ensures YearStart(y + 1) == YearStart(y) + DaysInYear(y)
  {
    StepBy4(y);
    StepBy100(y);
    StepBy400(y);
    ModChain(y);
  }

  /** Every fourth century year is a century year, and every century year is divisible by 4. */
  lemma ModChain(y: int)
    ensures y % 400 == 0 ==> y % 100 == 0
    ensures y % 100 == 0 ==> y % 4 == 0
  {
    if y % 400 == 0 { DivBy100(y, 4 * (y / 400)); }
    if y % 100 == 0 { DivBy4(y, 25 * (y / 100)); }
  }

  lemma StepBy4(y: int)
    ensures ((y + 1) + 3) / 4 == (y + 3) / 4 + (if y % 4 == 0 then 1 else 0)
  {
    DivBy4(y + 4, y / 4 + 1);
    DivBy4(y + 3, if y % 4 == 0 then y / 4 else y / 4 + 1);
  }

  lemma StepBy100(y: int)
    ensures ((y + 1) + 99) / 100 == (y + 99) / 100 + (if y % 100 == 0 then 1 else 0)
  {
    DivBy100(y + 100, y / 100 + 1);
    DivBy100(y + 99, if y % 100 == 0 then y / 100 else y / 100 + 1);
  }

  lemma StepBy400(y: int)
    ensures ((y + 1) + 399) / 400 == (y + 399) / 400 + (if y % 400 == 0 then 1 else 0)
  {
    DivBy400(y + 400, y / 400 + 1);
    DivBy400(y + 399, if y % 400 == 0 then y / 400 else y / 400 + 1);
  }

  lemma DivBy4(a: int, q: int)
    requires 4 * q <= a < 4 * q + 4
    ensures a / 4 == q
  {
  }

  lemma DivBy100(a: int, q: int)
    requires 100 * q <= a < 100 * q + 100
    ensures a / 100 == q
  {
  }

  lemma DivBy400(a: int, q: int)
    requires 400 * q <= a < 400 * q + 400
    ensures a / 400 == q
  {
  }

  /** The calendar repeats every 400 years, which are 146097 days. */
  lemma YearStartCycle(q: int, k: int)
    ensures YearStart(400 * q + k) == 146097 * q + YearStart(k)
  {
    DivBy4(400 * q + k + 3, 100 * q + (k + 3) / 4);
    DivBy100(400 * q + k + 99, 4 * q + (k + 99) / 100);
    DivBy400(400 * q + k + 399, q + (k + 399) / 400);
  }

  lemma {:induction false} YearStartMonotone(a: int, b: int)
    requires a < b
    ensures YearStart(a) < YearStart(b)
    decreases b - a
  {
    YearStartStep(a);
    if a + 1 < b {
      YearStartMonotone(a + 1, b);
    }
  }

  /** The year containing day `z` (counted from 0000-01-01) is the only one whose span holds it. */
  lemma YearUnique(z: int, y1: int, y2: int)
    requires YearStart(y1) <= z < YearStart(y1 + 1)
    requires YearStart(y2) <= z < YearStart(y2 + 1)
    ensures y1 == y2
  {
    if y1 < y2 {
      if y1 + 1 < y2 { YearStartMonotone(y1 + 1, y2); }
    } else if y2 < y1 {
      if y2 + 1 < y1 { YearStartMonotone(y2 + 1, y1); }
    }
  }

  /** The year `k` of a 400-year cycle holding day `r` of the cycle. */
  function FindYear(r: int, k: int): (y: int)
    requires 0 <= k < 400 && YearStart(k) <= r < 146097
    ensures k <= y < 400
    ensures YearStart(y) <= r < YearStart(y + 1)
    decreases 400 - k
  {
    if r < YearStart(k + 1) then k else FindYear(r, k + 1)
  }

  /** The month of year `y` holding day-of-year `doy`, searched from month `m`. */
  function FindMonth(y: int, doy: int, m: int): (month: int)
    requires 1 <= m <= 12 && DaysBeforeMonth(y, m) <= doy < DaysInYear(y)
    ensures m <= month <= 12
    ensures DaysBeforeMonth(y, month) <= doy < DaysBeforeMonth(y, month + 1)
    decreases 12 - m
  {
    DaysBeforeMonthStep(y, m);
    if doy < DaysBeforeMonth(y, m + 1) then m else FindMonth(y, doy, m + 1)
  }

  /** The day number of a date, counted from 1970-01-01; the day of month may run past the month. */
  function DaysFromCivil(d: Date): int
    requires 1 <= d.month <= 12
  {
    YearStart(d.year) + DaysBeforeMonth(d.year, d.month) + d.day - 1 - EpochOffset
  }

  /** Day `z`, counted from 0000-01-01, falls in year `y`. */
  predicate InYear(z: int, y: int) {
    YearStart(y) <= z < YearStart(y + 1)
  }

  /** The year holding day `z`: whole 400-year cycles, then a year within one. */
  function YearOf(z: int): (y: int)
    ensures InYear(z, y)
    decreases if z < 0 then 146097 - z else z
  {
    if z < 0 then
      var w := YearOf(z + 146097);
      var y := w - 400;
      InYearShift(z, y, z + 146097, w);
      y
    else if z >= 146097 then
      var w := YearOf(z - 146097);
      var y := w + 400;
      InYearShift(z - 146097, w, z, y);
      y
    else
      assert YearStart(0) == 0 && YearStart(400) == 146097;
      FindYear(z, 0)
  }

  /** Four hundred years and 146097 days later, a day is in the corresponding year. */
  lemma InYearShift(z: int, y: int, z': int, y': int)
    requires z' == z + 146097 && y' == y + 400
    ensures InYear(z, y) <==> InYear(z', y')
  {
    YearStartShift(y, y');
    YearStartShift(y + 1, y' + 1);
  }

  /** Four hundred years later the calendar is 146097 days further on. */
  lemma YearStartShift(a: int, b: int)
    requires b == a + 400
    ensures YearStart(b) == YearStart(a) + 146097
  {
    YearStartCycle(1, a);
  }

  /** The calendar date of a day number: a valid date that maps back to the same day number. */
  function CivilFromDays(n: int): (d: Date)
    ensures ValidDate(d)
    ensures DaysFromCivil(d) == n
  {
    var z := n + EpochOffset;
    var y := YearOf(z);
    YearStartStep(y);
    var doy := z - YearStart(y);
    var m := FindMonth(y, doy, 1);
    DaysBeforeMonthStep(y, m);
    Date(y, m, doy - DaysBeforeMonth(y, m) + 1)
  }

  /** A valid date lies inside its year and inside its month. */
  lemma DateWithinYear(d: Date)
    requires ValidDate(d)
    ensures 0 <= DaysBeforeMonth(d.year, d.month) + d.day - 1 < DaysInYear(d.year)
    ensures YearStart(d.year) <= DaysFromCivil(d) + EpochOffset < YearStart(d.year + 1)
  {
    DaysBeforeMonthStep(d.year, d.month);
    if d.month < 12 { DaysBeforeMonthMonotone(d.year, d.month, 12); }
    DaysBeforeMonthStep(d.year, 12);
    YearStartStep(d.year);
  }

  /** Two valid dates with the same day number are the same date. */
  lemma DaysFromCivilInjective(d: Date, e: Date)
    requires ValidDate(d) && ValidDate(e)
    requires DaysFromCivil(d) == DaysFromCivil(e)
    ensures d == e
  {
    assert d.year == e.year by {
      DateWithinYear(d);
      DateWithinYear(e);
      YearUnique(DaysFromCivil(d) + EpochOffset, d.year, e.year);
    }
    assert DaysBeforeMonth(d.year, d.month) + d.day == DaysBeforeMonth(d.year, e.month) + e.day;
    MonthUnique(d.year, d.month, d.day, e.month, e.day);
  }

  /** Within one year, the day of the year determines the month (and so the day of the month). */
  lemma MonthUnique(y: int, m1: int, day1: int, m2: int, day2: int)
    requires 1 <= m1 <= 12 && 1 <= day1 <= DaysInMonth(y, m1)
    requires 1 <= m2 <= 12 && 1 <= day2 <= DaysInMonth(y, m2)
    requires DaysBeforeMonth(y, m1) + day1 == DaysBeforeMonth(y, m2) + day2
    ensures m1 == m2
  {
    DaysBeforeMonthStep(y, m1);
    DaysBeforeMonthStep(y, m2);
    if m1 < m2 { DaysBeforeMonthMonotone(y, m1, m2); }
    if m2 < m1 { DaysBeforeMonthMonotone(y, m2, m1); }
  }

  /** Every valid date is the calendar date of its own day number. */
  lemma CivilFromDaysOfCivil(d: Date)
    requires ValidDate(d)
    ensures CivilFromDays(DaysFromCivil(d)) == d
  {
    DaysFromCivilInjective(d, CivilFromDays(DaysFromCivil(d)));
  }

  /** The date before the first of a month is the last day of the previous month. */
  function LastDayOfPreviousMonth(year: int, month: int): (d: Date)
    requires 1 <= month <= 12
    ensures ValidDate(d)
  {
    if month == 1 then Date(year - 1, 12, 31)
    else Date(year, month - 1, DaysInMonth(year, month - 1))
  }

  /** Stepping back one day from the first of a month rolls over to the previous month, or year. */
  lemma DayBeforeFirstOfMonth(year: int, month: int)
    requires 1 <= month <= 12
    ensures CivilFromDays(DaysFromCivil(Date(year, month, 1)) - 1) == LastDayOfPreviousMonth(year, month)
  {
    var p := LastDayOfPreviousMonth(year, month);
    var n := DaysFromCivil(Date(year, month, 1)) - 1;
    PreviousMonthEndsBefore(year, month);
    CivilFromDaysOfCivil(p);
    assert DaysFromCivil(p) == n;
  }

  lemma PreviousMonthEndsBefore(year: int, month: int)
    requires 1 <= month <= 12
    ensures DaysFromCivil(LastDayOfPreviousMonth(year, month)) == DaysFromCivil(Date(year, month, 1)) - 1
  {
    if month == 1 {
      YearStartStep(year - 1);
      DaysBeforeMonthStep(year - 1, 12);
      assert DaysBeforeMonth(year - 1, 12) == DaysInYear(year - 1) - 31;
    } else {
      DaysBeforeMonthStep(year, month - 1);
    }
  }

  // ECMAScript Date operations on time values (integer milliseconds since the epoch).

  /** The UTC day number of a time value; the division rounds toward negative infinity. */
  function UtcDay(t: int): int {
    t / MsPerDay
  }

  /** The `getUTCFullYear`, `getUTCMonth() + 1` and `getUTCDate` of a time value. */
  function UtcDate(t: int): (r: Date)
    ensures ValidDate(r) && DaysFromCivil(r) == UtcDay(t)
    ensures DaysFromCivil(r) * MsPerDay <= t < DaysFromCivil(r) * MsPerDay + MsPerDay
  {
    CivilFromDays(UtcDay(t))
  }

  /** ECMAScript MakeDay: the month is normalised into the year, and the day may overflow. */
  function MakeDay(year: int, month0: int, date: int): (r: int)
    ensures 0 <= month0 < 12 ==> r == DaysFromCivil(Date(year, month0 + 1, date))
  {
    assert 0 <= month0 < 12 ==> month0 / 12 == 0 && month0 % 12 == month0;
    var ym := year + month0 / 12;
    var mn := month0 % 12;
    DaysFromCivil(Date(ym, mn + 1, 1)) + date - 1
  }

  /** `Date.UTC(year, month0, date)`: years 0 to 99 are read as 1900 to 1999. */
  function DateUtc(year: int, month0: int, date: int): (r: int)
    ensures r % MsPerDay == 0
    ensures !(0 <= year <= 99) && 0 <= month0 < 12 ==> r == DaysFromCivil(Date(year, month0 + 1, date)) * MsPerDay
    ensures 0 <= year <= 99 && 0 <= month0 < 12 ==> r == DaysFromCivil(Date(1900 + year, month0 + 1, date)) * MsPerDay
  {
    var fullYear := if 0 <= year <= 99 then 1900 + year else year;
    MakeDay(fullYear, month0, date) * MsPerDay
  }

  /** `Date.UTC(y, m, d)` at the components of a valid date is midnight of that date. */
  lemma MakeDayOfDate(d: Date)
    requires ValidDate(d)
    ensures MakeDay(d.year, d.month - 1, d.day) == DaysFromCivil(d)
  {
    MakeDayInYear(d.year, d.month, d.day);
  }

  /** With the month in range, MakeDay is the day count of the date, whether or not the day fits the month. */
  lemma MakeDayInYear(year: int, month: int, day: int)
    requires 1 <= month <= 12
    ensures MakeDay(year, month - 1, day) == DaysFromCivil(Date(year, month, day))
  {
    assert (month - 1) / 12 == 0 && (month - 1) % 12 == month - 1;
  }

  /** `Date.UTC` outside years 0 to 99, with the month in range, is midnight of the day counted from the date. */
  lemma DateUtcFullYear(year: int, month: int, day: int)
    requires !(0 <= year <= 99) && 1 <= month <= 12
    ensures DateUtc(year, month - 1, day) == DaysFromCivil(Date(year, month, day)) * MsPerDay
  {
    MakeDayInYear(year, month, day);
  }

  /** `Date.UTC` inside years 0 to 99, with the month in range, counts from the same date in 1900 + year. */
  lemma DateUtcTwoDigitYear(year: int, month: int, day: int)
    requires 0 <= year <= 99 && 1 <= month <= 12
    ensures DateUtc(year, month - 1, day) == DaysFromCivil(Date(year + 1900, month, day)) * MsPerDay
  {
    MakeDayInYear(year + 1900, month, day);
  }

  /** The day count runs on past the end of a month. */
  lemma DaysFromCivilShift(year: int, month: int, day: int, k: int)
    requires 1 <= month <= 12
    ensures DaysFromCivil(Date(year, month, day + k)) == DaysFromCivil(Date(year, month, day)) + k
  {
  }

  /** A time value lies in the day `UtcDay` names. */
  lemma UtcDayBounds(t: int)
    ensures UtcDay(t) * MsPerDay <= t < UtcDay(t) * MsPerDay + MsPerDay
  {
  }

  /** Midnight of day `n` lies in day `n`. */
  lemma UtcDayOfMidnight(n: int)
    ensures UtcDay(n * MsPerDay) == n
  {
  }

  /** The date of midnight of day `n` is the date of day `n`. */
  lemma UtcDateOfMidnight(t: int, n: int)
    requires t == n * MsPerDay
    ensures UtcDate(t) == CivilFromDays(n)
  {
    UtcDayOfMidnight(n);
  }

  /** Every year has at least 365 days. */
  lemma {:induction false} YearStartGrowth(a: int, b: int)
    requires a <= b
    ensures YearStart(b) - YearStart(a) >= 365 * (b - a)
    decreases b - a
  {
    if a < b {
      YearStartStep(a);
      YearStartGrowth(a + 1, b);
    }
  }

  /** The date part of `toISOString()`: four digits, or a sign and six digits outside years 0 to 9999. */
  function IsoDatePrefix(d: Date): string {
    if 0 <= d.year <= 9999 then
      Digits(d.year, 4) + "-" + Digits(Abs(d.month), 2) + "-" + Digits(Abs(d.day), 2)
    else
      (if d.year < 0 then "-" else "+") + Digits(Abs(d.year), 6) + "-" + Digits(Abs(d.month), 2)
  }

  function Abs(x: int): nat {
    if x < 0 then -x else x
  }

  /** `new Date(t).toISOString().slice(0, 10)`. */
  function IsoDateKey(t: int): (r: string)
    ensures 0 <= UtcDate(t).year <= 9999 ==> |r| == 10 && ParseIsoDate(r) == Some(UtcDate(t))
  {
    if 0 <= UtcDate(t).year <= 9999 then
      IsoDateRoundTrip(UtcDate(t));
      IsoDatePrefix(UtcDate(t))
    else
      IsoDatePrefix(UtcDate(t))
  }

  /** Reads a `YYYY-MM-DD` calendar date. */
  function ParseIsoDate(s: string): Option<Date> {
    if |s| == 10 && s[4] == '-' && s[7] == '-'
      && (forall i :: 0 <= i < 10 && i != 4 && i != 7 ==> IsDigit(s[i]))
    then
      assert forall i :: 0 <= i < 4 ==> s[..4][i] == s[i];
      assert forall i :: 0 <= i < 2 ==> s[5..7][i] == s[5 + i] && s[8..10][i] == s[8 + i];
      Some(Date(ParseDigits(s[..4]), ParseDigits(s[5..7]), ParseDigits(s[8..10])))
    else None
  }

  /** A date of years 0 to 9999 is written in ten characters and read back unchanged. */
  lemma IsoDateRoundTrip(d: Date)
    requires ValidDate(d) && 0 <= d.year <= 9999
    ensures |IsoDatePrefix(d)| == 10
    ensures ParseIsoDate(IsoDatePrefix(d)) == Some(d)
  {
    var y := Digits(d.year, 4);
    var m := Digits(d.month, 2);
    var dd := Digits(d.day, 2);
    var s := IsoDatePrefix(d);
    assert s == y + "-" + m + "-" + dd;
    assert s[..4] == y && s[5..7] == m && s[8..10] == dd;
    assert Pow10(4) == 10000 && Pow10(2) == 100;
    ParseDigitsOfDigits(d.year, 4);
    ParseDigitsOfDigits(d.month, 2);
    ParseDigitsOfDigits(d.day, 2);
  }
}

=== FILE: common.dfy ===
/**
 * Small shared vocabulary: an optional value (JavaScript's `undefined` versus
 * a present value) and fixed-width / variable-width decimal rendering of
 * naturals, which the date key, array keys and property-key coercion use.
 */
module Common {

  /** A value that may be absent; `None` plays the role of `undefined`. */
  datatype Option<+T> = None | Some(value: T)

  function Pow10(w: nat): (p: nat)
    ensures p >= 1
  {
    if w == 0 then 1 else 10 * Pow10(w - 1)
  }

  predicate IsDigit(c: char) {
    '0' <= c <= '9'
  }

  function DigitChar(d: nat): (c: char)
    requires d < 10
    ensures IsDigit(c)
    ensures c as int - '0' as int == d
  {
    ('0' as int + d) as char
  }

  function DigitValue(c: char): nat
    requires IsDigit(c)
  {
    c as int - '0' as int
  }

  /** The `w` lowest decimal digits of `n`, most significant first, zero-padded. */
  function Digits(n: nat, w: nat): (s: string)
    ensures |s| == w
    ensures forall i :: 0 <= i < |s| ==> IsDigit(s[i])
  {
    if w == 0 then [] else Digits(n / 10, w - 1) + [DigitChar(n % 10)]
  }

  /** Reads a string of decimal digits back as a natural. */
  function ParseDigits(s: string): nat
    requires forall i :: 0 <= i < |s| ==> IsDigit(s[i])
  {
    if s == [] then 0 else ParseDigits(s[..|s| - 1]) * 10 + DigitValue(s[|s| - 1])
  }

  /** Reading back a zero-padded rendering gives the number, when it fits in the width. */
  lemma {:induction false} ParseDigitsOfDigits(n: nat, w: nat)
    requires n < Pow10(w)
    ensures ParseDigits(Digits(n, w)) == n
  {
    if w > 0 {
      var s := Digits(n, w);
      assert s[..|s| - 1] == Digits(n / 10, w - 1);
      assert n / 10 < Pow10(w - 1);
      ParseDigitsOfDigits(n / 10, w - 1);
    }
  }

  /** Number of decimal digits of `n` (at least one, for zero). */
  function DigitCount(n: nat): (k: nat)
    ensures k >= 1
    ensures n < Pow10(k)
  {
    if n < 10 then 1 else 1 + DigitCount(n / 10)
  }

  /** JavaScript's `String(n)` for a non-negative integer. */
  function NatToString(n: nat): (s: string)
    ensures |s| >= 1
    ensures forall i :: 0 <= i < |s| ==> IsDigit(s[i])
  {
    Digits(n, DigitCount(n))
  }

  /** `NatToString` is inverted by `ParseDigits`, so distinct numbers render distinctly. */
  lemma NatToStringRoundTrip(n: nat)
    ensures ParseDigits(NatToString(n)) == n
  {
    ParseDigitsOfDigits(n, DigitCount(n));
  }

  /** JavaScript's `String(n)` for an integer. */
  function IntToString(n: int): (s: string)
    ensures |s| >= 1
    ensures n < 0 <==> s[0] == '-'
  {
    if n < 0 then "-" + NatToString(-n) else NatToString(n)
  }

  /** Every member of a set of integers moved up by one. */
  function Shift(t: set<int>): set<int> {
    set j | j in t :: j + 1
  }

  lemma ShiftMember(t: set<int>, i: int)
    ensures i in Shift(t) <==> i - 1 in t
  {
    if i - 1 in t {
      assert (i - 1) + 1 in Shift(t);
    }
  }

  /** Moving a set of positions below `n` up by one keeps its size. */
  lemma {:induction false} ShiftCard(t: set<int>, n: nat)
    requires forall i :: i in t ==> 0 <= i < n
    ensures |Shift(t)| == |t|
    decreases n
  {
    if n == 0 {
      assert forall i :: i !in t;
      assert t == {};
      assert Shift(t) == {};
    } else {
      var rest := t - {n - 1};
      ShiftCard(rest, n - 1);
      if n - 1 in t {
        assert t == rest + {n - 1};
        forall i
          ensures i in Shift(t) <==> i in Shift(rest) + {n}
        {
          ShiftMember(t, i);
          ShiftMember(rest, i);
        }
        assert Shift(t) == Shift(rest) + {n};
        ShiftMember(rest, n);
      } else {
        assert t == rest;
      }
    }
  }
}

=== FILE: daily_metrics.dfy ===
/**
 * The daily metrics rollup: the window of the previous UTC day, its
 * `YYYY-MM-DD` key, the half-open `createdAt` count over four collections,
 * and the merge write of the four counts under that key.
 */
module DailyMetrics {
  import opened Common
  import opened Calendar

  /** A document of a counted collection; only its `createdAt` instant matters here. */
  datatype Record = Record(createdAt: Option<int>)

  /** `start` and `end` instants in milliseconds, and the date key of `start`. */
  datatype Window = Window(start: int, end: int, key: string)

  /** The window computed from `now`: `Date.UTC` of today's date minus one day, and of today's date. */
  function RollupWindow(now: int): (r: Window)
    ensures r.start % MsPerDay == 0 && r.end == r.start + MsPerDay
    ensures HasFullYear(now) ==> r.end == UtcDay(now) * MsPerDay
  {
    if HasFullYear(now) then
      WindowOnFullYear(UtcDate(now), UtcDay(now));
      WindowOn(UtcDate(now))
    else
      WindowOn(UtcDate(now))
  }

  /** The window of the day before `d`, as `Date.UTC` computes it from `d`'s components. */
  function WindowOn(d: Date): Window {
    Window(WindowStart(d), WindowEnd(d), IsoDateKey(WindowStart(d)))
  }

  /** `Date.UTC(year, month, date - 1)`. */
  function WindowStart(d: Date): (r: int)
    ensures r % MsPerDay == 0
    ensures ValidDate(d) && !(0 <= d.year <= 99) ==> r == (DaysFromCivil(d) - 1) * MsPerDay
  {
    if ValidDate(d) then
      DaysFromCivilShift(d.year, d.month, d.day - 1, 1);
      DateUtc(d.year, d.month - 1, d.day - 1)
    else
      DateUtc(d.year, d.month - 1, d.day - 1)
  }

  /** `Date.UTC(year, month, date)`. */
  function WindowEnd(d: Date): (r: int)
    ensures r % MsPerDay == 0 && r == WindowStart(d) + MsPerDay
    ensures ValidDate(d) && !(0 <= d.year <= 99) ==> r == DaysFromCivil(d) * MsPerDay
  {
    DateUtc(d.year, d.month - 1, d.day)
  }

  /** `Date.UTC` reads years 0 to 99 as 1900 to 1999; elsewhere the window is the previous day. */
  predicate HasFullYear(now: int) {
    !(0 <= UtcDate(now).year <= 99)
  }

  /**
   * `end` is midnight UTC of `now`'s date and `start` exactly one day earlier,
   * so `start < end <= now < end + 1 day`; `start` falls on the previous date.
   */
  lemma WindowIsPreviousUtcDay(now: int)
    requires HasFullYear(now)
    ensures RollupWindow(now).end == UtcDay(now) * MsPerDay
    ensures RollupWindow(now).start == RollupWindow(now).end - MsPerDay
    ensures RollupWindow(now).start < RollupWindow(now).end <= now < RollupWindow(now).end + MsPerDay
    ensures UtcDay(RollupWindow(now).start) == UtcDay(now) - 1
  {
    var n := UtcDay(now);
    WindowOnFullYear(UtcDate(now), n);
    UtcDayBounds(now);
    UtcDayOfMidnight(n - 1);
  }

  /** Outside years 0 to 99, the window of a valid date of day `n` is day `n - 1`, ending at midnight of day `n`. */
  lemma WindowOnFullYear(d: Date, n: int)
    requires ValidDate(d) && DaysFromCivil(d) == n && !(0 <= d.year <= 99)
    ensures WindowEnd(d) == n * MsPerDay
    ensures WindowStart(d) == (n - 1) * MsPerDay
  {
    WindowEndOn(d, n);
    WindowStartOn(d, n);
  }

  lemma WindowEndOn(d: Date, n: int)
    requires ValidDate(d) && DaysFromCivil(d) == n && !(0 <= d.year <= 99)
    ensures WindowEnd(d) == n * MsPerDay
  {
    assert d == Date(d.year, d.month, d.day);
    DateUtcFullYear(d.year, d.month, d.day);
  }

  lemma WindowStartOn(d: Date, n: int)
    requires ValidDate(d) && DaysFromCivil(d) == n && !(0 <= d.year <= 99)
    ensures WindowStart(d) == (n - 1) * MsPerDay
  {
    assert d == Date(d.year, d.month, d.day);
    DateUtcFullYear(d.year, d.month, d.day - 1);
    DaysFromCivilShift(d.year, d.month, d.day - 1, 1);
  }

  /** On the first of a month the window's date is the last day of the previous month. */
  lemma WindowRollsOverMonth(now: int)
    requires HasFullYear(now) && UtcDate(now).day == 1
    ensures UtcDate(RollupWindow(now).start) == LastDayOfPreviousMonth(UtcDate(now).year, UtcDate(now).month)
  {
    WindowIsPreviousUtcDay(now);
    MidnightBeforeFirst(UtcDate(now), UtcDay(now), RollupWindow(now).start);
  }

  /** Midnight of the day before the first of a month falls on the last day of the previous month. */
  lemma MidnightBeforeFirst(d: Date, n: int, t: int)
    requires ValidDate(d) && d.day == 1 && DaysFromCivil(d) == n && t == (n - 1) * MsPerDay
    ensures UtcDate(t) == LastDayOfPreviousMonth(d.year, d.month)
  {
    assert Date(d.year, d.month, 1) == d;
    UtcDateOfMidnight(t, n - 1);
    DayBeforeFirstOfMonth(d.year, d.month);
  }

  /** The key is the `YYYY-MM-DD` date of the previous UTC day (for years 0 to 9999). */
  lemma KeyIsPreviousDate(now: int)
    requires HasFullYear(now)
    requires 0 <= CivilFromDays(UtcDay(now) - 1).year <= 9999
    ensures |RollupWindow(now).key| == 10
    ensures ParseIsoDate(RollupWindow(now).key) == Some(CivilFromDays(UtcDay(now) - 1))
  {
    WindowIsPreviousUtcDay(now);
    IsoDateRoundTrip(CivilFromDays(UtcDay(now) - 1));
  }

  /** Distinct previous days give distinct keys: one record per day. */
  lemma KeysOfDistinctDaysDiffer(now1: int, now2: int)
    requires HasFullYear(now1) && HasFullYear(now2)
    requires 0 <= CivilFromDays(UtcDay(now1) - 1).year <= 9999
    requires 0 <= CivilFromDays(UtcDay(now2) - 1).year <= 9999
    requires UtcDay(now1) != UtcDay(now2)
    ensures RollupWindow(now1).key != RollupWindow(now2).key
  {
    KeyIsPreviousDate(now1);
    KeyIsPreviousDate(now2);
    var d1 := CivilFromDays(UtcDay(now1) - 1);
    var d2 := CivilFromDays(UtcDay(now2) - 1);
    assert DaysFromCivil(d1) != DaysFromCivil(d2);
  }

  /** A time value on the day of a valid date has that date. */
  lemma UtcDateOnDay(now: int, d: Date)
    requires ValidDate(d) && UtcDay(now) == DaysFromCivil(d)
    ensures UtcDate(now) == d
  {
    CivilFromDaysOfCivil(d);
  }

  /** The time value 2024-03-01 12:00 UTC falls on 2024-03-01. */
  lemma NoonOfFirstOfMarch(now: int)
    requires now == 1709294400000
    ensures UtcDate(now) == Date(2024, 3, 1)
  {
    assert DaysFromCivil(Date(2024, 3, 1)) == 19783;
    UtcDateOnDay(now, Date(2024, 3, 1));
  }

  /** On 2024-03-01 the window starts at `Date.UTC(2024, 2, 0)`. */
  lemma FirstOfMarchWindowStart(now: int)
    requires UtcDate(now) == Date(2024, 3, 1)
    ensures RollupWindow(now).start == DateUtc(2024, 2, 0)
  {
  }

  /** `Date.UTC(2024, 2, 0)`, day zero of March, is the leap day 2024-02-29. */
  lemma DayZeroOfMarchIsLeapDay(start: int)
    requires start == DateUtc(2024, 2, 0)
    ensures UtcDate(start) == Date(2024, 2, 29)
  {
    var leap := Date(2024, 2, 29);
    DateUtcFullYear(2024, 3, 0);
    assert DaysFromCivil(Date(2024, 3, 0)) == 19782;
    assert DaysFromCivil(leap) == 19782;
    UtcDayOfMidnight(19782);
    UtcDateOnDay(start, leap);
  }

  lemma LeapDayPrefix(d: Date)
    requires d == Date(2024, 2, 29)
    ensures IsoDatePrefix(d) == "2024-02-29"
  {
    assert Digits(2024, 4) == "2024" && Digits(2, 2) == "02" && Digits(29, 2) == "29";
  }

  /** The rollup run at 2024-03-01 12:00 UTC writes the record of 2024-02-29, a leap day. */
  lemma LeapDayWindow(now: int)
    requires now == 1709294400000
    ensures RollupWindow(now).key == "2024-02-29"
  {
    NoonOfFirstOfMarch(now);
    FirstOfMarchWindowStart(now);
    DayZeroOfMarchIsLeapDay(RollupWindow(now).start);
    LeapDayPrefix(Date(2024, 2, 29));
  }

  /**
   * In years 0 to 99 `Date.UTC` reads the year as 1900 + year, so the window
   * lies in the twentieth century, not on the day before `now`.
   */
  lemma TwoDigitYearWindow(now: int)
    requires !HasFullYear(now)
    ensures RollupWindow(now).end
      == DaysFromCivil(Date(UtcDate(now).year + 1900, UtcDate(now).month, UtcDate(now).day)) * MsPerDay
    ensures RollupWindow(now).start == RollupWindow(now).end - MsPerDay
    ensures RollupWindow(now).end > now + 1000 * MsPerDay
  {
    WindowOnTwoDigitYear(UtcDate(now), UtcDay(now));
    UtcDayBounds(now);
  }

  /** In years 0 to 99 the window of a valid date of day `n` is that date in 1900 + year, long after day `n`. */
  lemma WindowOnTwoDigitYear(d: Date, n: int)
    requires ValidDate(d) && DaysFromCivil(d) == n && 0 <= d.year <= 99
    ensures WindowEnd(d) == DaysFromCivil(Date(d.year + 1900, d.month, d.day)) * MsPerDay
    ensures WindowStart(d) == WindowEnd(d) - MsPerDay
    ensures WindowEnd(d) > (n + 1001) * MsPerDay
  {
    DateUtcTwoDigitYear(d.year, d.month, d.day);
    DateUtcTwoDigitYear(d.year, d.month, d.day - 1);
    DaysFromCivilShift(d.year + 1900, d.month, d.day - 1, 1);
    DateWithinYear(d);
    YearStartGrowth(d.year + 1, d.year + 1900);
  }

  // The half-open count.

  predicate InWindow(r: Record, start: int, end: int) {
    r.createdAt.Some? && start <= r.createdAt.value < end
  }

  /** The number of records created in `[start, end)`; a record without `createdAt` never matches. */
  function CountCreated(docs: seq<Record>, start: int, end: int): (n: nat)
    ensures n <= |docs|
    ensures n == |WindowIndices(docs, start, end)|
  {
    if docs == [] then 0
    else
      WindowIndicesCons(docs, start, end);
      (if InWindow(docs[0], start, end) then 1 else 0) + CountCreated(docs[1..], start, end)
  }

  /** The positions of the records created in `[start, end)`. */
  function WindowIndices(docs: seq<Record>, start: int, end: int): set<int> {
    set i | 0 <= i < |docs| && InWindow(docs[i], start, end)
  }

  /** The positions in a non-empty sequence: perhaps the first, and those of the tail moved up by one. */
  lemma WindowIndicesCons(docs: seq<Record>, start: int, end: int)
    requires docs != []
    ensures |WindowIndices(docs, start, end)|
      == (if InWindow(docs[0], start, end) then 1 else 0) + |WindowIndices(docs[1..], start, end)|
  {
    var w, tail := WindowIndices(docs, start, end), WindowIndices(docs[1..], start, end);
    forall i
      ensures i in w - {0} <==> i in Shift(tail)
    {
      ShiftMember(tail, i);
      if 1 <= i < |docs| {
        assert docs[1..][i - 1] == docs[i];
      }
    }
    assert w - {0} == Shift(tail);
    ShiftCard(tail, |docs| - 1);
    if InWindow(docs[0], start, end) {
      assert w == (w - {0}) + {0};
    } else {
      assert w == w - {0};
    }
  }

  /** Adjacent windows split a count: nothing is counted twice or dropped at the boundary. */
  lemma {:induction false} CountAdjacentWindows(docs: seq<Record>, a: int, b: int, c: int)
    requires a <= b <= c
    ensures CountCreated(docs, a, b) + CountCreated(docs, b, c) == CountCreated(docs, a, c)
  {
    if docs != [] {
      CountAdjacentWindows(docs[1..], a, b, c);
    }
  }

  /** Windows of consecutive days are adjacent, so their counts add up to the two-day count. */
  lemma ConsecutiveDaysAdjacent(docs: seq<Record>, now: int)
    requires HasFullYear(now) && HasFullYear(now + MsPerDay)
    ensures RollupWindow(now).end == RollupWindow(now + MsPerDay).start
    ensures CountCreated(docs, RollupWindow(now).start, RollupWindow(now).end)
      + CountCreated(docs, RollupWindow(now + MsPerDay).start, RollupWindow(now + MsPerDay).end)
      == CountCreated(docs, RollupWindow(now).start, RollupWindow(now + MsPerDay).end)
  {
    WindowIsPreviousUtcDay(now);
    WindowIsPreviousUtcDay(now + MsPerDay);
    assert UtcDay(now + MsPerDay) == UtcDay(now) + 1;
    CountAdjacentWindows(docs, RollupWindow(now).start, RollupWindow(now).end, RollupWindow(now + MsPerDay).end);
  }

  // The merge write.

  /** The field names of a metrics document: the five the rollup writes, and any other. */
  datatype FieldName = Dau | Posts | ShortViews | PurchaseIntents | UpdatedAt | OtherField(name: string)

  /** A field value: a count, the server write time, or any other value. */
  datatype FieldValue = IntValue(n: int) | ServerTime(t: int) | OtherValue

  type Fields = map<FieldName, FieldValue>

  /** `doc(key).set(fields, {merge: true})`: the given fields overwrite, the others stay. */
  function MergeSet(coll: map<string, Fields>, key: string, fields: Fields): (r: map<string, Fields>)
    ensures r.Keys == coll.Keys + {key}
    ensures forall k :: k in coll && k != key ==> r[k] == coll[k]
    ensures forall f :: f in fields ==> f in r[key] && r[key][f] == fields[f]
    ensures forall f :: key in coll && f in coll[key] && f !in fields ==> f in r[key] && r[key][f] == coll[key][f]
    ensures forall f :: f in r[key] ==> f in fields || (key in coll && f in coll[key])
  {
    var current := if key in coll then coll[key] else map[];
    coll[key := current + fields]
  }

  /** A second merge of the same field names replaces the first one's values and adds nothing. */
  lemma MergeSetOverwrites(coll: map<string, Fields>, key: string, a: Fields, b: Fields)
    requires a.Keys == b.Keys
    ensures MergeSet(MergeSet(coll, key, a), key, b) == MergeSet(coll, key, b)
  {
    var x := MergeSet(MergeSet(coll, key, a), key, b);
    var y := MergeSet(coll, key, b);
    assert x[key] == y[key];
  }

  datatype Counts = Counts(dau: nat, posts: nat, shortViews: nat, purchaseIntents: nat)

  function CountFields(c: Counts, updatedAt: int): Fields {
    map[Dau := IntValue(c.dau), Posts := IntValue(c.posts), ShortViews := IntValue(c.shortViews),
        PurchaseIntents := IntValue(c.purchaseIntents), UpdatedAt := ServerTime(updatedAt)]
  }

  /** A metrics record holding the four counts and the write time. */
  predicate HoldsCounts(fields: Fields, c: Counts, updatedAt: int) {
    && Dau in fields && fields[Dau] == IntValue(c.dau)
    && Posts in fields && fields[Posts] == IntValue(c.posts)
    && ShortViews in fields && fields[ShortViews] == IntValue(c.shortViews)
    && PurchaseIntents in fields && fields[PurchaseIntents] == IntValue(c.purchaseIntents)
    && UpdatedAt in fields && fields[UpdatedAt] == ServerTime(updatedAt)
  }

  /** The collections the rollup reads and the `metrics/daily` collection it writes. */
  datatype Store = Store(
    users: seq<Record>, posts: seq<Record>, shorts: seq<Record>, intents: seq<Record>,
    daily: map<string, Fields>)

  /** The four counts of a window: users, posts, shorts and purchase intents created in it. */
  function CountsFor(s: Store, w: Window): Counts {
    Counts(CountCreated(s.users, w.start, w.end), CountCreated(s.posts, w.start, w.end),
      CountCreated(s.shorts, w.start, w.end), CountCreated(s.intents, w.start, w.end))
  }

  /**
   * The merge write of the counts of window `w`, with `serverTime` the value
   * `serverTimestamp()` resolves to: the counted collections are unchanged and
   * exactly the record named by the window's key receives the four counts,
   * keeping any other field it had.
   */
  function WriteDailyRecord(s: Store, w: Window, serverTime: int): (r: Store)
    ensures r.users == s.users && r.posts == s.posts && r.shorts == s.shorts && r.intents == s.intents
    ensures r.daily.Keys == s.daily.Keys + {w.key}
    ensures forall k :: k in s.daily && k != w.key ==> r.daily[k] == s.daily[k]
    ensures HoldsCounts(r.daily[w.key], CountsFor(s, w), serverTime)
    ensures forall f: FieldName :: f.OtherField? && w.key in s.daily && f in s.daily[w.key] ==>
      f in r.daily[w.key] && r.daily[w.key][f] == s.daily[w.key][f]
  {
    s.(daily := MergeSet(s.daily, w.key, CountFields(CountsFor(s, w), serverTime)))
  }

  /**
   * One run of `rollupDailyMetrics` at `now`: the record of the previous UTC
   * day's key holds that day's four counts; every other record is untouched.
   */
  function RollupDailyMetrics(s: Store, now: int, serverTime: int): (r: Store)
    ensures r.daily.Keys == s.daily.Keys + {RollupWindow(now).key}
    ensures HoldsCounts(r.daily[RollupWindow(now).key], CountsFor(s, RollupWindow(now)), serverTime)
    ensures forall k :: k in s.daily && k != RollupWindow(now).key ==> r.daily[k] == s.daily[k]
  {
    WriteDailyRecord(s, RollupWindow(now), serverTime)
  }

  /** A second write of the same window replaces the first one's counts and time, and adds nothing. */
  lemma WriteTwiceOverwrites(s: Store, w: Window, t1: int, t2: int)
    ensures WriteDailyRecord(WriteDailyRecord(s, w, t1), w, t2) == WriteDailyRecord(s, w, t2)
  {
    var s1 := WriteDailyRecord(s, w, t1);
    assert CountsFor(s1, w) == CountsFor(s, w);
    MergeSetOverwrites(s.daily, w.key, CountFields(CountsFor(s, w), t1), CountFields(CountsFor(s, w), t2));
  }

  /** The window depends only on the UTC day of `now`. */
  lemma SameDaySameWindow(now1: int, now2: int)
    requires UtcDay(now1) == UtcDay(now2)
    ensures RollupWindow(now1) == RollupWindow(now2)
  {
    assert UtcDate(now1) == UtcDate(now2);
  }

  /**
   * Re-running the rollup for the same day leaves the same store as a single
   * run at the later time: the record is overwritten, never duplicated.
   */
  lemma RerunSameDayOverwrites(s: Store, now1: int, now2: int, t1: int, t2: int)
    requires UtcDay(now1) == UtcDay(now2)
    ensures RollupDailyMetrics(RollupDailyMetrics(s, now1, t1), now2, t2) == RollupDailyMetrics(s, now2, t2)
  {
    SameDaySameWindow(now1, now2);
    WriteTwiceOverwrites(s, RollupWindow(now2), t1, t2);
  }
}

=== FILE: documents.dfy ===
/**
 * The documents under `artifacts/fouta-app/public/data` that the chat and
 * interaction triggers read and write, reduced to the fields they touch.
 * Counters are numbers, because they are only ever written with
 * `FieldValue.increment`; a missing counter reads as 0 both through `|| 0`
 * and through `increment`, so it is stored as 0.
 */
module Documents {
  import opened Common
  import opened JsonValue

  /** `users/{uid}`: the global unread counter and the followers list. */
  datatype UserDoc = UserDoc(unreadMessageCount: int, followers: Option<Json>)

  /** `chats/{chatId}`: the participants field and the per-user unread counters. */
  datatype ChatDoc = ChatDoc(participants: Option<Json>, unreadCounts: map<string, int>)

  /** `posts/{postId}`: its author. */
  datatype PostDoc = PostDoc(authorId: Option<Json>)

  datatype Store = Store(users: map<string, UserDoc>, chats: map<string, ChatDoc>, posts: map<string, PostDoc>)

  /** `unreadCounts?.[key] || 0`. */
  function CountOf(counts: map<string, int>, key: string): int {
    if key in counts then counts[key] else 0
  }

  /** `FieldValue.increment(delta)` on `unreadCounts.{key}`. */
  function Bump(counts: map<string, int>, key: string, delta: int): (r: map<string, int>)
    ensures CountOf(r, key) == CountOf(counts, key) + delta
    ensures forall k :: k != key ==> CountOf(r, k) == CountOf(counts, k)
  {
    counts[key := CountOf(counts, key) + delta]
  }

  /**
   * `collection(...).doc(v)`: only a non-empty string names a document;
   * anything else makes the call throw (`None`).
   */
  function DocId(v: Json): (r: Option<string>)
    ensures r.Some? <==> v.Str? && v.s != []
    ensures r.Some? ==> v == Str(r.value)
  {
    if v.Str? && v.s != [] then Some(v.s) else None
  }

  /** `FieldValue.increment(delta)` on the user's `unreadMessageCount`; the user must exist. */
  function AddToUser(db: Store, uid: string, delta: int): (r: Store)
    requires uid in db.users
    ensures r.users.Keys == db.users.Keys && r.chats == db.chats && r.posts == db.posts
    ensures r.users[uid] == db.users[uid].(unreadMessageCount := db.users[uid].unreadMessageCount + delta)
    ensures forall u :: u in db.users && u != uid ==> r.users[u] == db.users[u]
  {
    db.(users := db.users[uid := db.users[uid].(unreadMessageCount := db.users[uid].unreadMessageCount + delta)])
  }
}

=== FILE: expire_stories.dfy ===
/**
 * `expireStories`: every hour, the stories whose `expiresAt` is before the
 * run's single `now` are queried and deleted together in one batch. The
 * collection is a map from document id to story; a range filter only
 * matches documents whose `expiresAt` is a timestamp, so a missing or
 * non-timestamp `expiresAt` is `None` and never matches.
 */
module ExpireStories {
  import opened Common
  import opened JsonValue

  /** A story document: its expiry instant in ms, and the rest of its fields. */
  datatype Story = Story(expiresAt: Option<int>, rest: Json)

  /** `where('expiresAt', '<', now)`: strictly before `now`. */
  predicate Expired(s: Story, now: int) {
    s.expiresAt.Some? && s.expiresAt.value < now
  }

  /** The ids the query returns. */
  function QueryExpired(col: map<string, Story>, now: int): (r: set<string>)
    ensures forall id :: id in r <==> id in col && Expired(col[id], now)
  {
    set id | id in col && Expired(col[id], now)
  }

  /** One committed batch of deletes: the documents named in `refs` are gone, the others untouched. */
  function CommitDeletes(col: map<string, Story>, refs: set<string>): (r: map<string, Story>)
    ensures forall id :: id in r <==> id in col && id !in refs
    ensures forall id :: id in r ==> r[id] == col[id]
  {
    map id | id in col && id !in refs :: col[id]
  }

  /** One run at `now`: the query, then one batch deleting every document it returned. */
  function Expire(col: map<string, Story>, now: int): (r: map<string, Story>)
    ensures forall id :: id in r <==> id in col && !Expired(col[id], now)
    ensures forall id :: id in r ==> r[id] == col[id]
  {
    CommitDeletes(col, QueryExpired(col, now))
  }

  /** A story expiring exactly at `now` survives the run; one a millisecond earlier does not. */
  lemma BoundaryIsStrict(col: map<string, Story>, now: int, a: string, b: string)
    requires a in col && col[a].expiresAt == Some(now)
    requires b in col && col[b].expiresAt == Some(now - 1)
    ensures a in Expire(col, now) && Expire(col, now)[a] == col[a]
    ensures b !in Expire(col, now)
  {
  }

  /** The deleted and the kept stories make up the collection. */
  lemma DeletedPlusKept(col: map<string, Story>, now: int)
    ensures |QueryExpired(col, now)| + |Expire(col, now).Keys| == |col.Keys|
  {
    var gone := QueryExpired(col, now);
    var kept := Expire(col, now).Keys;
    assert gone * kept == {};
    assert gone + kept == col.Keys;
  }

  /** A second run with the same `now` deletes nothing more. */
  lemma ExpireIdempotent(col: map<string, Story>, now: int)
    ensures Expire(Expire(col, now), now) == Expire(col, now)
  {
  }

  /** Runs at `earlier` then at `later` delete exactly what one run at `later` deletes. */
  lemma LaterRunSubsumes(col: map<string, Story>, earlier: int, later: int)
    requires earlier <= later
    ensures Expire(Expire(col, earlier), later) == Expire(col, later)
    ensures Expire(col, later).Keys <= Expire(col, earlier).Keys
  {
    var twice := Expire(Expire(col, earlier), later);
    var once := Expire(col, later);
    assert twice.Keys == once.Keys;
  }
}

=== FILE: index_validator.dfy ===
/**
 * The `firestore.indexes.json` check run before deploys: every field of every
 * index must carry exactly one of `order`, `arrayConfig` and `vectorConfig`.
 * Starting from the parsed file, the model computes the offending positions,
 * in the order they are reported, and the exit status.
 */
module IndexValidator {
  import opened Common
  import opened JsonValue

  /** A reported field: its position, its `fieldPath` (or the placeholder) and its own keys. */
  datatype Bad = Bad(index: nat, fieldIndex: nat, fieldPath: Json, keys: seq<string>)

  /** A run ends with a TypeError (reading a property of `null`) or exits with a status after its report. */
  datatype Outcome = Crashed | Exit(status: int, bads: seq<Bad>)

  const MissingFieldPath: string := "(missing fieldPath)"

  /** `typeof f === 'object'` for a truthy `f`: objects and arrays. */
  predicate IsObject(f: Json) {
    f.Obj? || f.Arr?
  }

  /** How many of the three keys `f` owns; only presence counts, not the values. */
  function ConfigCount(f: Json): (r: nat)
    ensures r <= 3
    ensures r == 0 <==> !HasOwn(f, "order") && !HasOwn(f, "arrayConfig") && !HasOwn(f, "vectorConfig")
  {
    (if HasOwn(f, "order") then 1 else 0)
    + (if HasOwn(f, "arrayConfig") then 1 else 0)
    + (if HasOwn(f, "vectorConfig") then 1 else 0)
  }

  /** A field entry is reported: a non-null object owning none, two or all three of the keys. */
  predicate Flagged(f: Json) {
    Truthy(Some(f)) && IsObject(f) && ConfigCount(f) != 1
  }

  /** The report for field `j` of index `i`. */
  function BadOf(i: nat, j: nat, f: Json): Bad {
    Bad(i, j, Coalesce(Member(f, "fieldPath"), Str(MissingFieldPath)), OwnKeys(f))
  }

  /** `b` is the report of a flagged field of index `i` at or after `from`. */
  predicate ReportsField(i: nat, fields: seq<Json>, from: nat, b: Bad) {
    && b.index == i && from <= b.fieldIndex < |fields|
    && Flagged(fields[b.fieldIndex]) && b == BadOf(i, b.fieldIndex, fields[b.fieldIndex])
  }

  /** The reports for `fields[from..]` of index `i`, in field order. */
  function FieldBads(i: nat, fields: seq<Json>, from: nat): (r: seq<Bad>)
    requires from <= |fields|
    ensures forall b :: b in r ==> ReportsField(i, fields, from, b)
    ensures forall j :: from <= j < |fields| && Flagged(fields[j]) ==> BadOf(i, j, fields[j]) in r
    ensures forall a, b :: 0 <= a < b < |r| ==> r[a].fieldIndex < r[b].fieldIndex
    decreases |fields| - from
  {
    if from == |fields| then []
    else
      var rest := FieldBads(i, fields, from + 1);
      if Flagged(fields[from]) then
        PrependBad(i, fields, from, rest);
        [BadOf(i, from, fields[from])] + rest
      else rest
  }

  /** The report of a flagged field goes in front of the reports of the later fields. */
  lemma PrependBad(i: nat, fields: seq<Json>, from: nat, rest: seq<Bad>)
    requires from < |fields| && Flagged(fields[from])
    requires forall b :: b in rest ==> ReportsField(i, fields, from + 1, b)
    requires forall j :: from + 1 <= j < |fields| && Flagged(fields[j]) ==> BadOf(i, j, fields[j]) in rest
    requires forall a, b :: 0 <= a < b < |rest| ==> rest[a].fieldIndex < rest[b].fieldIndex
    ensures var r := [BadOf(i, from, fields[from])] + rest;
      && (forall b :: b in r ==> ReportsField(i, fields, from, b))
      && (forall j :: from <= j < |fields| && Flagged(fields[j]) ==> BadOf(i, j, fields[j]) in r)
      && (forall a, b :: 0 <= a < b < |r| ==> r[a].fieldIndex < r[b].fieldIndex)
  {
    PrependSorted(BadOf(i, from, fields[from]), rest);
  }

  /** A report before every later one keeps the list in field order. */
  lemma PrependSorted(x: Bad, rest: seq<Bad>)
    requires forall b :: b in rest ==> x.fieldIndex < b.fieldIndex
    requires forall a, b :: 0 <= a < b < |rest| ==> rest[a].fieldIndex < rest[b].fieldIndex
    ensures forall a, b :: 0 <= a < b < |[x] + rest| ==> ([x] + rest)[a].fieldIndex < ([x] + rest)[b].fieldIndex
  {
    var r := [x] + rest;
    forall a, b | 0 <= a < b < |r| ensures r[a].fieldIndex < r[b].fieldIndex {
      assert r[b] == rest[b - 1] && rest[b - 1] in rest;
      if a > 0 { assert r[a] == rest[a - 1]; }
    }
  }

  /** Position `(i, j)` comes before `(k, l)` in index-major, field-minor order. */
  predicate Before(a: Bad, b: Bad) {
    a.index < b.index || (a.index == b.index && a.fieldIndex < b.fieldIndex)
  }

  /** Index `idx` lists its fields as an array; any other index is skipped. */
  predicate HasFieldList(idx: Json) {
    Member(idx, "fields").Some? && Member(idx, "fields").value.Arr?
  }

  function FieldsOf(idx: Json): seq<Json>
    requires HasFieldList(idx)
  {
    Member(idx, "fields").value.items
  }

  /** Field `j` of index `i` is reported. */
  predicate FlaggedAt(indexes: seq<Json>, i: int, j: int) {
    0 <= i < |indexes| && HasFieldList(indexes[i]) && 0 <= j < |FieldsOf(indexes[i])|
    && Flagged(FieldsOf(indexes[i])[j])
  }

  /** `b` is the report of a flagged field of an index at or after `from`. */
  predicate ReportsIndexed(indexes: seq<Json>, from: nat, b: Bad) {
    && from <= b.index && FlaggedAt(indexes, b.index, b.fieldIndex)
    && b == BadOf(b.index, b.fieldIndex, FieldsOf(indexes[b.index])[b.fieldIndex])
  }

  /**
   * The reports for `indexes[from..]`, for a list without `null` indexes (a
   * `null` index makes `.fields` throw, and the run ends before any report).
   */
  function IndexBads(indexes: seq<Json>, from: nat): (r: seq<Bad>)
    requires from <= |indexes|
    ensures forall b :: b in r ==> ReportsIndexed(indexes, from, b)
    ensures forall i, j :: from <= i && FlaggedAt(indexes, i, j) ==> BadOf(i, j, FieldsOf(indexes[i])[j]) in r
    ensures forall a, b :: 0 <= a < b < |r| ==> Before(r[a], r[b])
    decreases |indexes| - from
  {
    if from == |indexes| then []
    else
      var rest := IndexBads(indexes, from + 1);
      if HasFieldList(indexes[from]) then
        var here := FieldBads(from, FieldsOf(indexes[from]), 0);
        PrependReports(indexes, from, here, rest);
        PrependCovers(indexes, from, here, rest);
        assert forall b :: b in here ==> ReportsField(from, FieldsOf(indexes[from]), 0, b);
        assert forall b :: b in rest ==> ReportsIndexed(indexes, from + 1, b);
        PrependOrdered(from, here, rest);
        here + rest
      else
        assert forall j :: !FlaggedAt(indexes, from, j);
        rest
  }

  /** The reports of index `from` followed by those of the later indexes all belong to `indexes[from..]`. */
  lemma PrependReports(indexes: seq<Json>, from: nat, here: seq<Bad>, rest: seq<Bad>)
    requires from < |indexes| && HasFieldList(indexes[from]) && here == FieldBads(from, FieldsOf(indexes[from]), 0)
    requires forall b :: b in rest ==> ReportsIndexed(indexes, from + 1, b)
    ensures forall b :: b in here + rest ==> ReportsIndexed(indexes, from, b)
  {
    forall b | b in here + rest ensures ReportsIndexed(indexes, from, b) {
      if b in here {
        assert ReportsField(from, FieldsOf(indexes[from]), 0, b);
      } else {
        assert ReportsIndexed(indexes, from + 1, b);
      }
    }
  }

  /** ... and cover every flagged field of `indexes[from..]`. */
  lemma PrependCovers(indexes: seq<Json>, from: nat, here: seq<Bad>, rest: seq<Bad>)
    requires from < |indexes| && HasFieldList(indexes[from]) && here == FieldBads(from, FieldsOf(indexes[from]), 0)
    requires forall i, j :: from + 1 <= i && FlaggedAt(indexes, i, j) ==> BadOf(i, j, FieldsOf(indexes[i])[j]) in rest
    ensures forall i, j :: from <= i && FlaggedAt(indexes, i, j) ==> BadOf(i, j, FieldsOf(indexes[i])[j]) in here + rest
  {
    forall i, j | from <= i && FlaggedAt(indexes, i, j) ensures BadOf(i, j, FieldsOf(indexes[i])[j]) in here + rest {
      if i == from {
        assert BadOf(i, j, FieldsOf(indexes[i])[j]) in here;
      } else {
        assert BadOf(i, j, FieldsOf(indexes[i])[j]) in rest;
      }
    }
  }

  /** ... and stay in index-major, field-minor order. */
  lemma PrependOrdered(from: nat, here: seq<Bad>, rest: seq<Bad>)
    requires forall b :: b in here ==> b.index == from
    requires forall a, b :: 0 <= a < b < |here| ==> here[a].fieldIndex < here[b].fieldIndex
    requires forall b :: b in rest ==> from + 1 <= b.index
    requires forall a, b :: 0 <= a < b < |rest| ==> Before(rest[a], rest[b])
    ensures forall a, b :: 0 <= a < b < |here + rest| ==> Before((here + rest)[a], (here + rest)[b])
  {
    var all := here + rest;
    forall a, b | 0 <= a < b < |all| ensures Before(all[a], all[b]) {
      if b < |here| {
        assert all[a] == here[a] && all[b] == here[b];
      } else if a < |here| {
        assert all[a] == here[a] && all[b] == rest[b - |here|];
        assert all[a] in here && all[b] in rest;
      } else {
        assert all[a] == rest[a - |here|] && all[b] == rest[b - |here|];
      }
    }
  }

  /** `bads` reports exactly the flagged fields of `indexes`, each once per position, in index-major, field-minor order. */
  ghost predicate IsReportOf(indexes: seq<Json>, bads: seq<Bad>) {
    && (forall b :: b in bads ==> ReportsIndexed(indexes, 0, b))
    && (forall i, j :: FlaggedAt(indexes, i, j) ==> BadOf(i, j, FieldsOf(indexes[i])[j]) in bads)
    && (forall a, b :: 0 <= a < b < |bads| ==> Before(bads[a], bads[b]))
  }

  /** The file is `null`, or its `indexes` array holds a `null`. */
  predicate CrashesOn(json: Json) {
    || json == Null
    || (Member(json, "indexes").Some? && Member(json, "indexes").value.Arr? && Null in Member(json, "indexes").value.items)
  }

  /**
   * The whole check on the parsed file `json`. A non-array `indexes` passes;
   * the status is 1 exactly when something is reported.
   */
  function Validate(json: Json): (r: Outcome)
    ensures r.Crashed? <==> CrashesOn(json)
    ensures r.Exit? ==> (r.status == 1 <==> r.bads != []) && (r.status == 0 <==> r.bads == [])
    ensures r.Exit? && (Member(json, "indexes").None? || !Member(json, "indexes").value.Arr?) ==> r.bads == []
    ensures r.Exit? && Member(json, "indexes").Some? && Member(json, "indexes").value.Arr? ==>
      IsReportOf(Member(json, "indexes").value.items, r.bads)
  {
    if json == Null then Crashed
    else
      var indexes := Member(json, "indexes");
      if indexes.None? || !indexes.value.Arr? then Exit(0, [])
      else
        if Null in indexes.value.items then Crashed
        else
          var bads := IndexBads(indexes.value.items, 0);
          Exit(if bads != [] then 1 else 0, bads)
  }

  /** The run fails exactly when some index lists a field that is a non-null object without exactly one of the keys. */
  lemma FailsIffSomeFieldFlagged(json: Json)
    requires Validate(json).Exit?
    ensures Validate(json).status == 1 <==>
      Member(json, "indexes").Some? && Member(json, "indexes").value.Arr?
      && exists i, j :: FlaggedAt(Member(json, "indexes").value.items, i, j)
  {
    var indexes := Member(json, "indexes");
    if indexes.Some? && indexes.value.Arr? {
      var items := indexes.value.items;
      var bads := IndexBads(items, 0);
      if bads != [] {
        assert bads[0] in bads;
        assert FlaggedAt(items, bads[0].index, bads[0].fieldIndex);
      }
      if i, j :| FlaggedAt(items, i, j) {
        assert BadOf(i, j, FieldsOf(items[i])[j]) in bads;
      }
    }
  }

  /** Entries that are not non-null objects are never reported, whatever they hold. */
  lemma NonObjectsNeverFlagged(f: Json)
    requires f == Null || f.Bool? || f.Num? || f.Str?
    ensures !Flagged(f)
  {
  }

  /** An array entry owns none of the keys, so it is always reported, with the placeholder path. */
  lemma ArrayEntryFlagged(i: nat, j: nat, f: Json)
    requires f.Arr?
    ensures Flagged(f)
    ensures BadOf(i, j, f).fieldPath == Str(MissingFieldPath)
    ensures BadOf(i, j, f).keys == IndexNames(|f.items|)
  {
  }

  /**
   * An object entry owning one of the three keys passes exactly when it owns
   * neither of the other two, whatever the values and the other members.
   */
  lemma ExactlyOnePasses(f: Json, key: string)
    requires f.Obj?
    requires key == "order" || key == "arrayConfig" || key == "vectorConfig"
    requires HasOwn(f, key)
    ensures !Flagged(f) <==>
      && (key != "order" ==> !HasOwn(f, "order"))
      && (key != "arrayConfig" ==> !HasOwn(f, "arrayConfig"))
      && (key != "vectorConfig" ==> !HasOwn(f, "vectorConfig"))
  {
  }

  /** Whether an object entry is reported depends only on the names of its members, never on their values. */
  lemma FlaggedByNamesOnly(ms1: seq<(string, Json)>, ms2: seq<(string, Json)>)
    requires Names(ms1) == Names(ms2)
    ensures Flagged(Obj(ms1)) <==> Flagged(Obj(ms2))
    ensures OwnKeys(Obj(ms1)) == OwnKeys(Obj(ms2))
  {
    assert forall k :: HasName(ms1, k) <==> k in Names(ms1);
    assert forall k :: HasName(ms2, k) <==> k in Names(ms2);
  }

  /** A field entry with both `order` and `arrayConfig`. */
  const TagsField: Json := Obj([("fieldPath", Str("tags")), ("order", Str("ASCENDING")), ("arrayConfig", Str("CONTAINS"))])

  /** A field with both `order` and `arrayConfig` is reported with its path and both keys. */
  lemma TwoConfigsFlagged(i: nat, j: nat)
    ensures Flagged(TagsField)
    ensures BadOf(i, j, TagsField) == Bad(i, j, Str("tags"), ["fieldPath", "order", "arrayConfig"])
  {
    TagsFieldOwns(TagsField);
    TagsFieldPath(TagsField);
    TagsFieldKeys(TagsField);
  }

  lemma TagsFieldOwns(f: Json)
    requires f == TagsField
    ensures HasOwn(f, "order") && HasOwn(f, "arrayConfig") && !HasOwn(f, "vectorConfig")
  {
    assert f.members[1].0 == "order";
    assert f.members[2].0 == "arrayConfig";
    forall k | 0 <= k < 3 ensures f.members[k].0 != "vectorConfig" {
      assert f.members[k].0[0] != "vectorConfig"[0];
    }
  }

  lemma TagsFieldPath(f: Json)
    requires f == TagsField
    ensures Member(f, "fieldPath") == Some(Str("tags"))
  {
    var ms := f.members;
    assert "arrayConfig"[0] != "fieldPath"[0] && "order"[0] != "fieldPath"[0];
    assert ms[..2] == [("fieldPath", Str("tags")), ("order", Str("ASCENDING"))];
    assert ms[..2][..1] == [("fieldPath", Str("tags"))];
    assert Lookup(ms[..2][..1], "fieldPath") == Some(Str("tags"));
    assert Lookup(ms[..2], "fieldPath") == Some(Str("tags"));
  }

  lemma TagsFieldKeys(f: Json)
    requires f == TagsField
    ensures OwnKeys(f) == ["fieldPath", "order", "arrayConfig"]
  {
    var ms := f.members;
    assert "arrayConfig" != "order" && "arrayConfig" != "fieldPath" && "order" != "fieldPath" by {
      assert "arrayConfig"[0] != "order"[0] && "arrayConfig"[0] != "fieldPath"[0] && "order"[0] != "fieldPath"[0];
    }
    assert ms[1..] == [("order", Str("ASCENDING")), ("arrayConfig", Str("CONTAINS"))];
    assert ms[1..][1..] == [("arrayConfig", Str("CONTAINS"))];
    assert Names(ms[1..][1..]) == ["arrayConfig"];
    assert Without(["arrayConfig"], "order") == ["arrayConfig"];
    assert Names(ms[1..]) == ["order", "arrayConfig"];
    assert Without(["order", "arrayConfig"], "fieldPath") == ["order", "arrayConfig"];
  }
}

=== FILE: interaction_routing.dfy ===
/**
 * `onNewInteraction`: for every document created under the public data, the
 * path relative to it decides who is looked up for a push: a new post
 * (`posts/{id}`) goes to the author's followers, a comment
 * (`posts/{id}/comments/...`) to the post's author unless they wrote it, a
 * chat message (`chats/{id}/messages/...`) to every participant but the
 * sender. The model computes that list of recipients; looking up their
 * tokens and sending is not part of it.
 */
module InteractionRouting {
  import opened Common
  import opened JsonValue
  import opened Text
  import opened Documents

  /** What a created document is, by its path segments. */
  datatype Kind = NewPost | NewComment(postId: string) | NewMessage(chatId: string) | Unrouted

  /** The three `if` tests on `path`, in their order; `path[2]` of a shorter path is `undefined`. */
  function KindOf(path: seq<string>): (r: Kind)
    requires |path| >= 1
    ensures r.NewPost? <==> path[0] == "posts" && |path| == 2
    ensures r.NewComment? <==> path[0] == "posts" && |path| != 2 && |path| > 2 && path[2] == "comments"
    ensures r.NewMessage? <==> path[0] == "chats" && |path| > 2 && path[2] == "messages"
    ensures r.NewComment? ==> r.postId == path[1]
    ensures r.NewMessage? ==> r.chatId == path[1]
  {
    if path[0] == "posts" && |path| == 2 then NewPost
    else if path[0] == "posts" && |path| > 2 && path[2] == "comments" then NewComment(path[1])
    else if path[0] == "chats" && |path| > 2 && path[2] == "messages" then NewMessage(path[1])
    else Unrouted
  }

  /** The participants that are not `=== senderId`, in order. */
  function Others(items: seq<Json>, sender: Option<Json>): (r: seq<Json>)
    ensures forall x :: x in r <==> x in items && !StrictEquals(x, sender)
    ensures forall x :: multiset(r)[x] == if StrictEquals(x, sender) then 0 else multiset(items)[x]
    ensures |r| <= |items|
  {
    if items == [] then []
    else
      assert items == [items[0]] + items[1..];
      (if StrictEquals(items[0], sender) then [] else [items[0]]) + Others(items[1..], sender)
  }

  /**
   * The recipients for a document created at `document` (the `{document=**}`
   * part of the path) with contents `data` (`None`: no snapshot), when the
   * server key is set iff `keySet`. `None` means the handler throws: a
   * missing author, post or chat document, an id that is not a non-empty
   * string, or followers or participants `for...of` cannot iterate.
   */
  function Recipients(db: Store, keySet: bool, document: string, data: Option<Json>): (r: Option<seq<Json>>)
    ensures !keySet || !Truthy(data) ==> r == Some([])
    ensures keySet && Truthy(data) && KindOf(Split(document, '/')).Unrouted? ==> r == Some([])
  {
    if !keySet || !Truthy(data) then Some([])
    else match KindOf(Split(document, '/'))
      case NewPost => PostRecipients(db, data.value)
      case NewComment(postId) => CommentRecipients(db, postId, data.value)
      case NewMessage(chatId) => MessageRecipients(db, chatId, data.value)
      case Unrouted => Some([])
  }

  /** A new post: the followers of the user named by its `authorId`. */
  function PostRecipients(db: Store, data: Json): (r: Option<seq<Json>>)
    ensures r.Some? <==> var a := Member(data, "authorId");
      a.Some? && DocId(a.value).Some? && DocId(a.value).value in db.users
      && IterItems(db.users[DocId(a.value).value].followers).Some?
    ensures r.Some? ==> r.value == IterItems(db.users[Member(data, "authorId").value.s].followers).value
  {
    var a := Member(data, "authorId");
    if a.None? then None
    else
      var id := DocId(a.value);
      if id.None? || id.value !in db.users then None
      else IterItems(db.users[id.value].followers)
  }

  /** A new comment on post `postId`: that post's author, unless the comment's `authorId` is the same value. */
  function CommentRecipients(db: Store, postId: string, data: Json): (r: Option<seq<Json>>)
    ensures r.Some? <==> postId != [] && postId in db.posts
    ensures r.Some? ==> var author := db.posts[postId].authorId;
      && |r.value| <= 1
      && (r.value != [] <==> Truthy(author) && !StrictEquals(author.value, Member(data, "authorId")))
      && (r.value != [] ==> r.value == [author.value])
  {
    if postId == [] || postId !in db.posts then None
    else
      var author := db.posts[postId].authorId;
      if Truthy(author) && !StrictEquals(author.value, Member(data, "authorId")) then Some([author.value])
      else Some([])
  }

  /** A new message in chat `chatId`: its participants other than the message's `senderId`. */
  function MessageRecipients(db: Store, chatId: string, data: Json): (r: Option<seq<Json>>)
    ensures r.Some? <==> chatId != [] && chatId in db.chats && IterItems(db.chats[chatId].participants).Some?
    ensures r.Some? ==> forall x :: x in r.value <==>
      x in IterItems(db.chats[chatId].participants).value && !StrictEquals(x, Member(data, "senderId"))
    ensures r.Some? ==> var sender, items := Member(data, "senderId"), IterItems(db.chats[chatId].participants).value;
      forall x :: multiset(r.value)[x] == if StrictEquals(x, sender) then 0 else multiset(items)[x]
  {
    if chatId == [] || chatId !in db.chats then None
    else
      var items := IterItems(db.chats[chatId].participants);
      if items.None? then None else Some(Others(items.value, Member(data, "senderId")))
  }

  /** The paths the app writes: a segment never holds `/`. */
  predicate IsSegment(s: string) {
    '/' !in s
  }

  /** A post created at `posts/{postId}` notifies its author's followers. */
  lemma PostPathRoutesToFollowers(db: Store, postId: string, data: Json)
    requires IsSegment(postId) && Truthy(Some(data))
    ensures Recipients(db, true, "posts/" + postId, Some(data)) == PostRecipients(db, data)
  {
    SplitJoin(["posts", postId], '/');
    assert Join(["posts", postId], '/') == "posts/" + postId;
  }

  /** A comment created at `posts/{postId}/comments/{commentId}` notifies that post's author. */
  lemma CommentPathRoutesToAuthor(db: Store, postId: string, commentId: string, data: Json)
    requires IsSegment(postId) && IsSegment(commentId) && Truthy(Some(data))
    ensures Recipients(db, true, "posts/" + postId + "/comments/" + commentId, Some(data))
      == CommentRecipients(db, postId, data)
  {
    var parts := ["posts", postId, "comments", commentId];
    SplitJoin(parts, '/');
    assert Join(parts, '/') == "posts/" + postId + "/comments/" + commentId by {
      assert Join(parts[2..], '/') == "comments/" + commentId;
      assert Join(parts[1..], '/') == postId + "/comments/" + commentId;
    }
  }

  /** A message created at `chats/{chatId}/messages/{messageId}` notifies the chat's other participants. */
  lemma MessagePathRoutesToParticipants(db: Store, chatId: string, messageId: string, data: Json)
    requires IsSegment(chatId) && IsSegment(messageId) && Truthy(Some(data))
    ensures Recipients(db, true, "chats/" + chatId + "/messages/" + messageId, Some(data))
      == MessageRecipients(db, chatId, data)
  {
    var parts := ["chats", chatId, "messages", messageId];
    SplitJoin(parts, '/');
    assert Join(parts, '/') == "chats/" + chatId + "/messages/" + messageId by {
      assert Join(parts[2..], '/') == "messages/" + messageId;
      assert Join(parts[1..], '/') == chatId + "/messages/" + messageId;
    }
  }

  /** Nobody is notified of their own comment. */
  lemma NoSelfCommentNotice(db: Store, postId: string, data: Json, u: string)
    requires postId != [] && postId in db.posts
    requires db.posts[postId].authorId == Some(Str(u)) && Member(data, "authorId") == Some(Str(u))
    ensures CommentRecipients(db, postId, data) == Some([])
  {
  }

  /** The sender of a string id is never among a message's recipients, and every other participant is. */
  lemma SenderNeverNotified(db: Store, chatId: string, data: Json, sender: string)
    requires Member(data, "senderId") == Some(Str(sender))
    requires MessageRecipients(db, chatId, data).Some?
    ensures Str(sender) !in MessageRecipients(db, chatId, data).value
    ensures forall x :: x in IterItems(db.chats[chatId].participants).value && x != Str(sender) ==>
      x in MessageRecipients(db, chatId, data).value
  {
  }

  /** The sender's occurrences and the recipients make up the participants, occurrence by occurrence. */
  lemma {:induction false} OthersCount(items: seq<Json>, sender: Option<Json>)
    ensures multiset(Others(items, sender)) + multiset(Matching(items, sender)) == multiset(items)
    ensures |Others(items, sender)| + |Matching(items, sender)| == |items|
  {
    var others, matching := Others(items, sender), Matching(items, sender);
    assert multiset(others) + multiset(matching) == multiset(items) by {
      forall x ensures (multiset(others) + multiset(matching))[x] == multiset(items)[x] {
      }
    }
    assert |multiset(others) + multiset(matching)| == |others| + |matching|;
  }

  /** The participants that are `=== senderId`. */
  function Matching(items: seq<Json>, sender: Option<Json>): (r: seq<Json>)
    ensures forall x :: x in r <==> x in items && StrictEquals(x, sender)
    ensures forall x :: multiset(r)[x] == if StrictEquals(x, sender) then multiset(items)[x] else 0
  {
    if items == [] then []
    else
      assert items == [items[0]] + items[1..];
      (if StrictEquals(items[0], sender) then [items[0]] else []) + Matching(items[1..], sender)
  }
}

=== FILE: json.dfy ===
/**
 * A parsed JSON value, also used for the untyped (`any`) document payloads the
 * triggers receive. Numbers are integers. An object keeps its members in
 * source order; as with `JSON.parse`, a repeated name reads as its last value
 * and is listed once, at its first position.
 */
module JsonValue {
  import opened Common
  import opened Text

  datatype Json =
    | Null
    | Bool(b: bool)
    | Num(n: int)
    | Str(s: string)
    | Arr(items: seq<Json>)
    | Obj(members: seq<(string, Json)>)

  /** JavaScript truthiness of a value that may be `undefined` (`None`). */
  predicate Truthy(v: Option<Json>) {
    match v
    case None => false
    case Some(Null) => false
    case Some(Bool(b)) => b
    case Some(Num(n)) => n != 0
    case Some(Str(s)) => s != ""
    case Some(_) => true
  }

  /** `v ?? d`: the default replaces `undefined` and `null` only. */
  function Coalesce(v: Option<Json>, d: Json): (r: Json)
    ensures v.Some? && v.value != Null ==> r == v.value
    ensures v.None? || v == Some(Null) ==> r == d
  {
    if v.Some? && v.value != Null then v.value else d
  }

  predicate HasName(members: seq<(string, Json)>, key: string) {
    exists i :: 0 <= i < |members| && members[i].0 == key
  }

  /** The value of the last member named `key`. */
  function Lookup(members: seq<(string, Json)>, key: string): (r: Option<Json>)
    ensures r.Some? <==> HasName(members, key)
    ensures r.Some? ==> exists i :: 0 <= i < |members| && members[i] == (key, r.value)
  {
    if members == [] then None
    else
      var last := members[|members| - 1];
      if last.0 == key then Some(last.1)
      else
        var r := Lookup(members[..|members| - 1], key);
        assert forall i :: 0 <= i < |members| - 1 ==> members[..|members| - 1][i] == members[i];
        r
  }

  /**
   * Property read `v.key` on a non-null value: only objects have the named
   * own members read here; every other value yields `undefined`.
   */
  function Member(v: Json, key: string): (r: Option<Json>)
    ensures r.Some? ==> v.Obj? && HasName(v.members, key)
  {
    if v.Obj? then Lookup(v.members, key) else None
  }

  /** Optional chaining `v?.key`: `undefined` and `null` short-circuit to `undefined`. */
  function OptMember(v: Option<Json>, key: string): Option<Json> {
    if v.None? || v.value == Null then None else Member(v.value, key)
  }

  /** `Object.prototype.hasOwnProperty.call(v, key)` for an object value. */
  predicate HasOwn(v: Json, key: string) {
    v.Obj? && HasName(v.members, key)
  }

  function Without(keys: seq<string>, k: string): (r: seq<string>)
    ensures forall x :: x in r <==> x in keys && x != k
  {
    if keys == [] then []
    else if keys[0] == k then Without(keys[1..], k)
    else [keys[0]] + Without(keys[1..], k)
  }

  /** The member names of an object, each once, at its first position. */
  function Names(members: seq<(string, Json)>): (r: seq<string>)
    ensures forall k :: k in r <==> HasName(members, k)
    ensures forall i, j :: 0 <= i < j < |r| ==> r[i] != r[j]
  {
    if members == [] then []
    else
      var rest := Names(members[1..]);
      assert forall k :: HasName(members, k) <==> k == members[0].0 || HasName(members[1..], k) by {
        forall k | HasName(members, k) && k != members[0].0 ensures HasName(members[1..], k) {
          var i :| 0 <= i < |members| && members[i].0 == k;
          assert members[1..][i - 1].0 == k;
        }
      }
      NoDuplicatesWithout(rest, members[0].0);
      assert members[0].0 !in Without(rest, members[0].0);
      [members[0].0] + Without(rest, members[0].0)
  }

  lemma {:induction false} NoDuplicatesWithout(keys: seq<string>, k: string)
    requires forall i, j :: 0 <= i < j < |keys| ==> keys[i] != keys[j]
    ensures forall i, j :: 0 <= i < j < |Without(keys, k)| ==> Without(keys, k)[i] != Without(keys, k)[j]
  {
    if keys != [] {
      NoDuplicatesWithout(keys[1..], k);
      if keys[0] != k {
        var w := Without(keys[1..], k);
        assert keys[0] !in w by {
          assert keys[0] !in keys[1..];
        }
      }
    }
  }

  /** The decimal index strings "0", ..., "n-1". */
  function IndexNames(n: nat): (r: seq<string>)
    ensures |r| == n
    ensures forall i :: 0 <= i < n ==> r[i] == NatToString(i)
  {
    if n == 0 then [] else IndexNames(n - 1) + [NatToString(n - 1)]
  }

  /** `Object.keys(v)` for an object or an array. */
  function OwnKeys(v: Json): seq<string> {
    match v
    case Obj(ms) => Names(ms)
    case Arr(items) => IndexNames(|items|)
    case _ => []
  }

  /** `String(v)`, the property key a value becomes in `prefs[v]`. */
  function PropertyKey(v: Json): string
    decreases v, 1
  {
    match v
    case Null => "null"
    case Bool(b) => if b then "true" else "false"
    case Num(n) => IntToString(n)
    case Str(s) => s
    case Arr(items) => Join(ElementKeys(items, v), ',')
    case Obj(_) => "[object Object]"
  }

  /** The strings an array joins: `null` elements become empty. */
  function ElementKeys(items: seq<Json>, whole: Json): (r: seq<string>)
    requires whole.Arr? && forall k :: 0 <= k < |items| ==> items[k] in whole.items
    ensures |r| == |items|
    decreases whole, 0, |items|
  {
    if items == [] then []
    else [if items[0] == Null then "" else PropertyKey(items[0])] + ElementKeys(items[1..], whole)
  }

  /** Strict equality `a === b` of a value read from one document with one read from another: primitives by value, objects and arrays never. */
  predicate StrictEquals(a: Json, b: Option<Json>) {
    b.Some? && !a.Arr? && !a.Obj? && a == b.value
  }

  /** `(v || []).find(...)` and friends: a falsy value reads as no items, an array as its items; anything else throws (`None`). */
  function ArrayItems(v: Option<Json>): (r: Option<seq<Json>>)
    ensures !Truthy(v) ==> r == Some([])
    ensures Truthy(v) ==> (r.Some? <==> v.value.Arr?)
    ensures Truthy(v) && v.value.Arr? ==> r == Some(v.value.items)
  {
    if !Truthy(v) then Some([]) else if v.value.Arr? then Some(v.value.items) else None
  }

  /** The one-character strings a string iterates over. */
  function Chars(s: string): (r: seq<Json>)
    ensures |r| == |s|
    ensures forall k :: 0 <= k < |s| ==> r[k] == Str([s[k]])
  {
    if s == [] then [] else [Str([s[0]])] + Chars(s[1..])
  }

  /** `for (const x of v || [])`: as `ArrayItems`, and a non-empty string iterates over its characters. */
  function IterItems(v: Option<Json>): (r: Option<seq<Json>>)
    ensures !Truthy(v) ==> r == Some([])
    ensures Truthy(v) && v.value.Arr? ==> r == Some(v.value.items)
    ensures Truthy(v) && v.value.Str? ==> r == Some(Chars(v.value.s))
    ensures Truthy(v) && !v.value.Arr? && !v.value.Str? ==> r.None?
  {
    if !Truthy(v) then Some([])
    else match v.value
      case Arr(items) => Some(items)
      case Str(s) => Some(Chars(s))
      case _ => None
  }
}

=== FILE: notify_batched.dfy ===
/**
 * Batched notifications. `queueNotification` writes an item under
 * `notifQueue/{targetUid}/items/{id}` for every interaction with a target;
 * `dispatchQueuedNotifications` visits the queue documents and, per user,
 * moves the items the user's preferences allow to the inbox, unread, in one
 * batch, leaving the others queued.
 */
module NotifyBatched {
  import opened Common
  import opened JsonValue

  /** The fields of a queued item; `createdAt` is the server write time. */
  datatype QueuedItem = QueuedItem(
    kind: Option<Json>, actorId: Option<Json>, postId: Option<Json>, commentId: Option<Json>, createdAt: int)

  /** A queued item with its document id. */
  datatype Entry = Entry(id: string, item: QueuedItem)

  /** An inbox document: the queued item's fields and `read`. */
  datatype InboxItem = InboxItem(item: QueuedItem, read: bool)

  /**
   * The queue documents that exist (`notifQueue/{uid}` itself), each user's
   * queued items, each user's `settings/notifications` fields when that
   * document exists, and each user's inbox, whose document ids are random.
   */
  datatype NotifStore = NotifStore(
    queueDocs: seq<string>,
    queues: map<string, seq<Entry>>,
    prefs: map<string, map<string, Json>>,
    inbox: map<string, multiset<InboxItem>>)

  function QueueOf(db: NotifStore, u: string): seq<Entry> {
    if u in db.queues then db.queues[u] else []
  }

  function InboxOf(db: NotifStore, u: string): multiset<InboxItem> {
    if u in db.inbox then db.inbox[u] else multiset{}
  }

  /** `prefsDoc.data() || {}`: a missing settings document reads as no preferences. */
  function PrefsOf(db: NotifStore, u: string): map<string, Json> {
    if u in db.prefs then db.prefs[u] else map[]
  }

  // Enqueue.

  /** Some entry carries the document id `id`. */
  predicate HasId(entries: seq<Entry>, id: string) {
    exists k :: 0 <= k < |entries| && entries[k].id == id
  }

  /** No two entries carry the same document id, as in a Firestore collection. */
  predicate DistinctIds(entries: seq<Entry>) {
    forall j, k :: 0 <= j < k < |entries| ==> entries[j].id != entries[k].id
  }

  /** The entries whose id is not `id`, in order. */
  function OtherIds(entries: seq<Entry>, id: string): (r: seq<Entry>)
    ensures forall e :: e in r <==> e in entries && e.id != id
    ensures forall k :: 0 <= k < |r| ==> r[k].id != id
    ensures !HasId(entries, id) ==> r == entries
    ensures |r| <= |entries|
  {
    if entries == [] then []
    else
      var rest := OtherIds(entries[1..], id);
      NoIdInTail(entries, id);
      if entries[0].id == id then rest else [entries[0]] + rest
  }

  /** Without `id` in the list, neither its head nor its tail carries it. */
  lemma NoIdInTail(entries: seq<Entry>, id: string)
    requires entries != []
    ensures !HasId(entries, id) ==> entries[0].id != id && !HasId(entries[1..], id)
    ensures entries == [entries[0]] + entries[1..]
  {
    HasIdCons(entries, id);
  }

  /**
   * `.doc(id).set(...)` on a user's items: the entry under `id` is replaced
   * in place, or added at the end when there is none; every entry with
   * another id is kept.
   */
  function Upsert(entries: seq<Entry>, id: string, item: QueuedItem): (r: seq<Entry>)
    ensures multiset(r) == multiset(OtherIds(entries, id)) + multiset{Entry(id, item)}
    ensures forall k :: 0 <= k < |r| && r[k].id == id ==> r[k] == Entry(id, item)
  {
    if entries == [] then [Entry(id, item)]
    else if entries[0].id == id then
      var rest := OtherIds(entries[1..], id);
      assert OtherIds(entries, id) == rest;
      PrependSameId(Entry(id, item), rest, id, Entry(id, item));
      [Entry(id, item)] + rest
    else
      var rest := Upsert(entries[1..], id, item);
      assert OtherIds(entries, id) == [entries[0]] + OtherIds(entries[1..], id);
      PrependSameId(entries[0], rest, id, Entry(id, item));
      [entries[0]] + rest
  }

  /** Putting one entry in front keeps "every entry carrying `id` is `x`", given the head carries it only as `x`. */
  lemma PrependSameId(x: Entry, rest: seq<Entry>, id: string, e: Entry)
    requires forall k :: 0 <= k < |rest| && rest[k].id == id ==> rest[k] == e
    requires x.id == id ==> x == e
    ensures forall k :: 0 <= k < |[x] + rest| && ([x] + rest)[k].id == id ==> ([x] + rest)[k] == e
  {
    forall k | 0 < k < |[x] + rest| ensures ([x] + rest)[k] == rest[k - 1] {
    }
  }

  /** An id not yet queued is added at the end, after the entries already there. */
  lemma {:induction false} UpsertNewId(entries: seq<Entry>, id: string, item: QueuedItem)
    ensures !HasId(entries, id) ==> Upsert(entries, id, item) == entries + [Entry(id, item)]
  {
    if entries != [] && !HasId(entries, id) {
      NoIdInTail(entries, id);
      UpsertNewId(entries[1..], id, item);
    }
  }

  /** A second `set` on the same document overwrites the first: two interactions in one millisecond leave one item. */
  lemma {:induction false} UpsertOverwrites(entries: seq<Entry>, id: string, a: QueuedItem, b: QueuedItem)
    ensures Upsert(Upsert(entries, id, a), id, b) == Upsert(entries, id, b)
  {
    var once := Upsert(entries, id, a);
    if entries == [] {
      assert once == [Entry(id, a)];
      assert once[1..] == [];
    } else if entries[0].id == id {
      var rest := OtherIds(entries[1..], id);
      assert once == [Entry(id, a)] + rest && once[1..] == rest;
      assert OtherIds(rest, id) == rest;
    } else {
      assert once == [entries[0]] + Upsert(entries[1..], id, a);
      assert once[0] == entries[0] && once[1..] == Upsert(entries[1..], id, a);
      UpsertOverwrites(entries[1..], id, a, b);
    }
  }

  /**
   * On a collection with distinct ids, `set` keeps them distinct, so exactly
   * one entry carries `id`; the list grows by one for a new id and keeps its
   * length for an existing one.
   */
  lemma {:induction false} UpsertKeepsDistinct(entries: seq<Entry>, id: string, item: QueuedItem)
    requires DistinctIds(entries)
    ensures DistinctIds(Upsert(entries, id, item))
    ensures |Upsert(entries, id, item)| == if HasId(entries, id) then |entries| else |entries| + 1
  {
    var r := Upsert(entries, id, item);
    if entries != [] {
      var tail := entries[1..];
      DistinctTail(entries);
      HasIdCons(entries, id);
      if entries[0].id == id {
        NoIdOfMembers(tail, id);
        assert r == [Entry(id, item)] + tail;
        PrependDistinct(Entry(id, item), tail);
      } else {
        var rest := Upsert(tail, id, item);
        UpsertKeepsDistinct(tail, id, item);
        UpsertMembers(tail, id, item);
        assert r == [entries[0]] + rest;
        PrependDistinct(entries[0], rest);
      }
    }
  }

  /** The tail of a list with distinct ids has distinct ids, none of them the head's. */
  lemma DistinctTail(entries: seq<Entry>)
    requires DistinctIds(entries) && entries != []
    ensures DistinctIds(entries[1..])
    ensures forall y :: y in entries[1..] ==> y.id != entries[0].id
  {
    var tail := entries[1..];
    forall a, b | 0 <= a < b < |tail| ensures tail[a].id != tail[b].id {
      assert tail[a] == entries[a + 1] && tail[b] == entries[b + 1];
    }
    forall y | y in tail ensures y.id != entries[0].id {
      var a :| 0 <= a < |tail| && tail[a] == y;
      assert entries[a + 1] == y;
    }
  }

  lemma HasIdCons(entries: seq<Entry>, id: string)
    requires entries != []
    ensures HasId(entries, id) <==> entries[0].id == id || HasId(entries[1..], id)
  {
    if HasId(entries, id) && entries[0].id != id {
      var a :| 0 <= a < |entries| && entries[a].id == id;
      assert entries[1..][a - 1] == entries[a];
    }
    if HasId(entries[1..], id) {
      var a :| 0 <= a < |entries[1..]| && entries[1..][a].id == id;
      assert entries[a + 1] == entries[1..][a];
    }
  }

  lemma NoIdOfMembers(entries: seq<Entry>, id: string)
    requires forall y :: y in entries ==> y.id != id
    ensures !HasId(entries, id)
  {
    forall a | 0 <= a < |entries| ensures entries[a].id != id {
      assert entries[a] in entries;
    }
  }

  /** Every entry of `Upsert`'s result is the new one or was already there. */
  lemma UpsertMembers(entries: seq<Entry>, id: string, item: QueuedItem)
    ensures forall x :: x in Upsert(entries, id, item) ==> x == Entry(id, item) || x in entries
  {
    forall x | x in Upsert(entries, id, item) ensures x == Entry(id, item) || x in entries {
      assert x in multiset(Upsert(entries, id, item));
    }
  }

  /** An entry whose id no later entry carries keeps a list with distinct ids distinct. */
  lemma PrependDistinct(x: Entry, rest: seq<Entry>)
    requires DistinctIds(rest)
    requires forall y :: y in rest ==> y.id != x.id
    ensures DistinctIds([x] + rest)
  {
    var r := [x] + rest;
    forall a, b | 0 <= a < b < |r| ensures r[a].id != r[b].id {
      assert r[b] == rest[b - 1] && rest[b - 1] in rest;
      if a > 0 { assert r[a] == rest[a - 1]; }
    }
  }

  /** `f` is present exactly when the interaction has an own member `key`, and then holds one of its values. */
  predicate CopiedMember(data: Option<Json>, key: string, f: Option<Json>) {
    && (f.Some? <==> data.Some? && HasOwn(data.value, key))
    && (f.Some? ==> exists i :: 0 <= i < |data.value.members| && data.value.members[i] == (key, f.value))
  }

  /** The item `queueNotification` writes: the four fields of the interaction and the write time. */
  function ItemOf(data: Option<Json>, serverTime: int): (r: QueuedItem)
    ensures CopiedMember(data, "type", r.kind) && CopiedMember(data, "actorId", r.actorId)
    ensures CopiedMember(data, "postId", r.postId) && CopiedMember(data, "commentId", r.commentId)
    ensures r.createdAt == serverTime
  {
    QueuedItem(OptMember(data, "type"), OptMember(data, "actorId"), OptMember(data, "postId"),
               OptMember(data, "commentId"), serverTime)
  }

  /**
   * `queueNotification` on an interaction document `data`, with `id` the
   * `Date.now()` string and `serverTime` the write time. A falsy
   * `data?.targetUid` changes nothing; a truthy one that is not a string makes
   * `doc(uid)` throw (`None`); otherwise exactly one item with the four fields
   * is written under that uid and nothing else changes.
   */
  function Enqueue(db: NotifStore, data: Option<Json>, id: string, serverTime: int): (r: Option<NotifStore>)
    ensures !Truthy(OptMember(data, "targetUid")) ==> r == Some(db)
    ensures Truthy(OptMember(data, "targetUid")) && !OptMember(data, "targetUid").value.Str? ==> r.None?
    ensures OptMember(data, "targetUid").Some? && OptMember(data, "targetUid").value.Str? && Truthy(OptMember(data, "targetUid")) ==>
      var uid := OptMember(data, "targetUid").value.s;
      && r.Some? && r.value.queues.Keys == db.queues.Keys + {uid}
      && r.value.queueDocs == db.queueDocs && r.value.prefs == db.prefs && r.value.inbox == db.inbox
      && (forall v :: v in db.queues && v != uid ==> r.value.queues[v] == db.queues[v])
      && multiset(r.value.queues[uid]) == multiset(OtherIds(QueueOf(db, uid), id)) + multiset{Entry(id, ItemOf(data, serverTime))}
      && (forall k :: 0 <= k < |r.value.queues[uid]| && r.value.queues[uid][k].id == id ==>
            r.value.queues[uid][k] == Entry(id, ItemOf(data, serverTime)))
      && (!HasId(QueueOf(db, uid), id) ==> r.value.queues[uid] == QueueOf(db, uid) + [Entry(id, ItemOf(data, serverTime))])
  {
    var target := OptMember(data, "targetUid");
    if !Truthy(target) then Some(db)
    else if !target.value.Str? then None
    else
      var uid := target.value.s;
      UpsertNewId(QueueOf(db, uid), id, ItemOf(data, serverTime));
      Some(db.(queues := db.queues[uid := Upsert(QueueOf(db, uid), id, ItemOf(data, serverTime))]))
  }

  /** An enqueue keeps the target's queue free of repeated ids, and adds one entry unless the id was already queued. */
  lemma EnqueueKeepsDistinct(db: NotifStore, data: Option<Json>, id: string, serverTime: int)
    requires Enqueue(db, data, id, serverTime).Some? && Truthy(OptMember(data, "targetUid"))
    requires DistinctIds(QueueOf(db, OptMember(data, "targetUid").value.s))
    ensures var uid := OptMember(data, "targetUid").value.s;
      var q := QueueOf(Enqueue(db, data, id, serverTime).value, uid);
      && DistinctIds(q)
      && |q| == if HasId(QueueOf(db, uid), id) then |QueueOf(db, uid)| else |QueueOf(db, uid)| + 1
  {
    UpsertKeepsDistinct(QueueOf(db, OptMember(data, "targetUid").value.s), id, ItemOf(data, serverTime));
  }

  // Preferences.

  /** `prefs[d.get('type')]` reads the key `String(type)`; a missing type reads as `undefined`. */
  function PrefKey(kind: Option<Json>): string {
    if kind.None? then "undefined" else PropertyKey(kind.value)
  }

  /** `prefs[type] !== false`: only a stored boolean `false` turns a type off. */
  predicate Allowed(prefs: map<string, Json>, item: QueuedItem): (r: bool)
    ensures PrefKey(item.kind) !in prefs ==> r
    ensures PrefKey(item.kind) in prefs && prefs[PrefKey(item.kind)] in {Null, Bool(true), Num(0), Str("false")} ==> r
    ensures PrefKey(item.kind) in prefs && prefs[PrefKey(item.kind)] == Bool(false) ==> !r
  {
    !(PrefKey(item.kind) in prefs && prefs[PrefKey(item.kind)] == Bool(false))
  }

  function AllowedEntries(prefs: map<string, Json>, entries: seq<Entry>): (r: seq<Entry>)
    ensures forall e :: e in r <==> e in entries && Allowed(prefs, e.item)
    ensures |r| <= |entries|
  {
    if entries == [] then []
    else if Allowed(prefs, entries[0].item) then [entries[0]] + AllowedEntries(prefs, entries[1..])
    else AllowedEntries(prefs, entries[1..])
  }

  function DisallowedEntries(prefs: map<string, Json>, entries: seq<Entry>): (r: seq<Entry>)
    ensures forall e :: e in r <==> e in entries && !Allowed(prefs, e.item)
  {
    if entries == [] then []
    else if Allowed(prefs, entries[0].item) then DisallowedEntries(prefs, entries[1..])
    else [entries[0]] + DisallowedEntries(prefs, entries[1..])
  }

  /** Dispatch splits a queue: every item is delivered or kept, exactly once. */
  lemma {:induction false} DispatchConserves(prefs: map<string, Json>, entries: seq<Entry>)
    ensures multiset(AllowedEntries(prefs, entries)) + multiset(DisallowedEntries(prefs, entries)) == multiset(entries)
    ensures |AllowedEntries(prefs, entries)| + |DisallowedEntries(prefs, entries)| == |entries|
  {
    if entries != [] {
      DispatchConserves(prefs, entries[1..]);
      assert entries == [entries[0]] + entries[1..];
    }
  }

  /** The inbox document for each entry, in queue order: its fields and `read: false`. */
  function UnreadCopies(entries: seq<Entry>): (r: seq<InboxItem>)
    ensures |r| == |entries|
  {
    seq(|entries|, k requires 0 <= k < |entries| => InboxItem(entries[k].item, false))
  }

  /** `{...doc.data(), read: false}` for each entry: one unread copy of every entry, no more, no fewer. */
  function Unread(entries: seq<Entry>): (r: multiset<InboxItem>)
    ensures r == multiset(UnreadCopies(entries))
    ensures |r| == |entries|
    ensures forall x :: x in r ==> !x.read && exists k :: 0 <= k < |entries| && entries[k].item == x.item
  {
    UnreadCopiesFrom(entries);
    if entries == [] then multiset{}
    else
      UnreadCopiesCons(entries);
      multiset{InboxItem(entries[0].item, false)} + Unread(entries[1..])
  }

  lemma UnreadCopiesCons(entries: seq<Entry>)
    requires entries != []
    ensures UnreadCopies(entries) == [InboxItem(entries[0].item, false)] + UnreadCopies(entries[1..])
  {
    var copies := UnreadCopies(entries);
    forall k | 0 < k < |copies| ensures copies[k] == UnreadCopies(entries[1..])[k - 1] {
      assert entries[1..][k - 1] == entries[k];
    }
  }

  /** An unread copy is of an entry exactly when that entry is in the list. */
  lemma UnreadCopiesFrom(entries: seq<Entry>)
    ensures forall x :: x in multiset(UnreadCopies(entries)) <==>
      !x.read && exists e :: e in entries && e.item == x.item
    ensures forall x :: x in multiset(UnreadCopies(entries)) ==>
      exists k :: 0 <= k < |entries| && entries[k].item == x.item
  {
    var copies := UnreadCopies(entries);
    forall x: InboxItem ensures x in multiset(copies) <==> !x.read && exists e :: e in entries && e.item == x.item {
      if x in multiset(copies) {
        var k :| 0 <= k < |copies| && copies[k] == x;
        assert entries[k] in entries;
      }
      if !x.read && exists e :: e in entries && e.item == x.item {
        var e :| e in entries && e.item == x.item;
        var k :| 0 <= k < |entries| && entries[k] == e;
        assert copies[k] == x;
      }
    }
    forall x | x in multiset(copies) ensures exists k :: 0 <= k < |entries| && entries[k].item == x.item {
      var k :| 0 <= k < |copies| && copies[k] == x;
    }
  }

  // Dispatch.

  /** A log line `Sending {count} notifications to {uid}`. */
  datatype LogLine = Sending(count: nat, uid: string)

  /**
   * One user's turn: an empty queue is skipped; otherwise the allowed items
   * move to the inbox unread and leave the queue, the disallowed ones stay,
   * and a positive count is logged.
   */
  function DispatchUser(db: NotifStore, u: string): (r: (NotifStore, seq<LogLine>))
    ensures QueueOf(db, u) == [] ==> r == (db, [])
    ensures QueueOf(db, u) != [] ==>
      var allowed := AllowedEntries(PrefsOf(db, u), QueueOf(db, u));
      && r.0.queues == db.queues[u := DisallowedEntries(PrefsOf(db, u), QueueOf(db, u))]
      && r.0.inbox == db.inbox[u := InboxOf(db, u) + Unread(allowed)]
      && r.0.queueDocs == db.queueDocs && r.0.prefs == db.prefs
      && r.1 == (if |allowed| > 0 then [Sending(|allowed|, u)] else [])
  {
    var entries := QueueOf(db, u);
    if entries == [] then (db, [])
    else
      var prefs := PrefsOf(db, u);
      var allowed := AllowedEntries(prefs, entries);
      var kept := DisallowedEntries(prefs, entries);
      var db1 := db.(queues := db.queues[u := kept], inbox := db.inbox[u := InboxOf(db, u) + Unread(allowed)]);
      (db1, if |allowed| > 0 then [Sending(|allowed|, u)] else [])
  }

  /** Each listed user in turn; the log lines in order. */
  function DispatchUsers(db: NotifStore, uids: seq<string>): (r: (NotifStore, seq<LogLine>))
    ensures r.0.queueDocs == db.queueDocs && r.0.prefs == db.prefs
    ensures r.0.queues.Keys <= db.queues.Keys + set u | u in uids
    decreases |uids|
  {
    if uids == [] then (db, [])
    else
      var (db1, log1) := DispatchUser(db, uids[0]);
      var (db2, log2) := DispatchUsers(db1, uids[1..]);
      (db2, log1 + log2)
  }

  /** `dispatchQueuedNotifications` as deployed: it visits the queue documents that exist. */
  function DispatchQueued(db: NotifStore): (r: (NotifStore, seq<LogLine>))
    ensures r.0.queueDocs == db.queueDocs && r.0.prefs == db.prefs
    ensures forall u :: u !in db.queueDocs ==> QueueOf(r.0, u) == QueueOf(db, u)
  {
    DispatchUsersFrameAll(db, db.queueDocs);
    DispatchUsers(db, db.queueDocs)
  }

  /** Dispatching a user's queue leaves it holding only items the user has turned off. */
  lemma DispatchLeavesOnlyDisallowed(db: NotifStore, u: string)
    ensures forall e :: e in QueueOf(DispatchUser(db, u).0, u) ==> !Allowed(PrefsOf(db, u), e.item)
    ensures |QueueOf(DispatchUser(db, u).0, u)| + |AllowedEntries(PrefsOf(db, u), QueueOf(db, u))| == |QueueOf(db, u)|
    ensures |InboxOf(DispatchUser(db, u).0, u)| == |InboxOf(db, u)| + |AllowedEntries(PrefsOf(db, u), QueueOf(db, u))|
  {
    DispatchConserves(PrefsOf(db, u), QueueOf(db, u));
  }

  /**
   * A user's turn adds exactly one unread copy of each allowed entry to that
   * user's inbox and leaves every other user's queue and inbox as they were.
   */
  lemma DispatchUserInbox(db: NotifStore, u: string)
    ensures var d := DispatchUser(db, u).0;
      && InboxOf(d, u) == InboxOf(db, u) + multiset(UnreadCopies(AllowedEntries(PrefsOf(db, u), QueueOf(db, u))))
      && (forall v :: v != u ==> QueueOf(d, v) == QueueOf(db, v) && InboxOf(d, v) == InboxOf(db, v))
  {
    var allowed := AllowedEntries(PrefsOf(db, u), QueueOf(db, u));
    if QueueOf(db, u) == [] {
      assert allowed == [];
    } else {
      var d := DispatchUser(db, u).0;
      assert d.inbox == db.inbox[u := InboxOf(db, u) + Unread(allowed)];
      assert d.queues == db.queues[u := DisallowedEntries(PrefsOf(db, u), QueueOf(db, u))];
      assert InboxOf(d, u) == InboxOf(db, u) + Unread(allowed);
      forall v | v != u ensures QueueOf(d, v) == QueueOf(db, v) && InboxOf(d, v) == InboxOf(db, v) {
        MapUpdateFrame(db.queues, u, DisallowedEntries(PrefsOf(db, u), QueueOf(db, u)), v);
        MapUpdateFrame(db.inbox, u, InboxOf(db, u) + Unread(allowed), v);
      }
    }
  }

  lemma MapUpdateFrame<K, V>(m: map<K, V>, k: K, x: V, other: K)
    requires other != k
    ensures other in m[k := x] <==> other in m
    ensures other in m ==> m[k := x][other] == m[other]
  {
  }

  /**
   * What a user's turn adds to the inbox is exactly the unread copies of the
   * queued items the preferences allow: an unread item is added iff some
   * allowed queued entry carries its fields.
   */
  lemma DispatchDeliversAllowed(db: NotifStore, u: string)
    ensures var added := InboxOf(DispatchUser(db, u).0, u) - InboxOf(db, u);
      forall x :: x in added <==>
        !x.read && exists e :: e in QueueOf(db, u) && Allowed(PrefsOf(db, u), e.item) && e.item == x.item
  {
    var prefs := PrefsOf(db, u);
    var allowed := AllowedEntries(prefs, QueueOf(db, u));
    if QueueOf(db, u) != [] {
      DispatchUserInbox(db, u);
      UnreadCopiesFrom(allowed);
      AllowedCopies(prefs, QueueOf(db, u), allowed);
    }
  }

  lemma AllowedCopies(prefs: map<string, Json>, entries: seq<Entry>, allowed: seq<Entry>)
    requires allowed == AllowedEntries(prefs, entries)
    requires forall x :: x in multiset(UnreadCopies(allowed)) <==> !x.read && exists e :: e in allowed && e.item == x.item
    ensures forall x :: x in multiset(UnreadCopies(allowed)) <==>
      !x.read && exists e :: e in entries && Allowed(prefs, e.item) && e.item == x.item
  {
    forall x: InboxItem ensures (exists e :: e in allowed && e.item == x.item) <==>
      (exists e :: e in entries && Allowed(prefs, e.item) && e.item == x.item)
    {
      if exists e :: e in entries && Allowed(prefs, e.item) && e.item == x.item {
        var e :| e in entries && Allowed(prefs, e.item) && e.item == x.item;
        assert e in allowed;
      }
    }
  }

  /** The count logged for a user is the number of items moved to the inbox. */
  lemma LoggedCountIsDelivered(db: NotifStore, u: string)
    requires |AllowedEntries(PrefsOf(db, u), QueueOf(db, u))| > 0
    ensures DispatchUser(db, u).1 == [Sending(|InboxOf(DispatchUser(db, u).0, u)| - |InboxOf(db, u)|, u)]
  {
    var allowed := AllowedEntries(PrefsOf(db, u), QueueOf(db, u));
    assert QueueOf(db, u) != [];
    var r := DispatchUser(db, u);
    assert InboxOf(r.0, u) == InboxOf(db, u) + Unread(allowed);
    assert |InboxOf(r.0, u)| - |InboxOf(db, u)| == |allowed|;
  }

  // Queue documents.

  /**
   * The enqueue writes only the `items` sub-collection, so the parent
   * `notifQueue/{uid}` document, which the dispatcher lists, is never created.
   */
  lemma EnqueueCreatesNoQueueDoc(db: NotifStore, data: Option<Json>, id: string, serverTime: int)
    requires Enqueue(db, data, id, serverTime).Some?
    ensures Enqueue(db, data, id, serverTime).value.queueDocs == db.queueDocs
  {
  }

  /** From an empty store, an enqueued notification is never dispatched: it stays queued, nothing is logged. */
  lemma QueuedNeverDispatched(db: NotifStore, data: Option<Json>, serverTime: int)
    requires db == NotifStore([], map[], map[], map[])
    requires data == Some(Obj([("targetUid", Str("u1")), ("type", Str("like")), ("actorId", Str("a1")),
                               ("postId", Str("p1")), ("commentId", Str("c1"))]))
    ensures Enqueue(db, data, "1", serverTime).Some?
    ensures var d := Enqueue(db, data, "1", serverTime).value;
      && DispatchQueued(d) == (d, []) && QueueOf(d, "u1") == [Entry("1", ItemOf(data, serverTime))]
      && InboxOf(DispatchQueued(d).0, "u1") == multiset{}
  {
    LikeTarget(data);
    assert !HasId(QueueOf(db, "u1"), "1");
    NoQueueDocsNoDispatch(Enqueue(db, data, "1", serverTime).value);
  }

  lemma LikeTarget(data: Option<Json>)
    requires data == Some(Obj([("targetUid", Str("u1")), ("type", Str("like")), ("actorId", Str("a1")),
                               ("postId", Str("p1")), ("commentId", Str("c1"))]))
    ensures OptMember(data, "targetUid") == Some(Str("u1"))
  {
    var ms := data.value.members;
    assert ms[0].0 == "targetUid";
    var i :| 0 <= i < |ms| && ms[i] == ("targetUid", Lookup(ms, "targetUid").value);
    assert i == 0;
  }

  /** With no queue documents listed, a dispatch run visits nobody. */
  lemma NoQueueDocsNoDispatch(d: NotifStore)
    requires d.queueDocs == []
    ensures DispatchQueued(d) == (d, [])
  {
  }

  /** The enqueue with the parent document created as well (for example by a merge write). */
  function EnqueueWithQueueDoc(db: NotifStore, data: Option<Json>, id: string, serverTime: int): (r: Option<NotifStore>)
    ensures r.Some? <==> Enqueue(db, data, id, serverTime).Some?
    ensures r.Some? ==> r.value.queues == Enqueue(db, data, id, serverTime).value.queues
    ensures r.Some? && Truthy(OptMember(data, "targetUid")) ==> OptMember(data, "targetUid").value.s in r.value.queueDocs
  {
    var target := OptMember(data, "targetUid");
    match Enqueue(db, data, id, serverTime)
    case None => None
    case Some(d) =>
      if Truthy(target) && target.value.s !in d.queueDocs then Some(d.(queueDocs := d.queueDocs + [target.value.s]))
      else Some(d)
  }

  /** Every user with queued items has a queue document, and each is listed once. */
  predicate QueueDocsCover(db: NotifStore) {
    && (forall u :: u in db.queues && db.queues[u] != [] ==> u in db.queueDocs)
    && (forall i, j :: 0 <= i < j < |db.queueDocs| ==> db.queueDocs[i] != db.queueDocs[j])
  }

  /** The corrected enqueue keeps every queued user listed. */
  lemma EnqueueWithQueueDocKeepsCover(db: NotifStore, data: Option<Json>, id: string, serverTime: int)
    requires QueueDocsCover(db)
    requires EnqueueWithQueueDoc(db, data, id, serverTime).Some?
    ensures QueueDocsCover(EnqueueWithQueueDoc(db, data, id, serverTime).value)
  {
    var target := OptMember(data, "targetUid");
    var r := EnqueueWithQueueDoc(db, data, id, serverTime).value;
    if Truthy(target) {
      var uid := target.value.s;
      forall u | u in r.queues && r.queues[u] != [] ensures u in r.queueDocs {
        if u != uid {
          assert r.queues[u] == db.queues[u];
        }
      }
    }
  }

  /** Users not in the list keep their queues. */
  lemma {:induction false} DispatchUsersFrame(db: NotifStore, uids: seq<string>, u: string)
    requires u !in uids
    ensures QueueOf(DispatchUsers(db, uids).0, u) == QueueOf(db, u)
    decreases |uids|
  {
    if uids != [] {
      var d1 := DispatchUser(db, uids[0]).0;
      assert QueueOf(d1, u) == QueueOf(db, u);
      DispatchUsersFrame(d1, uids[1..], u);
    }
  }

  lemma DispatchUsersFrameAll(db: NotifStore, uids: seq<string>)
    ensures forall u :: u !in uids ==> QueueOf(DispatchUsers(db, uids).0, u) == QueueOf(db, u)
  {
    forall u | u !in uids
      ensures QueueOf(DispatchUsers(db, uids).0, u) == QueueOf(db, u)
    {
      DispatchUsersFrame(db, uids, u);
    }
  }

  /** Dispatching users in turn leaves every visited user with only turned-off items. */
  lemma {:induction false} DispatchUsersLeavesOnlyDisallowed(db: NotifStore, uids: seq<string>, u: string)
    requires forall i, j :: 0 <= i < j < |uids| ==> uids[i] != uids[j]
    requires u in uids
    ensures forall e :: e in QueueOf(DispatchUsers(db, uids).0, u) ==> !Allowed(PrefsOf(db, u), e.item)
    decreases |uids|
  {
    var u0, rest := uids[0], uids[1..];
    var d1 := DispatchUser(db, u0).0;
    assert PrefsOf(d1, u) == PrefsOf(db, u) by {
      assert d1.prefs == db.prefs;
    }
    if u == u0 {
      DispatchLeavesOnlyDisallowed(db, u0);
      assert u0 !in rest by {
        forall k | 0 <= k < |rest| ensures rest[k] != u0 {
          assert rest[k] == uids[k + 1];
        }
      }
      DispatchUsersFrame(d1, rest, u);
    } else {
      assert u in rest;
      assert forall i, j :: 0 <= i < j < |rest| ==> rest[i] != rest[j] by {
        forall i, j | 0 <= i < j < |rest| ensures rest[i] != rest[j] {
          assert rest[i] == uids[i + 1] && rest[j] == uids[j + 1];
        }
      }
      DispatchUsersLeavesOnlyDisallowed(d1, rest, u);
    }
  }

  /**
   * With every queued user listed, one dispatch run delivers every item the
   * preferences allow: what stays queued is only what a user has turned off.
   */
  lemma DispatchReachesEveryQueue(db: NotifStore, u: string)
    requires QueueDocsCover(db)
    ensures forall e :: e in QueueOf(DispatchQueued(db).0, u) ==> !Allowed(PrefsOf(db, u), e.item)
  {
    if u in db.queueDocs {
      DispatchUsersLeavesOnlyDisallowed(db, db.queueDocs, u);
    } else {
      DispatchUsersFrame(db, db.queueDocs, u);
    }
  }
}

=== FILE: paged_query.dfy ===
/**
 * Paginated counting of a query's documents, over the two query doubles the
 * rollup's tests use: an immutable query over an array, where `limit` and
 * `startAfter` build new queries and `get` returns a slice, and a stateful
 * query that hands out a fixed list of pages, one per `get`.
 */
module PagedQuery {
  import opened Common

  /** The default page size of the counter. */
  const PageSize: nat := 500

  /** A `limit` of the array query: `Infinity` until `limit(n)` is applied. */
  datatype Limit = Unlimited | AtMost(n: nat)

  datatype Query<T> =
    /** The array query: its documents, the slice start and the limit. */
    | ArrayQuery(data: seq<T>, start: int, limit: Limit)
    /** The page query: its pages and the index of the next `get`. */
    | PageQuery(pages: seq<seq<T>>, index: nat)

  /** `Array.prototype.indexOf`: the first position of `x`, or -1. */
  function IndexOf<T(==)>(s: seq<T>, x: T): (i: int)
    ensures -1 <= i < |s|
    ensures i >= 0 ==> s[i] == x && forall j :: 0 <= j < i ==> s[j] != x
    ensures i == -1 <==> x !in s
  {
    if s == [] then -1
    else if s[0] == x then 0
    else
      var i := IndexOf(s[1..], x);
      if i == -1 then -1 else i + 1
  }

  /** A relative slice index: negative counts from the end; clamped to `[0, len]`. */
  function RelativeIndex(x: int, len: nat): (r: nat)
    ensures r <= len
    ensures 0 <= x <= len ==> r == x
  {
    if x < 0 then (if len + x < 0 then 0 else len + x)
    else if x < len then x else len
  }

  /** `data.slice(begin, end)`, with `None` for an infinite end. */
  function Slice<T>(data: seq<T>, begin: int, end: Option<int>): (r: seq<T>)
    ensures |r| <= |data|
  {
    var from := RelativeIndex(begin, |data|);
    var to := if end.None? then |data| else RelativeIndex(end.value, |data|);
    if from < to then data[from..to] else []
  }

  /** `q.limit(n)`: the array query keeps its start; the page query returns itself. */
  function LimitTo<T>(q: Query<T>, n: nat): Query<T> {
    if q.ArrayQuery? then q.(limit := AtMost(n)) else q
  }

  /** `q.startAfter(doc)`: the array query starts after the first occurrence of `doc`. */
  function StartAfter<T(==)>(q: Query<T>, doc: T): Query<T> {
    if q.ArrayQuery? then q.(start := IndexOf(q.data, doc) + 1) else q
  }

  /** The documents `q.get()` returns; a page query past its last page returns none. */
  function Get<T>(q: Query<T>): seq<T> {
    match q
    case ArrayQuery(data, start, limit) =>
      Slice(data, start, if limit.Unlimited? then None else Some(start + limit.n))
    case PageQuery(pages, index) => if index < |pages| then pages[index] else []
  }

  /** The state of the queried object after a `get`: only the page query moves on. */
  function AfterGet<T>(q: Query<T>): Query<T> {
    if q.PageQuery? then q.(index := q.index + 1) else q
  }

  /** After `limit(n)`, `get` returns at most `n` documents, taken contiguously from the start position. */
  lemma LimitedGetIsContiguous<T>(q: Query<T>, n: nat)
    requires q.ArrayQuery?
    ensures var g := Get(LimitTo(q, n)); var from := RelativeIndex(q.start, |q.data|);
      |g| <= n && from + |g| <= |q.data| && g == q.data[from..from + |g|]
  {
    var len := |q.data|;
    var from := RelativeIndex(q.start, len);
    var to := RelativeIndex(q.start + n, len);
    if from < to {
      assert to - from <= n by {
        if q.start < 0 && q.start + n >= 0 {
          assert from >= len + q.start;
        }
      }
    }
  }

  /** `startAfter(d)` on distinct documents resumes right after `d`, keeping the limit. */
  lemma StartAfterResumes<T>(q: Query<T>, k: nat)
    requires q.ArrayQuery? && Distinct(q.data) && k < |q.data|
    ensures StartAfter(q, q.data[k]) == q.(start := k + 1)
  {
    IndexOfDistinct(q.data, k);
  }

  /** `startAfter(d)` with a `d` that is not among the documents restarts from the first one. */
  lemma StartAfterMissingRestarts<T>(q: Query<T>, doc: T)
    requires q.ArrayQuery? && doc !in q.data
    ensures StartAfter(q, doc) == q.(start := 0)
  {
  }

  /** A page query asked past its last page returns no documents. */
  lemma PastLastPageIsEmpty<T>(q: Query<T>)
    requires q.PageQuery? && q.index >= |q.pages|
    ensures Get(q) == [] && Get(AfterGet(q)) == []
  {
  }

  predicate Distinct<T(==)>(s: seq<T>) {
    forall i, j :: 0 <= i < j < |s| ==> s[i] != s[j]
  }

  function Sum(xs: seq<nat>): nat {
    if xs == [] then 0 else xs[0] + Sum(xs[1..])
  }

  lemma {:induction false} SumAppend(xs: seq<nat>, ys: seq<nat>)
    ensures Sum(xs + ys) == Sum(xs) + Sum(ys)
  {
    if xs != [] {
      assert (xs + ys)[1..] == xs[1..] + ys;
      SumAppend(xs[1..], ys);
    } else {
      assert xs + ys == ys;
    }
  }

  lemma SumSnoc(xs: seq<nat>, x: nat)
    ensures Sum(xs + [x]) == Sum(xs) + x
  {
    SumAppend(xs, [x]);
    assert Sum([x]) == x;
  }

  /** Page sizes of full pages of `p` documents and then one short page. */
  predicate FullThenShort(sizes: seq<nat>, p: nat) {
    && |sizes| >= 1
    && (forall i :: 0 <= i < |sizes| - 1 ==> sizes[i] == p)
    && sizes[|sizes| - 1] < p
  }

  /** Page sizes where only the last page has fewer than `p` documents: where the count stops. */
  predicate StopsAtFirstShort(sizes: seq<nat>, p: nat) {
    && |sizes| >= 1
    && (forall i :: 0 <= i < |sizes| - 1 ==> sizes[i] >= p)
    && sizes[|sizes| - 1] < p
  }

  /**
   * The page sizes of counting `n` documents `p` at a time: full pages, then
   * one short page, which is empty when `p` divides `n`.
   */
  function PageSchedule(n: nat, p: nat): (sizes: seq<nat>)
    requires p >= 1
    ensures FullThenShort(sizes, p) && Sum(sizes) == n
    decreases n
  {
    if n < p then [n]
    else
      var rest := PageSchedule(n - p, p);
      assert ([p] + rest)[1..] == rest;
      [p] + rest
  }

  /** The count of a page query from page `i`: pages up to and including the first short one. */
  function PagesTotal<T>(pages: seq<seq<T>>, i: nat, p: nat): nat
    decreases |pages| - i
  {
    if i >= |pages| then 0
    else if |pages[i]| < p then |pages[i]|
    else |pages[i]| + PagesTotal(pages, i + 1, p)
  }

  /** The position an array query's first page starts at. */
  function FirstPosition<T>(q: Query<T>): nat
    requires q.ArrayQuery?
  {
    RelativeIndex(q.start, |q.data|)
  }

  /** The array query's page at position `pos` is the next `p` documents, or fewer at the end. */
  lemma ArrayPage<T>(q: Query<T>, pos: nat, p: nat)
    requires q.ArrayQuery? && q.start >= 0 && pos <= |q.data|
    requires pos == RelativeIndex(q.start, |q.data|)
    ensures Get(LimitTo(q, p)) == q.data[pos..if pos + p <= |q.data| then pos + p else |q.data|]
  {
    if q.start > |q.data| {
      assert RelativeIndex(q.start + p, |q.data|) == |q.data|;
    }
  }

  /** In distinct documents, the first occurrence of the document at `k` is `k`. */
  lemma IndexOfDistinct<T>(s: seq<T>, k: nat)
    requires Distinct(s) && k < |s|
    ensures IndexOf(s, s[k]) == k
  {
  }

  /** One page fetch: limited to the page size, after the cursor when there is one. */
  function FetchPage<T(==)>(base: Query<T>, cursor: Option<T>, pageSize: nat): seq<T> {
    var limited := LimitTo(base, pageSize);
    Get(if cursor.Some? then StartAfter(limited, cursor.value) else limited)
  }

  /** The end of the page of `p` documents from `pos`. */
  function PageEnd(pos: nat, p: nat, len: nat): nat {
    if pos + p <= len then pos + p else len
  }

  /**
   * On distinct documents the fetch after the document at `pos - 1`, or the
   * first fetch at the query's start, is the page from `pos`.
   */
  lemma ArrayFetch<T>(q: Query<T>, cursor: Option<T>, pos: nat, p: nat)
    requires q.ArrayQuery? && q.start >= 0 && Distinct(q.data) && pos <= |q.data|
    requires cursor.None? ==> pos == FirstPosition(q)
    requires cursor.Some? ==> pos >= 1 && q.data[pos - 1] == cursor.value
    ensures FetchPage(q, cursor, p) == q.data[pos..PageEnd(pos, p, |q.data|)]
  {
    if cursor.Some? {
      IndexOfDistinct(q.data, pos - 1);
      ArrayPage(q.(start := pos), pos, p);
    } else {
      ArrayPage(q, pos, p);
    }
  }

  /** Full pages then one short page are the schedule of their total: the split is unique. */
  lemma {:induction false} ScheduleOfFullThenShort(sizes: seq<nat>, p: nat)
    requires p >= 1 && FullThenShort(sizes, p)
    ensures sizes == PageSchedule(Sum(sizes), p)
  {
    if |sizes| > 1 {
      var rest := sizes[1..];
      assert FullThenShort(rest, p) by {
        assert forall i :: 0 <= i < |rest| - 1 ==> rest[i] == sizes[i + 1];
      }
      ScheduleOfFullThenShort(rest, p);
      assert sizes == [p] + rest;
    } else {
      assert sizes == [sizes[0]];
    }
  }

  lemma LastOfSlice<T>(s: seq<T>, a: nat, b: nat)
    requires a <= b <= |s|
    ensures a < b ==> s[a..b][b - a - 1] == s[b - 1]
  {
  }

  /** The counter's state between page fetches. */
  datatype Counter<T> = Counter(
    base: Query<T>, cursor: Option<T>, total: nat, sizes: seq<nat>, seen: seq<T>, done: bool)

  /**
   * One round of the counter: fetch a page, add its size, and stop on a short
   * page or move the cursor to the page's last document.
   */
  function Step<T(==)>(c: Counter<T>, pageSize: nat): Counter<T>
    requires pageSize >= 1
  {
    Advance(c, FetchPage(c.base, c.cursor, pageSize), pageSize)
  }

  /** The counter after receiving `page`. */
  function Advance<T>(c: Counter<T>, page: seq<T>, pageSize: nat): Counter<T>
    requires pageSize >= 1
  {
    Counter(
      AfterGet(c.base),
      if |page| < pageSize then c.cursor else Some(page[|page| - 1]),
      c.total + |page|, c.sizes + [|page|], c.seen + page, |page| < pageSize)
  }

  /** What the counter knows on the array query: it has seen the documents before position `first + total`. */
  ghost predicate ArrayInvariant<T>(q: Query<T>, pageSize: nat, c: Counter<T>)
    requires q.ArrayQuery?
  {
    var first := FirstPosition(q);
    && c.base == q && first + c.total <= |q.data|
    && Sum(c.sizes) == c.total && c.seen == q.data[first..first + c.total]
    && (c.cursor.None? && !c.done ==> c.total == 0)
    && (c.cursor.Some? && !c.done ==> first + c.total >= 1 && q.data[first + c.total - 1] == c.cursor.value)
    && (!c.done ==> forall i :: 0 <= i < |c.sizes| ==> c.sizes[i] == pageSize)
    && (c.done ==> FullThenShort(c.sizes, pageSize) && first + c.total == |q.data|)
  }

  /** What the counter knows on the page query: it has fetched `|sizes|` pages. */
  ghost predicate PageInvariant<T>(q: Query<T>, pageSize: nat, c: Counter<T>)
    requires q.PageQuery?
  {
    && c.base == q.(index := q.index + |c.sizes|)
    && Sum(c.sizes) == c.total && |c.seen| == c.total
    && (!c.done ==> forall i :: 0 <= i < |c.sizes| ==> c.sizes[i] >= pageSize)
    && (!c.done ==> c.total + PagesTotal(q.pages, c.base.index, pageSize) == PagesTotal(q.pages, q.index, pageSize))
    && (c.done ==> StopsAtFirstShort(c.sizes, pageSize) && c.total == PagesTotal(q.pages, q.index, pageSize))
  }

  ghost predicate Invariant<T>(q: Query<T>, pageSize: nat, c: Counter<T>) {
    if q.ArrayQuery? then ArrayInvariant(q, pageSize, c) else PageInvariant(q, pageSize, c)
  }

  /** Rounds left: the documents after the cursor on the array query, the pages left on the page query. */
  function Remaining<T>(q: Query<T>, c: Counter<T>): nat {
    if c.done then 0
    else if q.ArrayQuery? then 1 + (if FirstPosition(q) + c.total <= |q.data| then |q.data| - FirstPosition(q) - c.total else 0)
    else 1 + (if c.base.PageQuery? && c.base.index <= |q.pages| then |q.pages| - c.base.index else 0)
  }

  /** The array query's next page is the documents from `first + total`, at most `pageSize` of them. */
  lemma ArrayStepPage<T>(q: Query<T>, pageSize: nat, c: Counter<T>)
    requires pageSize >= 1 && q.ArrayQuery? && q.start >= 0 && Distinct(q.data)
    requires ArrayInvariant(q, pageSize, c) && !c.done
    ensures var pos := FirstPosition(q) + c.total;
      FetchPage(c.base, c.cursor, pageSize) == q.data[pos..PageEnd(pos, pageSize, |q.data|)]
  {
    ArrayFetch(q, c.cursor, FirstPosition(q) + c.total, pageSize);
  }

  lemma ArrayStepKeeps<T>(q: Query<T>, pageSize: nat, c: Counter<T>)
    requires pageSize >= 1 && q.ArrayQuery? && q.start >= 0 && Distinct(q.data)
    requires ArrayInvariant(q, pageSize, c) && !c.done
    ensures ArrayInvariant(q, pageSize, Step(c, pageSize))
    ensures Remaining(q, Step(c, pageSize)) < Remaining(q, c)
  {
    var pos := FirstPosition(q) + c.total;
    ArrayStepPage(q, pageSize, c);
    var page := q.data[pos..PageEnd(pos, pageSize, |q.data|)];
    ArrayAdvanceKeeps(q, pageSize, c, page);
    ArrayAdvanceDecreases(q, pageSize, c, page);
  }

  /** Receiving the page from `first + total` keeps the invariant and moves the position forward. */
  lemma ArrayAdvanceKeeps<T>(q: Query<T>, pageSize: nat, c: Counter<T>, page: seq<T>)
    requires pageSize >= 1 && q.ArrayQuery?
    requires ArrayInvariant(q, pageSize, c) && !c.done
    requires var pos := FirstPosition(q) + c.total;
      page == q.data[pos..PageEnd(pos, pageSize, |q.data|)]
    ensures ArrayInvariant(q, pageSize, Advance(c, page, pageSize))
  {
    var first := FirstPosition(q);
    var pos := first + c.total;
    var end := PageEnd(pos, pageSize, |q.data|);
    SumSnoc(c.sizes, |page|);
    AdvanceSeen(q.data, first, pos, end, c.seen, page);
    if |page| < pageSize {
      ArrayShortPageKeeps(q, pageSize, c, page);
    } else {
      LastOfSlice(q.data, pos, end);
      ArrayFullPageKeeps(q, pageSize, c, page);
    }
  }

  /** A short page ends the count at the end of the documents. */
  lemma ArrayShortPageKeeps<T>(q: Query<T>, pageSize: nat, c: Counter<T>, page: seq<T>)
    requires pageSize >= 1 && q.ArrayQuery? && |page| < pageSize
    requires ArrayInvariant(q, pageSize, c) && !c.done
    requires FirstPosition(q) + c.total + |page| == |q.data|
    requires Sum(c.sizes + [|page|]) == c.total + |page|
    requires c.seen + page == q.data[FirstPosition(q)..FirstPosition(q) + c.total + |page|]
    ensures ArrayInvariant(q, pageSize, Advance(c, page, pageSize))
  {
    AdvanceShort(c.sizes, |page|, pageSize);
  }

  /** A full page moves the cursor to its last document. */
  lemma ArrayFullPageKeeps<T>(q: Query<T>, pageSize: nat, c: Counter<T>, page: seq<T>)
    requires pageSize >= 1 && q.ArrayQuery? && |page| == pageSize
    requires ArrayInvariant(q, pageSize, c) && !c.done
    requires FirstPosition(q) + c.total + |page| <= |q.data|
    requires page[|page| - 1] == q.data[FirstPosition(q) + c.total + |page| - 1]
    requires Sum(c.sizes + [|page|]) == c.total + |page|
    requires c.seen + page == q.data[FirstPosition(q)..FirstPosition(q) + c.total + |page|]
    ensures ArrayInvariant(q, pageSize, Advance(c, page, pageSize))
  {
    AdvanceFull(c.sizes, pageSize);
  }

  /** Receiving a page ends the count or moves the position forward by a full page. */
  lemma ArrayAdvanceDecreases<T>(q: Query<T>, pageSize: nat, c: Counter<T>, page: seq<T>)
    requires pageSize >= 1 && q.ArrayQuery? && !c.done
    requires FirstPosition(q) + c.total + |page| <= |q.data|
    ensures Remaining(q, Advance(c, page, pageSize)) < Remaining(q, c)
  {
  }

  /** The documents seen so far, followed by the page from their end, are the documents up to the page's end. */
  lemma AdvanceSeen<T>(data: seq<T>, first: nat, pos: nat, end: nat, seen: seq<T>, page: seq<T>)
    requires first <= pos <= end <= |data|
    requires seen == data[first..pos] && page == data[pos..end]
    ensures seen + page == data[first..first + |seen| + |page|]
  {
    assert data[first..end] == data[first..pos] + data[pos..end];
  }

  /** A short page after full pages ends the count with full pages then one short page. */
  lemma AdvanceShort(sizes: seq<nat>, last: nat, pageSize: nat)
    requires forall i :: 0 <= i < |sizes| ==> sizes[i] == pageSize
    requires last < pageSize
    ensures FullThenShort(sizes + [last], pageSize)
  {
    assert forall i :: 0 <= i < |sizes| ==> (sizes + [last])[i] == sizes[i];
  }

  /** A full page after full pages leaves only full pages. */
  lemma AdvanceFull(sizes: seq<nat>, pageSize: nat)
    requires forall i :: 0 <= i < |sizes| ==> sizes[i] == pageSize
    ensures forall i :: 0 <= i < |sizes| + 1 ==> (sizes + [pageSize])[i] == pageSize
  {
    assert forall i :: 0 <= i < |sizes| ==> (sizes + [pageSize])[i] == sizes[i];
  }

  lemma PageStepKeeps<T>(q: Query<T>, pageSize: nat, c: Counter<T>)
    requires pageSize >= 1 && q.PageQuery?
    requires PageInvariant(q, pageSize, c) && !c.done
    ensures PageInvariant(q, pageSize, Step(c, pageSize))
    ensures Remaining(q, Step(c, pageSize)) < Remaining(q, c)
  {
    var page := FetchPage(c.base, c.cursor, pageSize);
    SumSnoc(c.sizes, |page|);
  }

  /**
   * `countPaged(q, pageSize)`: fetches pages of `pageSize` documents, each
   * starting after the last document of the previous page, until a page is
   * short, and returns the total with the page sizes and the documents seen.
   *
   * Every page but the last has at least `pageSize` documents. On the array
   * query every document from the start on is counted once, in order, in full
   * pages followed by one short page; on the page query the count is that of
   * the pages up to and including the first short one.
   */
  method CountPaged<T(==)>(q: Query<T>, pageSize: nat) returns (total: nat, sizes: seq<nat>, seen: seq<T>)
    requires pageSize >= 1
    requires q.ArrayQuery? ==> q.start >= 0 && Distinct(q.data)
    ensures Sum(sizes) == total && |seen| == total
    ensures StopsAtFirstShort(sizes, pageSize)
    ensures q.ArrayQuery? ==> seen == q.data[FirstPosition(q)..]
    ensures q.ArrayQuery? ==> total == |Get(q.(limit := Unlimited))|
    ensures q.ArrayQuery? ==> sizes == PageSchedule(total, pageSize)
    ensures q.PageQuery? ==> total == PagesTotal(q.pages, q.index, pageSize)
  {
    var c := Counter(q, None, 0, [], [], false);
    while !c.done
      invariant Invariant(q, pageSize, c)
      decreases Remaining(q, c)
    {
      if q.ArrayQuery? {
        ArrayStepKeeps(q, pageSize, c);
      } else {
        PageStepKeeps(q, pageSize, c);
      }
      c := Step(c, pageSize);
    }
    total, sizes, seen := c.total, c.sizes, c.seen;
    if q.ArrayQuery? {
      ScheduleOfFullThenShort(sizes, pageSize);
      assert q.data[FirstPosition(q)..] == q.data[FirstPosition(q)..FirstPosition(q) + total];
    }
  }

  /** The number of documents on the pages from `i` on. */
  function PageSizesFrom<T>(pages: seq<seq<T>>, i: nat): nat
    decreases |pages| - i
  {
    if i >= |pages| then 0 else |pages[i]| + PageSizesFrom(pages, i + 1)
  }

  /**
   * When no page from `i` on is short, the count runs to the empty fetch past
   * the last page and counts every page.
   */
  lemma {:induction false} NoShortPageCountsAll<T>(pages: seq<seq<T>>, i: nat, p: nat)
    requires forall k :: i <= k < |pages| ==> |pages[k]| >= p
    ensures PagesTotal(pages, i, p) == PageSizesFrom(pages, i)
    decreases |pages| - i
  {
    if i < |pages| {
      NoShortPageCountsAll(pages, i + 1, p);
    }
  }

  /** 1200 documents in pages of 500 are fetched as pages of 500, 500 and 200. */
  lemma TwelveHundredInPagesOf500()
    ensures PageSchedule(1200, 500) == [500, 500, 200]
  {
    assert PageSchedule(200, 500) == [200];
    assert PageSchedule(700, 500) == [500, 200];
  }

  /** `countPaged` over 1200 distinct documents with pages of 500 counts all 1200. */
  method CountTwelveHundred() returns (total: nat, sizes: seq<nat>)
    ensures total == 1200 && sizes == [500, 500, 200]
  {
    var docs := seq(1200, i => i);
    var seen;
    total, sizes, seen := CountPaged(ArrayQuery(docs, 0, Unlimited), 500);
    TwelveHundredInPagesOf500();
  }

  /** `paginatedCount` over a full page and a page of five counts `PageSize + 5`. */
  method CountFullPageThenFive() returns (total: nat)
    ensures total == PageSize + 5
  {
    var pages := [seq(PageSize, _ => 0), seq(5, _ => 0)];
    var sizes, seen;
    total, sizes, seen := CountPaged(PageQuery(pages, 0), PageSize);
  }
}

=== FILE: safety_rules.dfy ===
/**
 * The content-safety classifier `checkSafetyRules`: an ordered, short-circuiting
 * validator over a post payload. The checks run in the order empty content,
 * length, forbidden words, media URLs; the first failing check names the reason.
 */
module SafetyRules {
  import opened Common
  import opened JsonValue
  import opened Text

  const MaxContentLength: nat := 5000
  const ForbiddenWords: seq<string> := ["spam", "scam", "fake"]
  const SecureScheme: string := "https://"

  /** The four rejection reasons. */
  datatype Reason = EmptyContent | TooLong | ForbiddenContent | InsecureMediaUrl

  /** The reason code string each rejection reports. */
  function Code(reason: Reason): string {
    match reason
    case EmptyContent => "empty-content"
    case TooLong => "too-long"
    case ForbiddenContent => "forbidden-content"
    case InsecureMediaUrl => "insecure-media-url"
  }

  /** The `SafetyResult` interface: a verdict and, on rejection, a reason. */
  datatype SafetyResult = SafetyResult(ok: bool, reason: Option<Reason>)

  /** A call either returns a result or throws (a non-string `content` has no `trim`). */
  datatype Outcome = Returned(result: SafetyResult) | Threw

  /**
   * `data?.content || ''` when it is a string: falsy contents read as the empty
   * string; `None` when the value is truthy but not a string, so `trim` throws.
   */
  function RawContent(data: Option<Json>): (r: Option<string>)
    ensures r.None? <==> Truthy(OptMember(data, "content")) && !OptMember(data, "content").value.Str?
    ensures r.Some? && r.value != "" ==> OptMember(data, "content") == Some(Str(r.value))
  {
    var c := OptMember(data, "content");
    if !Truthy(c) then Some("")
    else if c.value.Str? then Some(c.value.s)
    else None
  }

  /** `words.some((w) => lower.includes(w))`. */
  function SomeIncluded(lower: string, words: seq<string>): (r: bool)
    ensures r <==> exists k :: 0 <= k < |words| && Contains(lower, words[k])
  {
    if words == [] then false
    else Contains(lower, words[0]) || SomeIncluded(lower, words[1..])
  }

  predicate IsSecureUrl(url: Json) {
    url.Str? && StartsWith(url.s, SecureScheme)
  }

  /** The media loop: true when every element is a string starting with the secure scheme. */
  function AllSecure(media: seq<Json>): (r: bool)
    ensures r <==> forall k :: 0 <= k < |media| ==> IsSecureUrl(media[k])
  {
    if media == [] then true
    else IsSecureUrl(media[0]) && AllSecure(media[1..])
  }

  // Each check stated on its own, independently of the evaluation order.

  predicate IsBlank(raw: string) {
    AllSpace(raw)
  }

  predicate IsTooLong(raw: string) {
    |Trim(raw)| > MaxContentLength
  }

  ghost predicate HasForbiddenWord(raw: string) {
    exists k, i :: 0 <= k < |ForbiddenWords| && OccursAt(ToLower(Trim(raw)), ForbiddenWords[k], i)
  }

  /** `media` is an array with an element that is not a secure URL; a non-array is ignored. */
  ghost predicate HasInsecureMedia(data: Option<Json>) {
    var m := OptMember(data, "media");
    m.Some? && m.value.Arr? && exists k :: 0 <= k < |m.value.items| && !IsSecureUrl(m.value.items[k])
  }

  function Reject(reason: Reason): Outcome {
    Returned(SafetyResult(false, Some(reason)))
  }

  /**
   * `checkSafetyRules(data)`. A rejection always carries a reason and an
   * acceptance none; each reason is returned exactly when its check fails and
   * every earlier one passes.
   */
  function CheckSafetyRules(data: Option<Json>): (r: Outcome)
    ensures r.Threw? <==> RawContent(data).None?
    ensures r.Returned? ==> (r.result.ok <==> r.result.reason.None?)
    ensures RawContent(data).Some? ==>
      var raw := RawContent(data).value;
      && (r == Reject(EmptyContent) <==> IsBlank(raw))
      && (r == Reject(TooLong) <==> !IsBlank(raw) && IsTooLong(raw))
      && (r == Reject(ForbiddenContent) <==> !IsBlank(raw) && !IsTooLong(raw) && HasForbiddenWord(raw))
      && (r == Reject(InsecureMediaUrl) <==>
            !IsBlank(raw) && !IsTooLong(raw) && !HasForbiddenWord(raw) && HasInsecureMedia(data))
      && (r.result.ok <==>
            !IsBlank(raw) && !IsTooLong(raw) && !HasForbiddenWord(raw) && !HasInsecureMedia(data))
  {
    match RawContent(data)
    case None => Threw
    case Some(raw) =>
      var content := Trim(raw);
      TrimEmptyIff(raw);
      if content == [] then Reject(EmptyContent)
      else if |content| > MaxContentLength then Reject(TooLong)
      else
        var lower := ToLower(content);
        if SomeIncluded(lower, ForbiddenWords) then Reject(ForbiddenContent)
        else
          var media := OptMember(data, "media");
          if media.Some? && media.value.Arr? && !AllSecure(media.value.items) then Reject(InsecureMediaUrl)
          else Returned(SafetyResult(true, None))
  }

  /** A payload with no `content` is rejected as empty, whatever its media. */
  lemma MissingContentIsEmpty(data: Option<Json>)
    requires OptMember(data, "content").None?
    ensures CheckSafetyRules(data) == Reject(EmptyContent)
  {
    assert RawContent(data) == Some("");
  }

  /** The length check runs before the forbidden-word check. */
  lemma TooLongBeforeForbidden(raw: string)
    requires |Trim(raw)| > MaxContentLength
    ensures CheckSafetyRules(Some(Obj([("content", Str(raw))]))) == Reject(TooLong)
  {
    var data := Some(Obj([("content", Str(raw))]));
    assert OptMember(data, "content") == Some(Str(raw));
    assert raw != [];
    assert RawContent(data) == Some(raw);
    assert !IsBlank(raw) by { TrimEmptyIff(raw); }
  }

  /** Exactly the maximum length passes the length check. */
  lemma MaxLengthPassesLengthCheck(raw: string)
    requires |Trim(raw)| == MaxContentLength
    ensures CheckSafetyRules(Some(Obj([("content", Str(raw))]))) != Reject(TooLong)
  {
    var data := Some(Obj([("content", Str(raw))]));
    assert OptMember(data, "content") == Some(Str(raw));
    assert raw != [];
    assert RawContent(data) == Some(raw);
    TrimEmptyIff(raw);
  }

  /**
   * A content string holding any forbidden word, in any letter case, within
   * the length limit, is rejected as forbidden content.
   */
  lemma ForbiddenWordRejected(data: Option<Json>, raw: string, k: int, i: int)
    requires RawContent(data) == Some(raw)
    requires 0 <= k < |ForbiddenWords| && OccursAt(ToLower(raw), ForbiddenWords[k], i)
    requires |Trim(raw)| <= MaxContentLength
    ensures CheckSafetyRules(data) == Reject(ForbiddenContent)
  {
    ForbiddenWordFound(raw, k, i);
    RejectedWhenForbidden(data, raw);
  }

  lemma ForbiddenWordFound(raw: string, k: int, i: int)
    requires 0 <= k < |ForbiddenWords| && OccursAt(ToLower(raw), ForbiddenWords[k], i)
    ensures !IsBlank(raw) && HasForbiddenWord(raw)
  {
    var w := ForbiddenWords[k];
    assert k == 0 || k == 1 || k == 2;
    assert w != [] && !IsSpace(w[0]) && !IsSpace(w[|w| - 1]);
    var j := LoweredWordSurvivesTrim(raw, w, i);
    assert HasForbiddenWord(raw);
    assert !IsBlank(raw) by {
      assert ToLower(raw)[i] == LowerChar(raw[i]);
    }
  }

  lemma RejectedWhenForbidden(data: Option<Json>, raw: string)
    requires RawContent(data) == Some(raw)
    requires !IsBlank(raw) && !IsTooLong(raw) && HasForbiddenWord(raw)
    ensures CheckSafetyRules(data) == Reject(ForbiddenContent)
  {
  }

  /** A lower-cased word with non-space ends, found in the lowered text, is in the lowered trimmed text. */
  lemma LoweredWordSurvivesTrim(raw: string, w: string, i: int) returns (j: int)
    requires OccursAt(ToLower(raw), w, i) && w != []
    requires !IsSpace(w[0]) && !IsSpace(w[|w| - 1])
    ensures OccursAt(ToLower(Trim(raw)), w, j)
  {
    var l := ToLower(raw);
    assert !IsSpace(raw[i]) by { assert l[i] == LowerChar(raw[i]); }
    assert !IsSpace(raw[i + |w| - 1]) by { assert l[i + |w| - 1] == LowerChar(raw[i + |w| - 1]); }
    var t := Trim(raw);
    var a :| IsTrimmedSlice(raw, t, a);
    j := LoweredSliceKeepsWord(raw, w, i, t, a);
  }

  lemma LoweredSliceKeepsWord(raw: string, w: string, i: int, t: string, a: int) returns (j: int)
    requires OccursAt(ToLower(raw), w, i) && w != []
    requires !IsSpace(raw[i]) && !IsSpace(raw[i + |w| - 1])
    requires IsTrimmedSlice(raw, t, a)
    ensures OccursAt(ToLower(t), w, j)
  {
    assert a <= i by { SpaceBound(raw[..a], i); }
    assert i + |w| <= a + |t| by { SpaceBound(raw[a + |t|..], i + |w| - 1 - a - |t|); }
    j := i - a;
    var l := ToLower(raw);
    var lt := ToLower(t);
    forall m | 0 <= m < |w| ensures lt[j + m] == w[m] {
      assert t[j + m] == raw[i + m];
      assert l[i..i + |w|][m] == w[m];
    }
    assert lt[j..j + |w|] == w;
  }

  /** The forbidden-word case of the tests: `this is spam`. */
  lemma RejectsForbiddenWords()
    ensures CheckSafetyRules(Some(Obj([("content", Str("this is spam"))]))) == Reject(ForbiddenContent)
  {
    var data := Some(Obj([("content", Str("this is spam"))]));
    assert OptMember(data, "content") == Some(Str("this is spam"));
    assert RawContent(data) == Some("this is spam");
    SpamOccurs();
    TrimLength("this is spam");
    ForbiddenWordRejected(data, "this is spam", 0, 8);
  }

  lemma SpamOccurs()
    ensures OccursAt(ToLower("this is spam"), ForbiddenWords[0], 8)
  {
    assert OccursAt("this is spam", "spam", 8) by {
      assert "this is spam"[8..12] == "spam";
    }
    assert ToLower("spam") == "spam";
    LowerKeepsLowerWord("this is spam", "spam", 8);
  }

  lemma TrimLength(s: string)
    ensures |Trim(s)| <= |s|
  {
    var a :| IsTrimmedSlice(s, Trim(s), a);
  }

  /** A position holding a non-space character lies outside an all-space string. */
  lemma SpaceBound(s: string, i: int)
    requires AllSpace(s)
    ensures !(0 <= i < |s|) || IsSpace(s[i])
  {
  }

  /** A word without upper-case letters survives lower-casing. */
  lemma LowerKeepsLowerWord(t: string, w: string, j: int)
    requires OccursAt(t, w, j)
    requires ToLower(w) == w
    ensures OccursAt(ToLower(t), w, j)
  {
    var l := ToLower(t);
    forall k | 0 <= k < |w| ensures l[j..j + |w|][k] == w[k] {
      assert t[j + k] == w[k];
      assert ToLower(w)[k] == LowerChar(w[k]);
    }
  }

  /** A text lacking some letter of a word does not include that word. */
  lemma MissingLetterExcludes(s: string, w: string, k: int)
    requires 0 <= k < |w| && w[k] !in s
    ensures !Contains(s, w)
  {
    forall i | 0 <= i && i + |w| <= |s| ensures !OccursAt(s, w, i) {
      assert s[i + k] in s;
    }
  }

  /** Trimming and lower-casing leave a clean lower-case text as it is. */
  lemma CleanTextUnchanged(s: string)
    requires s != [] && !IsSpace(s[0]) && !IsSpace(s[|s| - 1])
    requires forall i :: 0 <= i < |s| ==> !('A' <= s[i] <= 'Z')
    ensures Trim(s) == s
    ensures ToLower(s) == s
  {
    assert TrimStart(s) == s;
    assert TrimEnd(s) == s;
  }

  /** A clean payload: no throw, and every check passes. */
  lemma AcceptedWhenClean(data: Option<Json>, raw: string)
    requires RawContent(data) == Some(raw)
    requires !IsBlank(raw) && !IsTooLong(raw) && !HasForbiddenWord(raw) && !HasInsecureMedia(data)
    ensures CheckSafetyRules(data) == Returned(SafetyResult(true, None))
  {
  }

  /** A short, clean lower-case text none of whose forbidden words can fit. */
  lemma CleanTextPasses(raw: string, k0: int, k1: int, k2: int)
    requires raw != [] && !IsSpace(raw[0]) && !IsSpace(raw[|raw| - 1]) && |raw| <= MaxContentLength
    requires forall i :: 0 <= i < |raw| ==> !('A' <= raw[i] <= 'Z')
    requires 0 <= k0 < 4 && ForbiddenWords[0][k0] !in raw
    requires 0 <= k1 < 4 && ForbiddenWords[1][k1] !in raw
    requires 0 <= k2 < 4 && ForbiddenWords[2][k2] !in raw
    ensures !IsBlank(raw) && !IsTooLong(raw) && !HasForbiddenWord(raw)
  {
    CleanTextUnchanged(raw);
    TrimEmptyIff(raw);
    MissingLetterExcludes(raw, ForbiddenWords[0], k0);
    MissingLetterExcludes(raw, ForbiddenWords[1], k1);
    MissingLetterExcludes(raw, ForbiddenWords[2], k2);
    forall k, i | 0 <= k < |ForbiddenWords| ensures !OccursAt(ToLower(Trim(raw)), ForbiddenWords[k], i) {
      assert k == 0 || k == 1 || k == 2;
    }
  }

  // The cases of functions/test/safetyRules.test.ts.

  lemma AcceptsValidContent()
    ensures CheckSafetyRules(Some(Obj([("content", Str("hello world")), ("media", Arr([Str("https://a")]))])))
      == Returned(SafetyResult(true, None))
  {
    var data := Some(Obj([("content", Str("hello world")), ("media", Arr([Str("https://a")]))]));
    PayloadFields(data, "hello world", Arr([Str("https://a")]));
    HelloWorldClean();
    SingleMedia(data, "https://a");
    assert StartsWith("https://a", SecureScheme);
    AcceptedWhenClean(data, "hello world");
  }

  lemma HelloWorldClean()
    ensures !IsBlank("hello world") && !IsTooLong("hello world") && !HasForbiddenWord("hello world")
  {
    CleanTextPasses("hello world", 0, 0, 2);
  }

  lemma RejectsInsecureMedia()
    ensures CheckSafetyRules(Some(Obj([("content", Str("ok")), ("media", Arr([Str("http://a")]))])))
      == Reject(InsecureMediaUrl)
  {
    var data := Some(Obj([("content", Str("ok")), ("media", Arr([Str("http://a")]))]));
    PayloadFields(data, "ok", Arr([Str("http://a")]));
    OkClean();
    SingleMedia(data, "http://a");
    assert !StartsWith("http://a", SecureScheme) by {
      assert "http://a"[..8] != SecureScheme by { assert "http://a"[4] != SecureScheme[4]; }
    }
  }

  lemma OkClean()
    ensures !IsBlank("ok") && !IsTooLong("ok") && !HasForbiddenWord("ok")
  {
    CleanTextPasses("ok", 0, 0, 0);
  }

  /** `hateword1` contains none of the forbidden words, so these rules accept it. */
  lemma HatewordIsAccepted()
    ensures CheckSafetyRules(Some(Obj([("content", Str("hateword1")), ("media", Arr([Str("https://x")]))])))
      == Returned(SafetyResult(true, None))
  {
    var data := Some(Obj([("content", Str("hateword1")), ("media", Arr([Str("https://x")]))]));
    PayloadFields(data, "hateword1", Arr([Str("https://x")]));
    HatewordClean();
    SingleMedia(data, "https://x");
    assert StartsWith("https://x", SecureScheme);
    AcceptedWhenClean(data, "hateword1");
  }

  lemma HatewordClean()
    ensures !IsBlank("hateword1") && !IsTooLong("hateword1") && !HasForbiddenWord("hateword1")
  {
    CleanTextPasses("hateword1", 0, 0, 0);
  }

  /** The two fields of a test payload: a non-empty `content` string and `media`. */
  lemma PayloadFields(data: Option<Json>, raw: string, media: Json)
    requires data == Some(Obj([("content", Str(raw)), ("media", media)])) && raw != []
    ensures RawContent(data) == Some(raw)
    ensures OptMember(data, "media") == Some(media)
  {
    var ms := [("content", Str(raw)), ("media", media)];
    assert "media" != "content" by { assert "media"[0] != "content"[0]; }
    assert ms[..1] == [("content", Str(raw))];
    assert Lookup(ms, "content") == Some(Str(raw));
  }

  /** A one-element media array is insecure exactly when its URL lacks the secure scheme. */
  lemma SingleMedia(data: Option<Json>, url: string)
    requires OptMember(data, "media") == Some(Arr([Str(url)]))
    ensures HasInsecureMedia(data) <==> !StartsWith(url, SecureScheme)
  {
    assert Arr([Str(url)]).items[0] == Str(url);
  }
}

=== FILE: schedule_posts.dfy ===
/**
 * Scheduled posts. The deployed `schedulePosts` sweep deletes every due item
 * of every listed user and publishes nothing. The publisher its tests
 * describe, `publishDueScheduledPosts`, classifies each due item, publishes it
 * as a post or quarantines it under its id, and removes it either way; the
 * scheduled entry point runs it only when the feature flag is on.
 */
module SchedulePosts {
  import opened Common
  import opened JsonValue

  /** A scheduled item: its document id, `publishAt` in milliseconds if set, and `payload`. */
  datatype Item = Item(id: string, publishAt: Option<int>, payload: Option<Json>)

  /** The classifier's verdict on a payload. */
  datatype Verdict = Accepted | Rejected(reason: string)

  datatype Post = Post(payload: Option<Json>, authorId: string, createdAt: int)

  datatype ModerationEntry = ModerationEntry(payload: Option<Json>, reason: string, createdBy: string, createdAt: int)

  /**
   * The listed user ids, each user's `scheduled` sub-collection, the posts
   * collection and the `moderation/scheduled` collection keyed by item id.
   */
  datatype Store = Store(
    users: seq<string>,
    scheduled: map<string, seq<Item>>,
    posts: seq<Post>,
    moderation: map<string, ModerationEntry>)

  /** `where('publishAt', '<=', now)`: an item without `publishAt` never matches. */
  predicate IsDue(i: Item, now: int) {
    i.publishAt.Some? && i.publishAt.value <= now
  }

  /** The items a sweep at `now` leaves in place, in order. */
  function KeepNotDue(items: seq<Item>, now: int): (r: seq<Item>)
    ensures forall x :: x in r <==> x in items && !IsDue(x, now)
    ensures |r| <= |items|
  {
    if items == [] then []
    else if IsDue(items[0], now) then KeepNotDue(items[1..], now)
    else [items[0]] + KeepNotDue(items[1..], now)
  }

  /** The items a sweep at `now` removes, in order. */
  function DueItems(items: seq<Item>, now: int): (r: seq<Item>)
    ensures forall x :: x in r <==> x in items && IsDue(x, now)
  {
    if items == [] then []
    else if IsDue(items[0], now) then [items[0]] + DueItems(items[1..], now)
    else DueItems(items[1..], now)
  }

  /** A sweep splits the items: each one is either removed or kept, exactly once. */
  lemma {:induction false} SweepPartitions(items: seq<Item>, now: int)
    ensures multiset(DueItems(items, now)) + multiset(KeepNotDue(items, now)) == multiset(items)
  {
    if items != [] {
      var h, t := items[0], items[1..];
      SweepPartitions(t, now);
      assert items == [h] + t;
      if IsDue(h, now) {
        assert DueItems(items, now) == [h] + DueItems(t, now);
        assert KeepNotDue(items, now) == KeepNotDue(t, now);
      } else {
        assert DueItems(items, now) == DueItems(t, now);
        assert KeepNotDue(items, now) == [h] + KeepNotDue(t, now);
      }
    }
  }

  /** Items with nothing due are left exactly as they are. */
  lemma {:induction false} NothingDueKeepsAll(items: seq<Item>, now: int)
    requires forall k :: 0 <= k < |items| ==> !IsDue(items[k], now)
    ensures KeepNotDue(items, now) == items
  {
    if items != [] {
      NothingDueKeepsAll(items[1..], now);
    }
  }

  /** Sweeping twice at the same `now` removes nothing more. */
  lemma KeepNotDueIdempotent(items: seq<Item>, now: int)
    ensures KeepNotDue(KeepNotDue(items, now), now) == KeepNotDue(items, now)
  {
    var r := KeepNotDue(items, now);
    assert forall k :: 0 <= k < |r| ==> r[k] in r;
    NothingDueKeepsAll(r, now);
  }

  /** A user's scheduled items; a user without the sub-collection has none. */
  function ItemsOf(db: Store, u: string): seq<Item> {
    if u in db.scheduled then db.scheduled[u] else []
  }

  // The deployed sweep.

  /**
   * `schedulePosts` as deployed: every listed user's due items are deleted,
   * with one `now` for the whole run; posts, moderation and the items of
   * users not listed are untouched.
   */
  function SchedulePosts(db: Store, now: int): (r: Store)
    ensures r.users == db.users && r.posts == db.posts && r.moderation == db.moderation
    ensures r.scheduled.Keys == db.scheduled.Keys
    ensures forall u :: u in db.scheduled && u in db.users ==> r.scheduled[u] == KeepNotDue(db.scheduled[u], now)
    ensures forall u :: u in db.scheduled && u !in db.users ==> r.scheduled[u] == db.scheduled[u]
  {
    db.(scheduled := map u | u in db.scheduled :: if u in db.users then KeepNotDue(db.scheduled[u], now) else db.scheduled[u])
  }

  /** A second sweep at the same `now` deletes nothing further. */
  lemma SweepTwiceSameNow(db: Store, now: int)
    ensures SchedulePosts(SchedulePosts(db, now), now) == SchedulePosts(db, now)
  {
    var r := SchedulePosts(db, now);
    forall u | u in db.scheduled && u in db.users {
      KeepNotDueIdempotent(db.scheduled[u], now);
    }
    assert SchedulePosts(r, now).scheduled == r.scheduled;
  }

  /** The deployed sweep reads no flag: a listed user's due item is deleted on every run. */
  lemma SweepDeletesDueItem(db: Store, now: int, u: string, k: nat)
    requires u in db.users && u in db.scheduled
    requires k < |db.scheduled[u]| && IsDue(db.scheduled[u][k], now)
    ensures db.scheduled[u][k] !in SchedulePosts(db, now).scheduled[u]
    ensures |SchedulePosts(db, now).scheduled[u]| < |db.scheduled[u]|
  {
    var items := db.scheduled[u];
    SweepPartitions(items, now);
    assert items[k] in DueItems(items, now);
    assert |multiset(DueItems(items, now)) + multiset(KeepNotDue(items, now))| == |items|;
  }

  /**
   * The flag-off scenario's store: user `user1` with one due item `sched1`.
   * The deployed sweep still deletes it.
   */
  lemma FlagOffScenarioStillDeletes(db: Store, now: int)
    requires db == Store(["user1"], map["user1" := [Item("sched1", Some(now), None)]], [], map[])
    ensures SchedulePosts(db, now).scheduled["user1"] == []
  {
  }

  // The publisher that functions/test/schedulePosts.test.ts exercises.

  predicate Publishes(i: Item, now: int, classify: Option<Json> -> Verdict) {
    IsDue(i, now) && classify(i.payload).Accepted?
  }

  predicate Quarantines(i: Item, now: int, classify: Option<Json> -> Verdict) {
    IsDue(i, now) && classify(i.payload).Rejected?
  }

  /** The number of items a run at `now` publishes. */
  function CountPublished(items: seq<Item>, now: int, classify: Option<Json> -> Verdict): (n: nat)
    ensures n <= |items|
  {
    if items == [] then 0
    else (if Publishes(items[0], now, classify) then 1 else 0) + CountPublished(items[1..], now, classify)
  }

  /** The items a run at `now` publishes, in order. */
  function AcceptedDue(items: seq<Item>, now: int, classify: Option<Json> -> Verdict): (r: seq<Item>)
    ensures forall x :: x in r <==> x in items && Publishes(x, now, classify)
    ensures |r| == CountPublished(items, now, classify)
  {
    if items == [] then []
    else if Publishes(items[0], now, classify) then [items[0]] + AcceptedDue(items[1..], now, classify)
    else AcceptedDue(items[1..], now, classify)
  }

  /** The posts by `uid` at `now` carrying the payloads of `items`, one each, in order. */
  function PostsOf(items: seq<Item>, uid: string, now: int): (r: seq<Post>)
    ensures |r| == |items|
  {
    seq(|items|, k requires 0 <= k < |items| => Post(items[k].payload, uid, now))
  }

  lemma PostsOfCons(i: Item, items: seq<Item>, uid: string, now: int)
    ensures PostsOf([i] + items, uid, now) == [Post(i.payload, uid, now)] + PostsOf(items, uid, now)
  {
    var l, r := PostsOf([i] + items, uid, now), [Post(i.payload, uid, now)] + PostsOf(items, uid, now);
    forall k | 0 <= k < |l| ensures l[k] == r[k] {
      if k > 0 { assert ([i] + items)[k] == items[k - 1]; }
    }
  }

  /** The ids of the items a run at `now` quarantines. */
  function QuarantinedIds(items: seq<Item>, now: int, classify: Option<Json> -> Verdict): set<string> {
    set k | 0 <= k < |items| && Quarantines(items[k], now, classify) :: items[k].id
  }

  /** Entry `e` under `id` records the rejection of item `i`. */
  predicate IsEntryOf(i: Item, id: string, e: ModerationEntry, now: int, classify: Option<Json> -> Verdict) {
    i.id == id && Quarantines(i, now, classify) && classify(i.payload) == Rejected(e.reason) && i.payload == e.payload
  }

  /** Entry `e` under `id` records the rejection of one of the items. */
  predicate EntryOfItem(items: seq<Item>, id: string, e: ModerationEntry, now: int, classify: Option<Json> -> Verdict) {
    exists k :: 0 <= k < |items| && IsEntryOf(items[k], id, e, now, classify)
  }

  /** The writes of one run: the posts and the moderation entries. */
  datatype Outbox = Outbox(posts: seq<Post>, moderation: map<string, ModerationEntry>)

  /**
   * One user's due items in order: an accepted payload becomes a post by the
   * user at `now`; a rejected one becomes the moderation entry under the
   * item's id with the reason, the user as `createdBy` and `now`.
   */
  function PublishItems(out: Outbox, uid: string, items: seq<Item>, now: int, classify: Option<Json> -> Verdict): (r: Outbox)
    ensures |r.posts| == |out.posts| + CountPublished(items, now, classify)
    ensures r.posts[..|out.posts|] == out.posts
    ensures forall k :: |out.posts| <= k < |r.posts| ==> r.posts[k].authorId == uid && r.posts[k].createdAt == now
    ensures r.posts == out.posts + PostsOf(AcceptedDue(items, now, classify), uid, now)
    ensures r.moderation.Keys == out.moderation.Keys + QuarantinedIds(items, now, classify)
    ensures forall id :: id in out.moderation && id !in QuarantinedIds(items, now, classify) ==>
      r.moderation[id] == out.moderation[id]
    ensures forall id :: id in QuarantinedIds(items, now, classify) ==>
      r.moderation[id].createdBy == uid && r.moderation[id].createdAt == now
      && EntryOfItem(items, id, r.moderation[id], now, classify)
    decreases |items|
  {
    if items == [] then
      assert QuarantinedIds(items, now, classify) == {};
      out
    else
      var i := items[0];
      var next :=
        if !IsDue(i, now) then out
        else match classify(i.payload)
          case Accepted => out.(posts := out.posts + [Post(i.payload, uid, now)])
          case Rejected(reason) => out.(moderation := out.moderation[i.id := ModerationEntry(i.payload, reason, uid, now)]);
      var r := PublishItems(next, uid, items[1..], now, classify);
      PostsStep(out.posts, next.posts, r.posts, uid, now, i, Publishes(i, now, classify),
                AcceptedDue(items, now, classify), AcceptedDue(items[1..], now, classify));
      QuarantinedIdsSplit(items, now, classify);
      assert r.posts[..|out.posts|] == next.posts[..|out.posts|];
      QuarantineWitness(items, now, classify, out, next, r, uid);
      r
  }

  /** The posts clause of `PublishItems` for the first item and the rest. */
  lemma PostsStep(outPosts: seq<Post>, nextPosts: seq<Post>, posts: seq<Post>, uid: string, now: int,
                  first: Item, published: bool, accepted: seq<Item>, rest: seq<Item>)
    requires accepted == if published then [first] + rest else rest
    requires nextPosts == if published then outPosts + [Post(first.payload, uid, now)] else outPosts
    requires posts == nextPosts + PostsOf(rest, uid, now)
    ensures posts == outPosts + PostsOf(accepted, uid, now)
  {
    if published {
      PostsOfCons(first, rest, uid, now);
      assert posts == outPosts + ([Post(first.payload, uid, now)] + PostsOf(rest, uid, now));
    }
  }

  lemma QuarantinedIdsSplit(items: seq<Item>, now: int, classify: Option<Json> -> Verdict)
    requires items != []
    ensures QuarantinedIds(items, now, classify)
      == (if Quarantines(items[0], now, classify) then {items[0].id} else {}) + QuarantinedIds(items[1..], now, classify)
  {
    var rest := items[1..];
    forall id | id in QuarantinedIds(items, now, classify)
      ensures id in (if Quarantines(items[0], now, classify) then {items[0].id} else {}) + QuarantinedIds(rest, now, classify)
    {
      var k :| 0 <= k < |items| && Quarantines(items[k], now, classify) && items[k].id == id;
      if k > 0 { assert rest[k - 1] == items[k]; }
    }
    forall id | id in QuarantinedIds(rest, now, classify) ensures id in QuarantinedIds(items, now, classify) {
      var k :| 0 <= k < |rest| && Quarantines(rest[k], now, classify) && rest[k].id == id;
      assert items[k + 1] == rest[k];
    }
  }

  /** The witness clause of `PublishItems` for the first item and the rest. */
  lemma QuarantineWitness(items: seq<Item>, now: int, classify: Option<Json> -> Verdict,
                          out: Outbox, next: Outbox, r: Outbox, uid: string)
    requires items != []
    requires QuarantinedIds(items, now, classify)
      == (if Quarantines(items[0], now, classify) then {items[0].id} else {}) + QuarantinedIds(items[1..], now, classify)
    requires next.moderation == if Quarantines(items[0], now, classify)
      then out.moderation[items[0].id := ModerationEntry(items[0].payload, classify(items[0].payload).reason, uid, now)]
      else out.moderation
    requires r.moderation.Keys == next.moderation.Keys + QuarantinedIds(items[1..], now, classify)
    requires forall id :: id in next.moderation && id !in QuarantinedIds(items[1..], now, classify) ==>
      r.moderation[id] == next.moderation[id]
    requires forall id :: id in QuarantinedIds(items[1..], now, classify) ==>
      r.moderation[id].createdBy == uid && r.moderation[id].createdAt == now
      && EntryOfItem(items[1..], id, r.moderation[id], now, classify)
    ensures r.moderation.Keys == out.moderation.Keys + QuarantinedIds(items, now, classify)
    ensures forall id :: id in out.moderation && id !in QuarantinedIds(items, now, classify) ==>
      r.moderation[id] == out.moderation[id]
    ensures forall id :: id in QuarantinedIds(items, now, classify) ==>
      r.moderation[id].createdBy == uid && r.moderation[id].createdAt == now
      && EntryOfItem(items, id, r.moderation[id], now, classify)
  {
    forall id | id in QuarantinedIds(items, now, classify)
      ensures r.moderation[id].createdBy == uid && r.moderation[id].createdAt == now
      ensures EntryOfItem(items, id, r.moderation[id], now, classify)
    {
      if id in QuarantinedIds(items[1..], now, classify) {
        var k :| 0 <= k < |items[1..]| && IsEntryOf(items[1..][k], id, r.moderation[id], now, classify);
        assert items[k + 1] == items[1..][k];
      } else {
        assert id == items[0].id && Quarantines(items[0], now, classify);
        assert r.moderation[id] == next.moderation[id];
      }
    }
  }

  /** The store after processing one user: the writes applied and the due items removed. */
  function PublishUser(db: Store, u: string, now: int, classify: Option<Json> -> Verdict): (r: Store)
    ensures r.users == db.users
    ensures r.scheduled.Keys == db.scheduled.Keys
    ensures u in db.scheduled ==> r.scheduled[u] == KeepNotDue(db.scheduled[u], now)
    ensures forall v :: v in db.scheduled && v != u ==> r.scheduled[v] == db.scheduled[v]
    ensures |r.posts| == |db.posts| + CountPublished(ItemsOf(db, u), now, classify)
    ensures r.posts[..|db.posts|] == db.posts
    ensures forall k :: |db.posts| <= k < |r.posts| ==> r.posts[k].authorId == u && r.posts[k].createdAt == now
    ensures r.posts == db.posts + PostsOf(AcceptedDue(ItemsOf(db, u), now, classify), u, now)
    ensures r.moderation.Keys == db.moderation.Keys + QuarantinedIds(ItemsOf(db, u), now, classify)
    ensures forall id :: id in db.moderation && id !in QuarantinedIds(ItemsOf(db, u), now, classify) ==>
      r.moderation[id] == db.moderation[id]
    ensures forall id :: id in QuarantinedIds(ItemsOf(db, u), now, classify) ==>
      r.moderation[id].createdBy == u && r.moderation[id].createdAt == now
      && EntryOfItem(ItemsOf(db, u), id, r.moderation[id], now, classify)
  {
    var items := ItemsOf(db, u);
    var out := PublishItems(Outbox(db.posts, db.moderation), u, items, now, classify);
    db.(posts := out.posts, moderation := out.moderation,
        scheduled := if u in db.scheduled then db.scheduled[u := KeepNotDue(items, now)] else db.scheduled)
  }

  /** Each listed user in turn, with one `now` for the run. */
  function PublishUsers(db: Store, users: seq<string>, now: int, classify: Option<Json> -> Verdict): (r: Store)
    ensures r.users == db.users
    ensures r.scheduled.Keys == db.scheduled.Keys
    ensures forall u :: u in db.scheduled && u in users ==> r.scheduled[u] == KeepNotDue(db.scheduled[u], now)
    ensures forall u :: u in db.scheduled && u !in users ==> r.scheduled[u] == db.scheduled[u]
    ensures |db.posts| <= |r.posts| && r.posts[..|db.posts|] == db.posts
    ensures forall k :: |db.posts| <= k < |r.posts| ==> r.posts[k].authorId in users && r.posts[k].createdAt == now
    ensures db.moderation.Keys <= r.moderation.Keys
    decreases |users|
  {
    if users == [] then db
    else
      var d1 := PublishUser(db, users[0], now, classify);
      var r := PublishUsers(d1, users[1..], now, classify);
      forall u | u in db.scheduled && u in users
        ensures r.scheduled[u] == KeepNotDue(db.scheduled[u], now)
      {
        if u == users[0] && u in users[1..] {
          KeepNotDueIdempotent(db.scheduled[u], now);
        }
      }
      assert r.posts[..|db.posts|] == d1.posts[..|db.posts|];
      forall k | |db.posts| <= k < |r.posts|
        ensures r.posts[k].authorId in users && r.posts[k].createdAt == now
      {
        if k < |d1.posts| {
          assert r.posts[k] == r.posts[..|d1.posts|][k] == d1.posts[k];
        } else {
          assert r.posts[k].authorId in users[1..];
        }
      }
      r
  }

  /** `publishDueScheduledPosts(db, now)`: every listed user's due items are published or quarantined. */
  function PublishDueScheduledPosts(db: Store, now: int, classify: Option<Json> -> Verdict): (r: Store)
    ensures r.users == db.users && r.scheduled.Keys == db.scheduled.Keys
    ensures forall u :: u in db.scheduled && u in db.users ==> r.scheduled[u] == KeepNotDue(db.scheduled[u], now)
    ensures forall u :: u in db.scheduled && u !in db.users ==> r.scheduled[u] == db.scheduled[u]
    ensures |db.posts| <= |r.posts| && r.posts[..|db.posts|] == db.posts
    ensures forall k :: |db.posts| <= k < |r.posts| ==> r.posts[k].authorId in db.users && r.posts[k].createdAt == now
    ensures db.moderation.Keys <= r.moderation.Keys
  {
    PublishUsers(db, db.users, now, classify)
  }

  /**
   * The scheduled entry point with the feature flag: off, the run changes
   * nothing; on, it is the publisher at `now`.
   */
  function ScheduledRun(db: Store, now: int, enabled: bool, classify: Option<Json> -> Verdict): (r: Store)
    ensures !enabled ==> r == db
    ensures enabled ==> r == PublishDueScheduledPosts(db, now, classify)
  {
    if enabled then PublishDueScheduledPosts(db, now, classify) else db
  }

  /** Processing users none of whose items is due changes nothing. */
  lemma {:induction false} NothingDueUnchanged(db: Store, users: seq<string>, now: int, classify: Option<Json> -> Verdict)
    requires forall u, k :: u in users && 0 <= k < |ItemsOf(db, u)| ==> !IsDue(ItemsOf(db, u)[k], now)
    ensures PublishUsers(db, users, now, classify) == db
    decreases |users|
  {
    if users != [] {
      var u := users[0];
      var items := ItemsOf(db, u);
      NothingDuePublishesNothing(Outbox(db.posts, db.moderation), u, items, now, classify);
      NothingDueKeepsAll(items, now);
      if u in db.scheduled {
        assert db.scheduled[u := items] == db.scheduled;
      }
      assert PublishUser(db, u, now, classify) == db;
      NothingDueUnchanged(db, users[1..], now, classify);
    }
  }

  lemma {:induction false} NothingDuePublishesNothing(out: Outbox, uid: string, items: seq<Item>, now: int, classify: Option<Json> -> Verdict)
    requires forall k :: 0 <= k < |items| ==> !IsDue(items[k], now)
    ensures PublishItems(out, uid, items, now, classify) == out
  {
    if items != [] {
      NothingDuePublishesNothing(out, uid, items[1..], now, classify);
    }
  }

  /** A second run at the same `now` finds nothing due and changes nothing. */
  lemma PublishTwiceSameNow(db: Store, now: int, classify: Option<Json> -> Verdict)
    ensures PublishDueScheduledPosts(PublishDueScheduledPosts(db, now, classify), now, classify)
      == PublishDueScheduledPosts(db, now, classify)
  {
    var r := PublishDueScheduledPosts(db, now, classify);
    forall u, k | u in r.users && 0 <= k < |ItemsOf(r, u)| ensures !IsDue(ItemsOf(r, u)[k], now) {
      assert ItemsOf(r, u)[k] in KeepNotDue(db.scheduled[u], now);
    }
    NothingDueUnchanged(r, r.users, now, classify);
  }

  /** The test's accepted scenario: one due item whose payload is accepted. */
  lemma AcceptedScenario(db: Store, now: int, classify: Option<Json> -> Verdict, payload: Option<Json>)
    requires db == Store(["user1"], map["user1" := [Item("sched1", Some(now), payload)]], [], map[])
    requires classify(payload) == Accepted
    ensures var r := PublishDueScheduledPosts(db, now, classify);
      r.posts == [Post(payload, "user1", now)] && r.moderation == map[] && r.scheduled["user1"] == []
  {
    PublishOneUser(db, now, classify);
  }

  /** With one listed user, the run is that user's step. */
  lemma PublishOneUser(db: Store, now: int, classify: Option<Json> -> Verdict)
    requires |db.users| == 1
    ensures PublishDueScheduledPosts(db, now, classify) == PublishUser(db, db.users[0], now, classify)
  {
    var d1 := PublishUser(db, db.users[0], now, classify);
    assert db.users[1..] == [];
    assert PublishUsers(d1, [], now, classify) == d1;
    assert PublishUsers(db, db.users, now, classify) == PublishUsers(d1, db.users[1..], now, classify);
  }

  /** The test's rejected scenario: the item is quarantined under its id with the reason and its owner. */
  lemma RejectedScenario(db: Store, now: int, classify: Option<Json> -> Verdict, payload: Option<Json>)
    requires db == Store(["user1"], map["user1" := [Item("sched1", Some(now), payload)]], [], map[])
    requires classify(payload) == Rejected("forbidden_terms")
    ensures var r := PublishDueScheduledPosts(db, now, classify);
      && r.posts == [] && r.moderation.Keys == {"sched1"}
      && r.moderation["sched1"].reason == "forbidden_terms" && r.moderation["sched1"].createdBy == "user1"
      && r.scheduled["user1"] == []
  {
    var item := Item("sched1", Some(now), payload);
    var d1 := PublishUser(db, "user1", now, classify);
    PublishOneUser(db, now, classify);
    RejectOne(item, "user1", now, classify, "forbidden_terms");
    assert KeepNotDue([item], now) == [] by {
      assert [item][1..] == [];
    }
    assert d1 == Store(["user1"], map["user1" := []], [],
                       map["sched1" := ModerationEntry(payload, "forbidden_terms", "user1", now)]);
  }

  /** A lone due item with a rejected payload becomes one moderation entry and no post. */
  lemma RejectOne(item: Item, uid: string, now: int, classify: Option<Json> -> Verdict, reason: string)
    requires IsDue(item, now) && classify(item.payload) == Rejected(reason)
    ensures PublishItems(Outbox([], map[]), uid, [item], now, classify)
      == Outbox([], map[item.id := ModerationEntry(item.payload, reason, uid, now)])
  {
    var next := Outbox([], map[item.id := ModerationEntry(item.payload, reason, uid, now)]);
    assert [item][1..] == [];
    assert PublishItems(next, uid, [], now, classify) == next;
  }

  /** The number of due items the users' classifier accepts. */
  function PublishedTotal(db: Store, users: seq<string>, now: int, classify: Option<Json> -> Verdict): nat {
    if users == [] then 0
    else CountPublished(ItemsOf(db, users[0]), now, classify) + PublishedTotal(db, users[1..], now, classify)
  }

  /** The total of users other than `u` does not depend on `u`'s items. */
  lemma {:induction false} PublishedTotalFrame(db: Store, d: Store, users: seq<string>, u: string, now: int, classify: Option<Json> -> Verdict)
    requires u !in users
    requires forall v :: v != u ==> ItemsOf(d, v) == ItemsOf(db, v)
    ensures PublishedTotal(d, users, now, classify) == PublishedTotal(db, users, now, classify)
  {
    if users != [] {
      PublishedTotalFrame(db, d, users[1..], u, now, classify);
    }
  }

  /** Over distinct users, a run publishes exactly one post per accepted due item. */
  lemma {:induction false} PublishedCount(db: Store, users: seq<string>, now: int, classify: Option<Json> -> Verdict)
    requires forall i, j :: 0 <= i < j < |users| ==> users[i] != users[j]
    ensures |PublishUsers(db, users, now, classify).posts| == |db.posts| + PublishedTotal(db, users, now, classify)
    decreases |users|
  {
    if users != [] {
      var u := users[0];
      var d1 := PublishUser(db, u, now, classify);
      assert u !in users[1..];
      forall v | v != u ensures ItemsOf(d1, v) == ItemsOf(db, v) {
      }
      PublishedTotalFrame(db, d1, users[1..], u, now, classify);
      PublishedCount(d1, users[1..], now, classify);
    }
  }

  /** The posts of the users' accepted due items, user by user, each in item order. */
  function AllPosts(db: Store, users: seq<string>, now: int, classify: Option<Json> -> Verdict): seq<Post> {
    if users == [] then []
    else PostsOf(AcceptedDue(ItemsOf(db, users[0]), now, classify), users[0], now) + AllPosts(db, users[1..], now, classify)
  }

  /** The posts of users other than `u` do not depend on `u`'s items. */
  lemma {:induction false} AllPostsFrame(db: Store, d: Store, users: seq<string>, u: string, now: int, classify: Option<Json> -> Verdict)
    requires u !in users
    requires forall v :: v != u ==> ItemsOf(d, v) == ItemsOf(db, v)
    ensures AllPosts(d, users, now, classify) == AllPosts(db, users, now, classify)
  {
    if users != [] {
      AllPostsFrame(db, d, users[1..], u, now, classify);
    }
  }

  /** Over distinct users, a run appends exactly the posts of the accepted due items, user by user. */
  lemma {:induction false} PublishedPosts(db: Store, users: seq<string>, now: int, classify: Option<Json> -> Verdict)
    requires forall i, j :: 0 <= i < j < |users| ==> users[i] != users[j]
    ensures PublishUsers(db, users, now, classify).posts == db.posts + AllPosts(db, users, now, classify)
    decreases |users|
  {
    if users != [] {
      var u := users[0];
      var d1 := PublishUser(db, u, now, classify);
      var mine := PostsOf(AcceptedDue(ItemsOf(db, u), now, classify), u, now);
      var others := AllPosts(db, users[1..], now, classify);
      assert AllPosts(d1, users[1..], now, classify) == others by {
        assert u !in users[1..];
        forall v | v != u ensures ItemsOf(d1, v) == ItemsOf(db, v) {
        }
        AllPostsFrame(db, d1, users[1..], u, now, classify);
      }
      PublishedPosts(d1, users[1..], now, classify);
      AppendChain(db.posts, d1.posts, PublishUsers(d1, users[1..], now, classify).posts,
                  AllPosts(db, users, now, classify), mine, others);
    }
  }

  lemma AppendChain(p: seq<Post>, q: seq<Post>, r: seq<Post>, all: seq<Post>, mine: seq<Post>, others: seq<Post>)
    requires q == p + mine && r == q + others && all == mine + others
    ensures r == p + all
  {
  }

  /** Every quarantined due item of a listed user has a moderation entry under its id after the run. */
  lemma {:induction false} QuarantinedRecorded(db: Store, users: seq<string>, now: int, classify: Option<Json> -> Verdict)
    ensures forall u, k :: u in users && 0 <= k < |ItemsOf(db, u)| && Quarantines(ItemsOf(db, u)[k], now, classify) ==>
      ItemsOf(db, u)[k].id in PublishUsers(db, users, now, classify).moderation
    decreases |users|
  {
    if users != [] {
      var u0 := users[0];
      var d1 := PublishUser(db, u0, now, classify);
      var r := PublishUsers(d1, users[1..], now, classify);
      QuarantinedRecorded(d1, users[1..], now, classify);
      forall u, k | u in users && 0 <= k < |ItemsOf(db, u)| && Quarantines(ItemsOf(db, u)[k], now, classify)
        ensures ItemsOf(db, u)[k].id in r.moderation
      {
        if u == u0 {
          assert ItemsOf(db, u)[k].id in QuarantinedIds(ItemsOf(db, u0), now, classify);
        } else {
          assert ItemsOf(d1, u) == ItemsOf(db, u);
        }
      }
    }
  }
}

=== FILE: text.dfy ===
/**
 * The JavaScript string operations the triggers use, over ASCII: `trim`,
 * `toLowerCase`, `includes`, `startsWith` and `split` on a one-character
 * separator.
 */
module Text {

  /** ASCII white space: space, tab, line feed, vertical tab, form feed, carriage return. */
  predicate IsSpace(c: char) {
    c == ' ' || '\t' <= c <= '\r'
  }

  predicate AllSpace(s: string) {
    forall i :: 0 <= i < |s| ==> IsSpace(s[i])
  }

  /** The number of white-space characters `s` starts with. */
  function LeadingSpaces(s: string): (n: nat)
    ensures n <= |s|
    ensures forall i :: 0 <= i < n ==> IsSpace(s[i])
    ensures n < |s| ==> !IsSpace(s[n])
  {
    if s != [] && IsSpace(s[0]) then
      var n := LeadingSpaces(s[1..]);
      assert forall i :: 1 <= i < n + 1 ==> s[i] == s[1..][i - 1];
      n + 1
    else 0
  }

  /** The number of white-space characters `s` ends with. */
  function TrailingSpaces(s: string): (n: nat)
    ensures n <= |s|
    ensures forall i :: |s| - n <= i < |s| ==> IsSpace(s[i])
    ensures n < |s| ==> !IsSpace(s[|s| - n - 1])
  {
    if s != [] && IsSpace(s[|s| - 1]) then
      var n := TrailingSpaces(s[..|s| - 1]);
      assert forall i :: |s| - 1 - n <= i < |s| - 1 ==> s[i] == s[..|s| - 1][i];
      n + 1
    else 0
  }

  /** Drops leading white space. */
  function TrimStart(s: string): (r: string)
    ensures r == s[LeadingSpaces(s)..]
    ensures r != [] ==> !IsSpace(r[0])
  {
    s[LeadingSpaces(s)..]
  }

  /** Drops trailing white space. */
  function TrimEnd(s: string): (r: string)
    ensures r == s[..|s| - TrailingSpaces(s)]
    ensures r != [] ==> !IsSpace(r[|r| - 1])
  {
    s[..|s| - TrailingSpaces(s)]
  }

  /** `r` is the slice of `s` from `a`, with only white space around it. */
  predicate IsTrimmedSlice(s: string, r: string, a: int) {
    0 <= a <= a + |r| <= |s| && r == s[a..a + |r|] && AllSpace(s[..a]) && AllSpace(s[a + |r|..])
  }

  /**
   * `s.trim()`: the slice of `s` between its leading and trailing white space;
   * it neither starts nor ends with white space, and only white space is cut.
   */
  function Trim(s: string): (r: string)
    ensures IsTrimmedSlice(s, r, LeadingSpaces(s))
    ensures r != [] ==> !IsSpace(r[0]) && !IsSpace(r[|r| - 1])
  {
    var a := LeadingSpaces(s);
    var t := TrimStart(s);
    var b := a + |t| - TrailingSpaces(t);
    forall i | b <= i < |s| ensures IsSpace(s[i]) {
      assert s[i] == t[i - a];
    }
    assert TrimEnd(t) == s[a..b];
    SpacedSlice(s, a, b);
    TrimEnd(t)
  }

  /** The slice between leading and trailing white space is a trimmed slice. */
  lemma SpacedSlice(s: string, a: int, b: int)
    requires 0 <= a <= b <= |s|
    requires forall i :: 0 <= i < a ==> IsSpace(s[i])
    requires forall i :: b <= i < |s| ==> IsSpace(s[i])
    ensures IsTrimmedSlice(s, s[a..b], a)
  {
    assert forall i :: 0 <= i < |s| - b ==> s[b..][i] == s[b + i];
  }

  /** Trimming leaves nothing exactly when the string is all white space. */
  lemma TrimEmptyIff(s: string)
    ensures Trim(s) == [] <==> AllSpace(s)
  {
    var a := LeadingSpaces(s);
    if a < |s| {
      var t := TrimStart(s);
      assert t[0] == s[a];
      assert TrailingSpaces(t) < |t|;
      assert !IsSpace(s[a]);
    }
  }

  function LowerChar(c: char): (l: char)
    ensures 'A' <= c <= 'Z' ==> l as int == c as int + 32
    ensures !('A' <= c <= 'Z') ==> l == c
  {
    if 'A' <= c <= 'Z' then (c as int + 32) as char else c
  }

  /** `s.toLowerCase()` with ASCII case mapping: same length, each letter lowered. */
  function ToLower(s: string): (r: string)
    ensures |r| == |s|
    ensures forall i :: 0 <= i < |s| ==> r[i] == LowerChar(s[i])
  {
    if s == [] then [] else [LowerChar(s[0])] + ToLower(s[1..])
  }

  /** `s.startsWith(p)`. */
  predicate StartsWith(s: string, p: string) {
    |p| <= |s| && s[..|p|] == p
  }

  predicate OccursAt(s: string, w: string, i: int) {
    0 <= i && i + |w| <= |s| && s[i..i + |w|] == w
  }

  /** `s.includes(w)`: some position of `s` starts a copy of `w`. */
  function Contains(s: string, w: string): (r: bool)
    ensures r <==> exists i :: OccursAt(s, w, i)
  {
    if StartsWith(s, w) then
      assert OccursAt(s, w, 0);
      true
    else if s == [] then
      assert forall i :: !OccursAt(s, w, i);
      false
    else
      var r := Contains(s[1..], w);
      OccursShift(s, w);
      r
  }

  /** Past a non-matching first position, the occurrences in `s` are those in its tail, shifted by one. */
  lemma OccursShift(s: string, w: string)
    requires s != [] && !OccursAt(s, w, 0)
    ensures (exists i :: OccursAt(s, w, i)) <==> (exists i :: OccursAt(s[1..], w, i))
  {
    if exists i :: OccursAt(s[1..], w, i) {
      var i :| OccursAt(s[1..], w, i);
      OccursInTail(s, w, i);
    }
    if exists i :: OccursAt(s, w, i) {
      var i :| OccursAt(s, w, i);
      assert i > 0;
      OccursInTail(s, w, i - 1);
    }
  }

  lemma OccursInTail(s: string, w: string, i: int)
    requires s != [] && 0 <= i
    ensures OccursAt(s, w, i + 1) <==> OccursAt(s[1..], w, i)
  {
    if i + 1 + |w| <= |s| {
      assert s[i + 1..i + 1 + |w|] == s[1..][i..i + |w|];
    }
  }

  /** Concatenation of the parts with `sep` between consecutive parts. */
  function Join(parts: seq<string>, sep: char): string {
    if parts == [] then []
    else if |parts| == 1 then parts[0]
    else parts[0] + [sep] + Join(parts[1..], sep)
  }

  /** `s.split(sep)` for a one-character separator: at least one part, none containing `sep`. */
  function Split(s: string, sep: char): (parts: seq<string>)
    ensures |parts| >= 1
    ensures forall k :: 0 <= k < |parts| ==> sep !in parts[k]
  {
    if s == [] then [[]]
    else
      var rest := Split(s[1..], sep);
      if s[0] == sep then [[]] + rest
      else [[s[0]] + rest[0]] + rest[1..]
  }

  /** Splitting and re-joining gives the string back. */
  lemma {:induction false} JoinSplit(s: string, sep: char)
    ensures Join(Split(s, sep), sep) == s
  {
    if s != [] {
      var rest := Split(s[1..], sep);
      JoinSplit(s[1..], sep);
      if s[0] == sep {
        assert Split(s, sep) == [[]] + rest;
      } else {
        var parts := Split(s, sep);
        assert parts == [[s[0]] + rest[0]] + rest[1..];
        if |rest| == 1 {
          assert Join(parts, sep) == [s[0]] + rest[0];
        } else {
          assert parts[1..] == rest[1..];
          assert Join(rest, sep) == rest[0] + [sep] + Join(rest[1..], sep);
        }
      }
    }
  }

  /** Joining separator-free parts and splitting again gives the parts back. */
  lemma {:induction false} SplitJoin(parts: seq<string>, sep: char)
    requires |parts| >= 1
    requires forall k :: 0 <= k < |parts| ==> sep !in parts[k]
    ensures Split(Join(parts, sep), sep) == parts
    decreases |parts|, |parts[0]|
  {
    var p := parts[0];
    if p != [] {
      // Peel the first character of the first part.
      var parts' := [p[1..]] + parts[1..];
      assert sep !in p[1..];
      assert forall k :: 0 <= k < |parts'| ==> sep !in parts'[k];
      SplitJoin(parts', sep);
      assert Join(parts, sep) == [p[0]] + Join(parts', sep) by {
        if |parts| == 1 {
        } else {
          assert parts'[1..] == parts[1..];
        }
      }
      assert p[0] != sep;
      assert [p[0]] + p[1..] == p;
      var s := Join(parts, sep);
      assert s[0] == p[0] && s[1..] == Join(parts', sep);
      assert Split(s, sep) == [[p[0]] + p[1..]] + parts[1..];
      assert [p] + parts[1..] == parts;
    } else if |parts| > 1 {
      SplitJoin(parts[1..], sep);
      var s := Join(parts, sep);
      assert s == [sep] + Join(parts[1..], sep);
      assert s[1..] == Join(parts[1..], sep);
      assert Split(s, sep) == [[]] + parts[1..];
      assert [p] + parts[1..] == parts;
    }
  }
}

=== FILE: unread_counters.dfy ===
/**
 * Unread-message counters. `incrementUnreadMessageCount` runs when a message
 * is created in a chat: it picks the recipient and, in one batch, adds one to
 * the recipient's global `unreadMessageCount` and to the chat's
 * `unreadCounts.{recipient}`. `syncUnreadMessageCountOnRead` runs when a
 * chat document changes: the first participant whose per-chat count went
 * from positive to 0 has the old per-chat count taken off the global counter,
 * provided the global counter covers it.
 */
module UnreadCounters {
  import opened Common
  import opened JsonValue
  import opened Documents

  // ---------------------------------------------------------------------------
  // incrementUnreadMessageCount
  // ---------------------------------------------------------------------------

  /** Index `k` holds the first participant that is not `=== senderId`. */
  predicate IsFirstOther(items: seq<Json>, sender: Option<Json>, k: int) {
    0 <= k < |items| && !StrictEquals(items[k], sender)
    && forall j :: 0 <= j < k ==> StrictEquals(items[j], sender)
  }

  /** `participants.find((id) => id !== senderId)`. */
  function FirstOther(items: seq<Json>, sender: Option<Json>): (r: Option<Json>)
    ensures r.None? <==> forall k :: 0 <= k < |items| ==> StrictEquals(items[k], sender)
    ensures r.Some? ==> exists k :: IsFirstOther(items, sender, k) && items[k] == r.value
  {
    if items == [] then None
    else if !StrictEquals(items[0], sender) then
      assert IsFirstOther(items, sender, 0);
      Some(items[0])
    else
      var r := FirstOther(items[1..], sender);
      if r.Some? then
        var k :| IsFirstOther(items[1..], sender, k) && items[1..][k] == r.value;
        assert IsFirstOther(items, sender, k + 1);
        r
      else
        assert forall k :: 0 <= k < |items| ==> StrictEquals(items[k], sender) by {
          forall k | 0 <= k < |items| ensures StrictEquals(items[k], sender) {
            if k > 0 { assert items[k] == items[1..][k - 1]; }
          }
        }
        r
  }

  /** The recipient a message in `chat` is counted for: `None` when `find` returns nothing. */
  function RecipientOf(chat: ChatDoc, message: Json): Option<Json>
    requires ArrayItems(chat.participants).Some?
  {
    FirstOther(ArrayItems(chat.participants).value, Member(message, "senderId"))
  }

  /** The two increments of the batch, for recipient `u` of chat `chatId`. */
  function CountMessage(db: Store, chatId: string, u: string): (r: Store)
    requires chatId in db.chats && u in db.users
    ensures r.users.Keys == db.users.Keys && r.chats.Keys == db.chats.Keys && r.posts == db.posts
    ensures r.users[u].unreadMessageCount == db.users[u].unreadMessageCount + 1
    ensures r.users[u].followers == db.users[u].followers
    ensures forall v :: v in db.users && v != u ==> r.users[v] == db.users[v]
    ensures r.chats[chatId].participants == db.chats[chatId].participants
    ensures CountOf(r.chats[chatId].unreadCounts, u) == CountOf(db.chats[chatId].unreadCounts, u) + 1
    ensures forall k :: k != u ==> CountOf(r.chats[chatId].unreadCounts, k) == CountOf(db.chats[chatId].unreadCounts, k)
    ensures forall c :: c in db.chats && c != chatId ==> r.chats[c] == db.chats[c]
  {
    var chat := db.chats[chatId];
    AddToUser(db, u, 1).(chats := db.chats[chatId := chat.(unreadCounts := Bump(chat.unreadCounts, u, 1))])
  }

  /**
   * The trigger on a new message of chat `chatId`; `message` is the created
   * document (`None`: the event has no snapshot). `Some(db)` is an early
   * return; `None` means the handler throws before or in `batch.commit()`,
   * so neither increment is written.
   */
  function IncrementUnread(db: Store, chatId: string, message: Option<Json>): (r: Option<Store>)
    ensures message.None? || chatId !in db.chats ==> r == Some(db)
    ensures message.Some? && chatId in db.chats && ArrayItems(db.chats[chatId].participants).None? ==> r.None?
    ensures message.Some? && chatId in db.chats && ArrayItems(db.chats[chatId].participants).Some? ==>
      var rec := RecipientOf(db.chats[chatId], message.value);
      && (!Truthy(rec) ==> r == Some(db))
      && (Truthy(rec) && (DocId(rec.value).None? || DocId(rec.value).value !in db.users) ==> r.None?)
      && (Truthy(rec) && DocId(rec.value).Some? && DocId(rec.value).value in db.users ==>
            r == Some(CountMessage(db, chatId, DocId(rec.value).value)))
  {
    if message.None? || chatId !in db.chats then Some(db)
    else
      var items := ArrayItems(db.chats[chatId].participants);
      if items.None? then None
      else
        var rec := RecipientOf(db.chats[chatId], message.value);
        if !Truthy(rec) then Some(db)
        else
          var uid := DocId(rec.value);
          if uid.None? || uid.value !in db.users then None
          else Some(CountMessage(db, chatId, uid.value))
  }

  /** `d` is the batch for participant `k`, the user `u`, who is the first participant other than the sender. */
  predicate CountedFor(db: Store, chatId: string, message: Json, d: Store, u: string, k: int) {
    && chatId in db.chats && u in db.users
    && ArrayItems(db.chats[chatId].participants).Some?
    && IsFirstOther(ArrayItems(db.chats[chatId].participants).value, Member(message, "senderId"), k)
    && ArrayItems(db.chats[chatId].participants).value[k] == Str(u)
    && d == CountMessage(db, chatId, u)
  }

  /** The recipient is always a participant other than the sender, and the first such. */
  lemma RecipientIsFirstNonSender(db: Store, chatId: string, message: Json, d: Store)
    requires IncrementUnread(db, chatId, Some(message)) == Some(d) && d != db
    ensures chatId in db.chats && ArrayItems(db.chats[chatId].participants).Some?
    ensures exists u, k :: CountedFor(db, chatId, message, d, u, k)
  {
    var rec := RecipientOf(db.chats[chatId], message);
    var u := DocId(rec.value).value;
    var items := ArrayItems(db.chats[chatId].participants).value;
    var k :| IsFirstOther(items, Member(message, "senderId"), k) && items[k] == rec.value;
    assert CountedFor(db, chatId, message, d, u, k);
  }

  // ---------------------------------------------------------------------------
  // syncUnreadMessageCountOnRead
  // ---------------------------------------------------------------------------

  /** `beforeCount > 0 && afterCount === 0` for the participant `uid`. */
  predicate Qualifies(before: map<string, int>, after: map<string, int>, uid: Json) {
    CountOf(before, PropertyKey(uid)) > 0 && CountOf(after, PropertyKey(uid)) == 0
  }

  /** The guard before the decrement: the user exists and its global count covers the chat's old count. */
  predicate Covers(db: Store, before: map<string, int>, u: string) {
    u in db.users && db.users[u].unreadMessageCount >= CountOf(before, u)
  }

  /** The loop goes on past `uid`: it does not qualify, or it names a user the guard rejects. */
  predicate Skipped(db: Store, before: map<string, int>, after: map<string, int>, uid: Json) {
    !Qualifies(before, after, uid) || (DocId(uid).Some? && !Covers(db, before, DocId(uid).value))
  }

  /** Index `k` holds the first participant the loop stops at. */
  predicate FirstActive(db: Store, before: map<string, int>, after: map<string, int>, items: seq<Json>, k: int) {
    0 <= k < |items| && !Skipped(db, before, after, items[k])
    && forall j :: 0 <= j < k ==> Skipped(db, before, after, items[j])
  }

  /** `increment(-countDifference)` on user `u`'s global counter, the chat's old count for `u`. */
  function TakeOff(db: Store, before: map<string, int>, u: string): (r: Store)
    ensures u in db.users ==> r == AddToUser(db, u, -CountOf(before, u))
    ensures u !in db.users ==> r == db
  {
    if u in db.users then AddToUser(db, u, -CountOf(before, u)) else db
  }

  /**
   * The loop over the participants: the first participant that is not
   * skipped either throws in `.doc(userId)` or has its old per-chat count
   * taken off its global counter, and the handler returns.
   */
  function SyncLoop(db: Store, before: map<string, int>, after: map<string, int>, items: seq<Json>): (r: Option<Store>)
    ensures (forall k :: 0 <= k < |items| ==> Skipped(db, before, after, items[k])) ==> r == Some(db)
    ensures forall k :: FirstActive(db, before, after, items, k) && DocId(items[k]).None? ==> r.None?
    ensures forall k :: FirstActive(db, before, after, items, k) && DocId(items[k]).Some? ==>
      r == Some(TakeOff(db, before, items[k].s))
  {
    if items == [] then Some(db)
    else if Skipped(db, before, after, items[0]) then
      SkippedHead(db, before, after, items);
      SyncLoop(db, before, after, items[1..])
    else
      assert FirstActive(db, before, after, items, 0);
      assert forall k :: FirstActive(db, before, after, items, k) ==> k == 0;
      var uid := DocId(items[0]);
      if uid.None? then None
      else Some(TakeOff(db, before, uid.value))
  }

  /** Past a skipped first participant, the loop sees the rest with every index one lower. */
  lemma SkippedHead(db: Store, before: map<string, int>, after: map<string, int>, items: seq<Json>)
    requires items != [] && Skipped(db, before, after, items[0])
    ensures forall k :: FirstActive(db, before, after, items, k) ==>
      k > 0 && FirstActive(db, before, after, items[1..], k - 1) && items[1..][k - 1] == items[k]
    ensures (forall k :: 0 <= k < |items| ==> Skipped(db, before, after, items[k])) ==>
      forall k :: 0 <= k < |items[1..]| ==> Skipped(db, before, after, items[1..][k])
  {
    forall k | FirstActive(db, before, after, items, k)
      ensures k > 0 && FirstActive(db, before, after, items[1..], k - 1) && items[1..][k - 1] == items[k]
    {
      forall j | 0 <= j < k - 1 ensures Skipped(db, before, after, items[1..][j]) {
        assert items[1..][j] == items[j + 1];
      }
    }
  }

  /**
   * The trigger on a chat update, with the chat before and after
   * (`None`: a missing snapshot). The participants come from the new version;
   * a participants value `for...of` cannot iterate makes the handler throw.
   */
  function SyncOnRead(db: Store, before: Option<ChatDoc>, after: Option<ChatDoc>): (r: Option<Store>)
    ensures before.None? || after.None? ==> r == Some(db)
    ensures before.Some? && after.Some? && IterItems(after.value.participants).None? ==> r.None?
    ensures before.Some? && after.Some? && IterItems(after.value.participants).Some? ==>
      r == SyncLoop(db, before.value.unreadCounts, after.value.unreadCounts, IterItems(after.value.participants).value)
  {
    if before.None? || after.None? then Some(db)
    else
      var items := IterItems(after.value.participants);
      if items.None? then None
      else SyncLoop(db, before.value.unreadCounts, after.value.unreadCounts, items.value)
  }

  /** Either every participant is skipped or one is the first the loop stops at. */
  lemma {:induction false} AllSkippedOrFirstActive(db: Store, before: map<string, int>, after: map<string, int>, items: seq<Json>)
    ensures (forall k :: 0 <= k < |items| ==> Skipped(db, before, after, items[k]))
      || exists k :: FirstActive(db, before, after, items, k)
  {
    if items != [] && !Skipped(db, before, after, items[0]) {
      assert FirstActive(db, before, after, items, 0);
    } else if items != [] {
      AllSkippedOrFirstActive(db, before, after, items[1..]);
      if k :| FirstActive(db, before, after, items[1..], k) {
        forall j | 0 <= j < k + 1 ensures Skipped(db, before, after, items[j]) {
          if j > 0 { assert items[j] == items[1..][j - 1]; }
        }
        assert FirstActive(db, before, after, items, k + 1);
      } else {
        forall j | 0 <= j < |items| ensures Skipped(db, before, after, items[j]) {
          if j > 0 { assert items[j] == items[1..][j - 1]; }
        }
      }
    }
  }

  /** The result of a stopping decrement: one user, by a positive amount its counter covers. */
  predicate DecrementsOne(db: Store, d: Store, u: string, amount: int) {
    u in db.users && 0 < amount <= db.users[u].unreadMessageCount && d == AddToUser(db, u, -amount)
  }

  /** A read changes at most one user's counter, by a positive amount no larger than that counter. */
  lemma AtMostOneDecrement(db: Store, before: Option<ChatDoc>, after: Option<ChatDoc>)
    requires SyncOnRead(db, before, after).Some?
    ensures SyncOnRead(db, before, after) == Some(db)
      || exists u, amount :: DecrementsOne(db, SyncOnRead(db, before, after).value, u, amount)
  {
    if before.Some? && after.Some? {
      var items := IterItems(after.value.participants).value;
      AllSkippedOrFirstActive(db, before.value.unreadCounts, after.value.unreadCounts, items);
      if k :| FirstActive(db, before.value.unreadCounts, after.value.unreadCounts, items, k) {
        var b, a := before.value.unreadCounts, after.value.unreadCounts;
        var r := SyncLoop(db, b, a, items);
        assert r == SyncOnRead(db, before, after);
        assert DocId(items[k]).Some?;
        var u := items[k].s;
        assert r == Some(TakeOff(db, b, u));
        assert PropertyKey(items[k]) == u;
        assert Covers(db, b, u) && CountOf(b, u) > 0;
        assert DecrementsOne(db, r.value, u, CountOf(b, u));
      }
    }
  }

  /** No global counter goes negative through a read. */
  lemma CountersStayNonNegative(db: Store, before: Option<ChatDoc>, after: Option<ChatDoc>)
    requires forall u :: u in db.users ==> db.users[u].unreadMessageCount >= 0
    requires SyncOnRead(db, before, after).Some?
    ensures var d := SyncOnRead(db, before, after).value;
      forall u :: u in d.users ==> d.users[u].unreadMessageCount >= 0
  {
    AtMostOneDecrement(db, before, after);
  }

  /** The chat update the increment itself makes never triggers a decrement. */
  lemma IncrementDoesNotTriggerRead(db: Store, chatId: string, message: Json, d: Store)
    requires IncrementUnread(db, chatId, Some(message)) == Some(d) && d != db
    ensures chatId in db.chats && chatId in d.chats
    ensures SyncOnRead(d, Some(db.chats[chatId]), Some(d.chats[chatId])) == Some(d)
  {
    RecipientIsFirstNonSender(db, chatId, message, d);
    var b := db.chats[chatId].unreadCounts;
    var a := d.chats[chatId].unreadCounts;
    var items := IterItems(d.chats[chatId].participants);
    if items.Some? {
      forall k | 0 <= k < |items.value| ensures Skipped(d, b, a, items.value[k]) {
        var key := PropertyKey(items.value[k]);
        assert CountOf(a, key) == CountOf(b, key) || CountOf(a, key) == CountOf(b, key) + 1;
      }
    }
  }

  /** The client marking chat `chat` read for `u`: `unreadCounts.{u}` becomes 0. */
  function MarkRead(chat: ChatDoc, u: string): (r: ChatDoc)
    ensures r.participants == chat.participants
    ensures CountOf(r.unreadCounts, u) == 0
    ensures forall k :: k != u ==> CountOf(r.unreadCounts, k) == CountOf(chat.unreadCounts, k)
  {
    chat.(unreadCounts := chat.unreadCounts[u := 0])
  }

  /**
   * A message, then its recipient reading the chat: when the participants are
   * strings and the recipient's global counter covered the chat's count, the
   * read takes the chat's whole count off, so the global counter ends where it
   * was less the chat's earlier unread count (unchanged when that was 0).
   */
  lemma MessageThenRead(db: Store, chatId: string, message: Json, d: Store, u: string)
    requires IncrementUnread(db, chatId, Some(message)) == Some(d) && d != db
    requires chatId in db.chats && db.chats[chatId].participants.Some?
    requires db.chats[chatId].participants.value.Arr?
    requires forall k :: 0 <= k < |db.chats[chatId].participants.value.items| ==> db.chats[chatId].participants.value.items[k].Str?
    requires u in db.users && RecipientOf(db.chats[chatId], message) == Some(Str(u))
    requires 0 <= CountOf(db.chats[chatId].unreadCounts, u) <= db.users[u].unreadMessageCount
    ensures chatId in d.chats && u in d.users
    ensures var e := SyncOnRead(d, Some(d.chats[chatId]), Some(MarkRead(d.chats[chatId], u)));
      && e.Some? && u in e.value.users
      && e.value.users[u].unreadMessageCount == db.users[u].unreadMessageCount - CountOf(db.chats[chatId].unreadCounts, u)
      && (forall v :: v in d.users && v != u ==> v in e.value.users && e.value.users[v] == d.users[v])
  {
    var chat := db.chats[chatId];
    var items := chat.participants.value.items;
    var sender := Member(message, "senderId");
    var k :| IsFirstOther(items, sender, k) && items[k] == Str(u);
    assert d == CountMessage(db, chatId, u);
    var b := d.chats[chatId].unreadCounts;
    var a := MarkRead(d.chats[chatId], u).unreadCounts;
    assert IterItems(d.chats[chatId].participants) == Some(items);
    forall j | 0 <= j < k ensures Skipped(d, b, a, items[j]) {
      assert StrictEquals(items[j], sender) && items[j].Str?;
      assert PropertyKey(items[j]) != u;
    }
    assert FirstActive(d, b, a, items, k);
  }
}
